=== FILE: README.md ===
# Rubrica and PBX monitor: a Dafny model

This project models the core of a small office phone-book web application. The application is made of four parts.

- **PBX monitor.** A call-tracking state machine fed by the PBX's `ActiveCallStatus` and `ExtensionStatus` notifications. It records which channels belong to which call (keyed by the PBX's `linkedid`) and which calls are incoming. It shows ringing and connected calls in insertion order and publishes `call_ring`, `call_connect`, `call_hangup` and `extension_status` events to every registered subscriber queue. When the connection drops, all call state is forgotten.
- **UCM client.** The HTTP client of the PBX's management API. It performs the challenge/login handshake with an MD5 token and caches the session cookie for 270 seconds. Its click-to-dial request retries once with a new login.
- **LDAP client.** The directory helpers: escaping of search-filter values, the conversion of a directory entry into a contact, the attributes written by add and update, and the listing order.
- **Web application rules.** Reading and validating the contact forms, composing the display name and uid, the edit log's change list, the index search, the call-log page (filters, paging, the phone→contact names), and the click-to-dial endpoint.

Everything is stated with pure functions over immutable data:

- a PBX step is `Tables × entry → (Tables, events)`;
- a UCM operation is `Session × network → (Session, requests sent, result)`;
- the network is an oracle from (position of the request, request) to a reply;
- MD5, the clock and phone-number normalisation are parameters.

Modules (one file each):

- `Prelude`: option/result types and sequence facts.
- `Text`: Python string semantics.
- `PbxMonitor`: the tables and handlers.
- `PbxProperties`: the invariant, replay and scenario lemmas.
- `EventHub`: subscribers and broadcast.
- `UcmClient`.
- `LdapClient`.
- `ContactForms`, `CallLog` and `ClickToDial`: the rules of `app.py`.

## Model

| member | source | states |
|---|---|---|
| PbxMonitor.Track | pbx_monitor.py:536-540 | every channel of the step is mapped to the call and added to the call's channel set; other channels and all other tables are unchanged |
| PbxMonitor.PutCall | pbx_monitor.py:600 | storing a record in the ordered call table appends a new key at the end and keeps the position of an existing one |
| PbxMonitor.DropCall | pbx_monitor.py:646 | removing a call removes its key from the table and from the display order, nothing else |
| PbxMonitor.Release | pbx_monitor.py:633-656 | removing channels from a call hangs the call up (drops it from the calls, the incoming set and the channel table, and publishes `call_hangup` if it was shown) exactly when no channel of the call remains |
| PbxMonitor.NewRinging | pbx_monitor.py:590-600 | a new ringing record swaps the caller and connected numbers and lists the ringing extension, unless it is empty |
| PbxMonitor.AddExtension | pbx_monitor.py:573-583 | a ring-group member joins the extension list once, never as the empty string, and the list stays duplicate-free |
| PbxMonitor.Ring | pbx_monitor.py:567-617 | the first ring of an incoming call creates a ringing record and publishes `call_ring`; later rings only extend the extension list of a ringing record and publish nothing |
| PbxMonitor.HandleUnbridge | pbx_monitor.py:518-656 | unbridge add/update tracks the channel; only a ring on an incoming, non-trunk leg shows a call; delete forgets the channel and releases its call; other actions change nothing |
| PbxMonitor.FirstMappedIndex | pbx_monitor.py:672-682 | the first channel key, in the order channel1, channel2, channel, that is non-empty and tracked |
| PbxMonitor.ResolveBridgeLinkedid | pbx_monitor.py:658-684 | a non-empty `linkedid` wins; otherwise the call of the first tracked channel, or "" |
| PbxMonitor.BridgeChannels | pbx_monitor.py:701 | exactly the non-empty ones of channel, channel1 and channel2 |
| PbxMonitor.ExtractBridgeParties | pbx_monitor.py:880-900 | the side whose channel name contains "trunk" (case-insensitively, channel1 first) is the external party; no trunk side gives no parties |
| PbxMonitor.HandleBridge | pbx_monitor.py:686-853 | bridge add/update tracks all channels and turns a shown incoming call into a connected one, publishing `call_connect`; delete forgets all channels and releases the call of the first tracked one |
| PbxMonitor.HandleEntry | pbx_monitor.py:494-516 | entries are dispatched on `chantype`; any other chantype changes nothing |
| PbxMonitor.TrunkFirst | pbx_monitor.py:490-493 | the body is reordered so that trunk entries come first: a permutation in which no trunk entry follows a non-trunk one, and in which the trunk entries and the other entries each keep their arrival order (Python's `sorted` is stable) |
| PbxMonitor.HandleActiveCallStatus | pbx_monitor.py:479-516 | handling a body handles all its trunk entries, in arrival order, and then all the other entries, in arrival order; the events are the trunk entries' followed by the others'; the extension states are untouched |
| PbxMonitor.HandleExtensionStatus | pbx_monitor.py:458-477 | only the extension map changes; its keys grow by exactly the reported non-empty extensions; one event per such entry |
| PbxMonitor.ExtensionEvents | pbx_monitor.py:464-477 | at most one event per entry, each an extension status with a non-empty extension |
| PbxMonitor.Notify | pbx_monitor.py:444-452 | a notify with any event name other than ExtensionStatus or ActiveCallStatus changes nothing and publishes nothing |
| PbxMonitor.ActiveCallList | pbx_monitor.py:149-152 | the listed calls are stored calls; when every key of the order is stored, position i holds the call of the i-th key |
| PbxMonitor.CallsInOrder | pbx_monitor.py:149-152 | the listed calls are records of the table, at most one per key of the order |
| PbxProperties.TrackValid | pbx_monitor.py:536-540 | tracking channels keeps the tables consistent: every tracked channel belongs to its call's channel set, and every shown call is incoming, listed once and well formed |
| PbxProperties.ReleaseValid | pbx_monitor.py:626-656 | releasing channels keeps the tables consistent |
| PbxProperties.UnbridgeValid | pbx_monitor.py:518-656 | every unbridge entry keeps the tables consistent |
| PbxProperties.BridgeValid | pbx_monitor.py:686-853 | every bridge entry keeps the tables consistent |
| PbxProperties.FoldValid | pbx_monitor.py:494-516 | applying a whole body, entry by entry, keeps the tables consistent |
| PbxProperties.NotifyValid | pbx_monitor.py:437-452 | every notification keeps the tables consistent |
| PbxProperties.CallSurvivesWhileChannelRemains | pbx_monitor.py:638-656 | a shown call with a tracked channel that the entry does not delete stays shown and is not hung up |
| PbxProperties.HangupOnlyAfterLastChannel | pbx_monitor.py:640-656 | a `call_hangup` is published only for a shown call, which is then gone from every table and no channel points at it |
| PbxProperties.HangupOnlyOnDelete | pbx_monitor.py:536-625 | add and update entries never publish a hang-up |
| PbxProperties.ReplayAppend | pbx_monitor.py:991-1002 | replaying two event batches is replaying their concatenation |
| PbxProperties.EntryEventsAgree | pbx_monitor.py:494-516 | one entry publishes at most one event: a ring for a newly shown call, a connect for a call still shown, or a hang-up for a call no longer shown; otherwise the shown set is unchanged |
| PbxProperties.FoldReplay | pbx_monitor.py:494-516 | replaying the events of a body on the calls shown before gives the calls shown after |
| PbxProperties.NotifyReplay | pbx_monitor.py:437-452 | the same for any notification |
| PbxProperties.ExtensionStatusReplay | pbx_monitor.py:458-477 | replaying extension events on the old status map gives the new status map |
| PbxProperties.PresentEmptyLinkedidIsIgnored | pbx_monitor.py:534 | an extension ring whose `linkedid` key is present but empty shows nothing |
| PbxProperties.MissingLinkedidFallsBack | pbx_monitor.py:534 | an extension ring without a `linkedid` key is attributed to its `uniqueid` |
| PbxProperties.PartiesIgnoreSideOrder | pbx_monitor.py:880-900 | with exactly one trunk side, the parties do not depend on which side is listed first |
| PbxProperties.ActiveCallListComplete | pbx_monitor.py:149-152 | on consistent tables the list has one entry per shown call, in insertion order |
| PbxProperties.TrunkEntriesSortedFirst | pbx_monitor.py:490-493 | a frame listing the extension before the trunk is processed trunk first |
| PbxProperties.InboundCallScenario | pbx_monitor.py:479-853 | an inbound call that rings, is answered and hangs up publishes ring, connect and hang-up, and the tables return to empty |
| EventHub.Subscribe | pbx_monitor.py:159-166 | the queue is appended: one more registration of it, the others unchanged and in order |
| EventHub.Unsubscribe | pbx_monitor.py:168-174 | one registration of the queue is removed; an unregistered queue is ignored |
| EventHub.SubscribeUnsubscribe | pbx_monitor.py:159-174 | unsubscribing a newly subscribed queue restores the list exactly |
| EventHub.UnsubscribeKeepsOrder | pbx_monitor.py:168-174 | unsubscribing cuts out exactly the first registration |
| EventHub.Broadcast | pbx_monitor.py:991-1002 | a queue that is not registered, or that refuses the event, keeps exactly the events it had |
| EventHub.BroadcastDelivers | pbx_monitor.py:991-1002 | each accepting queue receives one copy per registration; a refusing queue receives nothing and stays registered |
| EventHub.PublishDelivers | pbx_monitor.py:991-1002 | a queue receives every published event, in order, once per registration |
| EventHub.OnNotify | pbx_monitor.py:437-452 | the subscribers stay registered and unregistered queues receive nothing |
| EventHub.OnConnectionClosed | pbx_monitor.py:232-238 | a lost connection empties the call list, the extension states and all channel tables, and keeps the subscribers |
| EventHub.OnNotifyValid | pbx_monitor.py:437-452 | the monitor's tables stay consistent across notifications |
| EventHub.SubscriberStaysInSync | pbx_monitor.py:991-1002 | a subscriber that accepts everything can reconstruct the shown calls from the events it receives |
| UcmClient.CheckReply | ucm_client.py:77-107 | a reply is accepted iff it was delivered with status absent or 0; a rejection carries the reply's message or the status code |
| UcmClient.Post | ucm_client.py:90-98 | each request is appended to the trace and answered by the network |
| UcmClient.Authenticate | ucm_client.py:109-141 | a challenge is always requested first; success means login with token md5(challenge + password), a non-empty cookie and the time recorded; a failure leaves the session unchanged |
| UcmClient.GetCookie | ucm_client.py:143-148 | a fresh cookie (non-empty and younger than 270 s) is reused without a request; otherwise the client logs in |
| UcmClient.DialOutbound | ucm_client.py:150-184 | a success means the last request sent was a dial for the given extension and number that the PBX accepted; a failure to obtain the first cookie sends no dial, keeps the session and returns that failure; after any dial the cached cookie is the one that dial carried, and a newly cached cookie is stamped with the current time |
| UcmClient.RetryShape | ucm_client.py:173-184 | after a refused first dial the client logs in again from an empty cookie, keeps whatever session that login leaves, and reports the outcome of the second dial, or the login failure without a second dial |
| UcmClient.DialTrace | ucm_client.py:150-184 | at most six requests and two dials, every dial carrying the extension, the number and a cookie the server issued; success iff the last request is a dial the PBX accepted |
| UcmClient.RetryLogsInAgain | ucm_client.py:172-184 | a rejected dial is followed by a new login even if the cookie was fresh; a failed re-login leaves no cookie |
| UcmClient.FirstDialAccepted | ucm_client.py:163-172 | an accepted first dial ends the operation without a retry |
| UcmClient.SessionWindow | ucm_client.py:58 | a login is reused without any request for less than 270 seconds, and renewed from then on |
| LdapClient.EscapeFilterValue | ldap_client.py:238-262 | the escaped value holds no `*`, `(`, `)` or NUL, and a value without special characters is unchanged |
| LdapClient.EscapeIsPerCharacter | ldap_client.py:238-262 | the five successive replacements equal escaping each character on its own (backslash first prevents double escaping) |
| LdapClient.EscapedIsSafe | ldap_client.py:238-262 | no `*`, `(`, `)` or NUL survives escaping, and a value without special characters is unchanged |
| LdapClient.UnescapeEscape | ldap_client.py:238-262 | unescaping the escaped value gives back the value |
| LdapClient.UidFilter | ldap_client.py:112-116 | the filter is `(&(objectClass=inetOrgPerson)(uid=v))` with a value v holding no parenthesis, wildcard or NUL |
| LdapClient.UidFilterStructure | ldap_client.py:112-116 | the uid filter's value slot holds no unescaped metacharacter and decodes to the uid |
| LdapClient.EntryToContact | ldap_client.py:54-77 | the first and second phone values become the two numbers; a missing attribute gives "" |
| LdapClient.Dn | ldap_client.py:139 | for a uid without a comma, splitting the DN after `uid=` at its first comma gives back the uid and the base |
| LdapClient.PhoneList | ldap_client.py:140-143 | the stored phone list holds the first number, then the second if given |
| LdapClient.AddAttributes | ldap_client.py:139-155 | givenName and title are written only when non-empty |
| LdapClient.AddRoundTrip | ldap_client.py:123-162 | reading back an added entry gives the contact entered, with cn and displayName equal |
| LdapClient.UpdateChanges | ldap_client.py:183-212 | uid and objectClass are never replaced; an empty givenName or title is replaced by no value |
| LdapClient.ApplyReplace | ldap_client.py:188-212 | replaced attributes take the new values and the others are unchanged |
| LdapClient.UpdateRoundTrip | ldap_client.py:164-217 | reading back an updated entry gives its uid and the values entered |
| LdapClient.InsertSorted | ldap_client.py:94 | inserting into a list sorted by lowercased display name keeps it sorted |
| LdapClient.SortContacts | ldap_client.py:94 | the listing is a permutation of the entries, sorted by lowercased display name |
| LdapClient.SortIsStable | ldap_client.py:94 | contacts with the same key keep their directory order |
| ContactForms.FormField | app.py:205-209 | a missing field reads as ""; a field never starts or ends with whitespace |
| ContactForms.ReadFields | app.py:205-209 | title, given name, surname and both numbers are read from the keys title, given_name, sn, telephone and telephone2, each trimmed and "" when missing |
| ContactForms.DisplayName | app.py:230 | the display name is empty only if all parts are; a company (surname only) is named by its surname |
| ContactForms.Uid | app.py:232 | the uid holds no space |
| ContactForms.UidIsConcatenation | app.py:229-232 | the uid is the uids of title, given name and surname written together, whichever parts are empty and whatever spaces they hold inside |
| ContactForms.DisplayNameEndsWithSurname | app.py:230 | the surname always ends the display name |
| ContactForms.DisplayNameSpacing | app.py:230 | the non-empty parts appear in the order title, given name, surname, each separated from the next by exactly one space |
| ContactForms.Validate | app.py:211-227 | a missing surname or first number is refused before normalisation; otherwise accepted iff every number given normalises, and the normalised numbers are kept |
| ContactForms.PlanAdd | app.py:204-240 | a refused form sends nothing; an accepted one writes an entry that reads back as the contact entered, under `uid=<uid>,<base>`, and logs "Nome: <name>, Tel: <number>" with ", Tel2: <second number>" when one was given, the numbers as typed |
| ContactForms.ChangeList | app.py:304-310 | there is an entry for the name, the first and the second number exactly when that field differs from the contact read before, and nothing when no contact was read |
| ContactForms.NoChangesIffNothingDiffers | app.py:311-315 | "Nessuna modifica rilevata" is logged exactly when no field differs |
| ContactForms.EditDetail | app.py:311-315 | no change gives "Nessuna modifica rilevata"; otherwise the detail starts with the first change, and a single change is the whole detail |
| ContactForms.EditDetailAsWritten | app.py:304-315 | a refused form logs nothing; an accepted one logs "Nessuna modifica rilevata" exactly when there was no stored contact, or the stored name equals the new name and the stored numbers equal the numbers as typed |
| ContactForms.EditDetailNormalised | app.py:304-315 | the same, except that the stored numbers are compared with the normalised numbers about to be stored |
| ContactForms.UnchangedNumberLoggedAsChanged | app.py:307-308 | re-saving a stored mobile number typed in national form logs a change of number although nothing changes |
| ContactForms.UnchangedEditLogsNothing | app.py:257-258 | comparing normalised values, re-saving an unchanged contact logs no change |
| ContactForms.Filter | app.py:184-190 | each contact appears in the result as often as in the directory if it matches and not at all otherwise |
| ContactForms.FilterAppend | app.py:184-190 | filtering two runs of contacts filters each and keeps them in the same order, so the result is in directory order |
| ContactForms.Search | app.py:174-190 | an empty or blank query lists every contact; otherwise a contact is listed iff its lowercased name or one of its numbers contains the lowercased query |
| ContactForms.SearchIdempotent | app.py:181-190 | searching the results again for the same text changes nothing |
| ContactForms.SearchIgnoresQueryCase | app.py:174-183 | the results do not depend on the case of the query |
| CallLog.Conditions | app.py:385-401 | the WHERE clause holds a condition for each non-empty filter, and a direction condition only for "inbound" or "outbound" |
| CallLog.Where | app.py:403-413 | a row is kept iff it is in the table and satisfies every condition |
| CallLog.WhereAppend | app.py:403-413 | selecting from two runs of rows selects from each and keeps them in the same order, so the kept rows are in table order |
| CallLog.TotalPages | app.py:416 | at least one page, enough pages for every row, and no superfluous page |
| CallLog.Offset | app.py:409 | page p starts after (p-1)·50 rows; a page below 1 starts at the first row |
| CallLog.Page | app.py:410-413 | a page holds at most 50 rows, the window starting at the offset |
| CallLog.PagesCoverRows | app.py:409-416 | reading pages 1 to the last in turn shows every row once, in order |
| CallLog.ReadPage | app.py:382-422 | the count is that of the matching rows, the number of pages is `TotalPages` of that count, and the entries are exactly the requested page's window of the matching rows, in table order; an unreadable database shows an empty log with one page |
| CallLog.UnknownDirectionIgnored | app.py:387-389 | a direction other than inbound or outbound gives the same page as no direction |
| CallLog.KnownDirectionFilters | app.py:387-389 | with a known direction, only calls in that direction are shown |
| CallLog.Enter | app.py:429-435 | a contact's non-empty numbers point at it; other numbers are unchanged |
| CallLog.PhoneMap | app.py:427-435 | a number is a key iff some listed contact carries it (empty numbers never are), and it leads to the last such contact |
| CallLog.PhoneMapLastWins | app.py:427-435 | a number is in the map iff some contact carries it, and it leads to the last such contact |
| CallLog.LookUp | app.py:437-440 | a number that does not normalise, or is unknown, shows no contact |
| CallLog.Annotate | app.py:424-444 | every row keeps its data and gets the contact of its normalised number; an unreadable directory shows no contact at all |
| CallLog.ShownNameIsLastContact | app.py:424-440 | the name next to a call is that of the last listed contact with that number |
| ClickToDial.DisplayNumberAsWritten | app.py:486 | the shown number neither starts nor ends with '+', '3' or '9' |
| ClickToDial.StripEatsNationalDigits | app.py:486 | every Italian number whose national part starts or ends with 3 or 9 is shown with digits missing |
| ClickToDial.DisplayNumber | app.py:486 | the shown number is the national number: the input with a leading "+39" removed, and otherwise the input unchanged |
| ClickToDial.DisplayNumberIsNational | app.py:485-486 | the national part of "+39" + n is n |
| ClickToDial.JsonField | app.py:476-477 | a missing key reads as ""; a value never starts or ends with whitespace |
| ClickToDial.ApiCall | app.py:464-492 | an empty body is refused first, then a missing extension (even with a missing number), then a missing number, all with status 400 and no request; otherwise 200 with the message "Chiamata in corso verso <number as `strip("+39")` leaves it>..." or 502 with the client's error |
| ClickToDial.ApiCallNational | app.py:485-490 | the corrected endpoint sends the same requests and replies with the same status, and shows the national number of a "+39" number |
| ClickToDial.MobileCallAnnounced | app.py:485-490 | an accepted call to "+393331234567" is announced as a call to "1234567" as written, and to "3331234567" when corrected |
| ClickToDial.ApiCallDialsAsAsked | app.py:485-489 | the PBX is asked to call the number as received, not the shortened one shown, and the reply is a success iff the PBX accepted the last dial |

## Left out

- The WebSocket connection, its login, subscription, heartbeat and reconnection timing (pbx_monitor.py:201-390), and JSON decoding of frames. Only the state reset on a lost connection is modelled.
- The SQLite call-log writes of the monitor (`_log_inbound_ring`, `_log_call_answered`, `_log_outbound_call`, `_finalize_call_log`). They are database I/O and do not affect what is shown or published.
- Logging, threads and locks. All accesses are taken as sequential. The server-sent-events generator is not modelled either.
- `audit_log.py`, Flask routing and templates, `delete_contact`, `api_lookup` and `api_calls`. `api_lookup` calls `search_by_phone`, which ldap_client.py does not define.
- `normalize_number` and `format_phone`, which wrap the phonenumbers library. Normalisation is a parameter returning an optional number.
- MD5 is an uninterpreted parameter. The network is an oracle indexed by the request's position. The clock is a single `now` per operation.
- The actual LDAP and HTTP calls, and their exceptions other than the ones the callers handle.
- `Text.Lower`: Python's `str.lower` is Unicode-wide. The model lowercases ASCII letters only.
- `Text.Trim`: Python's `str.strip()` also strips non-ASCII whitespace. The model strips ASCII whitespace only.
- `LdapClient.EntryToContact`: `str()` of an attribute is taken to be its first value.
- `UcmClient.CheckReply`: the reply status is an integer. Non-integer statuses and HTTP-level errors other than a failed transport are not modelled.
- `CallLog.Like`: the `%` and `_` wildcards inside a user's filter text are matched literally. SQLite would treat them as wildcards.
- `CallLog.Holds`: the date filters are compared as strings, as SQLite compares the stored text. No date parsing is modelled.
- `CallLog.ReadPage`: the table is given in descending id order rather than sorted by the query.
- `CallLog.Offset`: integers are unbounded. SQLite binds the offset as a 64-bit integer, so a `page` whose offset (page - 1) · 50 falls outside that range makes the source raise OverflowError, which `call_log_page` does not catch. The model returns a page instead.
- `ClickToDial.ApiCall`: JSON values that are not strings are not modelled, because the source would fail on them before replying.
- `EventHub.Broadcast`: events are delivered as immutable values. In the source every queue receives the same dict object (pbx_monitor.py:997-1002), and each server-sent-events reader removes its `event` key in place (app.py:550). With two clients subscribed, the first reader strips the type and later readers stream the event as `message`. This aliasing between consumers is outside the model, which promises each queue the event as published.
- `LdapClient.Dn`: the DN is built by plain concatenation, as the source does. No RFC 4514 escaping property is claimed.
- Where the code and its own documentation disagree, the model follows the code:
  - the token is md5(challenge + password);
  - the cookie window is 270 seconds, not five minutes;
  - a queue that refuses an event is neither emptied (the broadcast docstring says full queues are emptied) nor dropped;
  - calls are keyed by `linkedid`;
  - no directory lookup happens when a call rings;
  - the search lowercases only the query and the display name, not the phone numbers.

## Findings

| source | as written | input that shows it | evidently intended | confidence | as-written member | corrected member |
|---|---|---|---|---|---|---|
| app.py:486 | `number.strip("+39")` removes every leading and trailing '+', '3' and '9' | "+393331234567" is shown as "1234567" | remove the "+39" country prefix only, showing "3331234567" | high; not executed | ClickToDial.DisplayNumberAsWritten, ClickToDial.ApiCall, ClickToDial.MobileCallAnnounced | ClickToDial.DisplayNumber, ClickToDial.ApiCallNational, ClickToDial.DisplayNumberIsNational |
| app.py:307-310 | the edit log compares the stored, normalised numbers with the numbers as typed | stored "+393331234567", form "3331234567" normalising to it: logs "Tel: +393331234567 -> 3331234567" | log only fields that actually change (app.py:257-258), comparing normalised values | medium; not executed | ContactForms.EditDetailAsWritten, ContactForms.UnchangedNumberLoggedAsChanged | ContactForms.EditDetailNormalised, ContactForms.UnchangedEditLogsNothing |

=== FILE: call_log.dfy ===
/** The call-log page of the web application (`app.py`, `call_log_page`):
    the filter conditions built from the query string, the rows of one page
    in newest-first order, the page count, and the names shown next to each
    row, taken from the directory by phone number. The database is read as
    the whole `call_log` table in descending id order; the directory as its
    list of contacts. */
module CallLog {
  import opened Prelude
  import opened Text
  import opened LdapClient
  import opened ContactForms

  const PerPage: nat := 50

  datatype CallRow = CallRow(id: int, timestamp: string, direction: string, externalNumber: string,
                             internalExt: string, internalName: string)

  /** The query-string filters, each already trimmed. */
  datatype Filters = Filters(direction: string, number: string, ext: string, dateFrom: string, dateTo: string)

  /** One SQL condition of the `WHERE` clause. */
  datatype Condition =
    | DirectionIs(direction: string)
    | NumberLike(number: string)
    | ExtLike(ext: string)
    | Since(date: string)
    | Until(date: string)

  predicate KnownDirection(d: string) {
    d == "inbound" || d == "outbound"
  }

  /** Whether the filters ask for condition `c`: a direction other than
      "inbound" and "outbound" is ignored, and an empty filter asks for
      nothing. */
  predicate Asked(f: Filters, c: Condition) {
    match c
    case DirectionIs(d) => d == f.direction && KnownDirection(d)
    case NumberLike(n) => n == f.number && n != ""
    case ExtLike(e) => e == f.ext && e != ""
    case Since(d) => d == f.dateFrom && d != ""
    case Until(d) => d == f.dateTo && d != ""
  }

  /** The conditions, in the order the page adds them: exactly those the
      filters ask for, each once. */
  function Conditions(f: Filters): (r: seq<Condition>)
    ensures |r| <= 5
    ensures forall c :: c in r <==> Asked(f, c)
  {
    var a := When(KnownDirection(f.direction), DirectionIs(f.direction));
    var b := When(f.number != "", NumberLike(f.number));
    var c := When(f.ext != "", ExtLike(f.ext));
    var d := When(f.dateFrom != "", Since(f.dateFrom));
    var e := When(f.dateTo != "", Until(f.dateTo));
    a + b + c + d + e
  }

  /** The condition, if the filter asks for it. */
  function When(present: bool, c: Condition): (r: seq<Condition>)
    ensures |r| <= 1
    ensures forall x :: x in r <==> present && x == c
  {
    if present then [c] else []
  }

  /** SQLite's `column LIKE '%x%'` for a pattern without wildcards: a
      substring test that ignores the case of ASCII letters. */
  predicate Like(column: string, x: string) {
    Contains(Lower(column), Lower(x))
  }

  /** What each condition asks of a row. Timestamps are compared as
      strings, the dates completed with the first and last second of the
      day. */
  predicate Holds(row: CallRow, c: Condition) {
    match c
    case DirectionIs(d) => row.direction == d
    case NumberLike(n) => Like(row.externalNumber, n)
    case ExtLike(e) => Like(row.internalExt, e) || Like(row.internalName, e)
    case Since(d) => StrLe(d + " 00:00:00", row.timestamp)
    case Until(d) => StrLe(row.timestamp, d + " 23:59:59")
  }

  predicate Selects(conds: seq<Condition>, row: CallRow) {
    forall i :: 0 <= i < |conds| ==> Holds(row, conds[i])
  }

  /** The rows satisfying every condition, in table order. */
  function Where(rows: seq<CallRow>, conds: seq<Condition>): (r: seq<CallRow>)
    ensures |r| <= |rows|
    ensures forall row :: row in r <==> row in rows && Selects(conds, row)
  {
    if |rows| == 0 then []
    else (if Selects(conds, rows[0]) then [rows[0]] else []) + Where(rows[1..], conds)
  }

  /** Selecting from two runs of rows selects from each and keeps them in
      the same order: the rows kept are in table order. */
  lemma {:induction false} WhereAppend(a: seq<CallRow>, b: seq<CallRow>, conds: seq<Condition>)
    ensures Where(a + b, conds) == Where(a, conds) + Where(b, conds)
  {
    if |a| == 0 {
      assert a + b == b;
    } else {
      assert (a + b)[0] == a[0];
      assert (a + b)[1..] == a[1..] + b;
      WhereAppend(a[1..], b, conds);
    }
  }

  /** A single row is kept exactly when it satisfies every condition. */
  lemma WhereSingle(row: CallRow, conds: seq<Condition>)
    ensures Where([row], conds) == if Selects(conds, row) then [row] else []
  {
    assert [row][1..] == [];
  }

  // ---------------------------------------------------------------------
  // Paging
  // ---------------------------------------------------------------------

  /** `max(1, (total + per_page - 1) // per_page)`: enough pages for every
      row, and at least one. */
  function TotalPages(total: nat): (n: nat)
    ensures n >= 1
    ensures total <= PerPage * n
    ensures n > 1 ==> PerPage * (n - 1) < total
  {
    var n := (total + PerPage - 1) / PerPage;
    if n < 1 then 1 else n
  }

  /** `(page - 1) * per_page`; SQLite reads a negative offset as zero. */
  function Offset(page: int): (o: nat)
    ensures page >= 1 ==> o == (page - 1) * PerPage
    ensures page < 1 ==> o == 0
  {
    if page < 1 then 0 else (page - 1) * PerPage
  }

  /** `LIMIT 50 OFFSET (page - 1) * 50`. */
  function Page(rows: seq<CallRow>, page: int): (r: seq<CallRow>)
    ensures |r| <= PerPage
    ensures Offset(page) <= |rows| ==> r == rows[Offset(page)..Min(Offset(page) + PerPage, |rows|)]
    ensures Offset(page) >= |rows| ==> r == []
  {
    var lo := Min(Offset(page), |rows|);
    rows[lo..Min(lo + PerPage, |rows|)]
  }

  function Min(a: nat, b: nat): nat {
    if a <= b then a else b
  }

  /** Pages 1 to `k`, one after the other. */
  function FirstPages(rows: seq<CallRow>, k: nat): seq<CallRow> {
    if k == 0 then [] else FirstPages(rows, k - 1) + Page(rows, k)
  }

  lemma {:induction false} FirstPagesPrefix(rows: seq<CallRow>, k: nat)
    ensures FirstPages(rows, k) == rows[..Min(PerPage * k, |rows|)]
  {
    if k > 0 {
      FirstPagesPrefix(rows, k - 1);
      var a := Min(PerPage * (k - 1), |rows|);
      if Offset(k) <= |rows| {
        assert rows[..a] + rows[a..Min(PerPage * k, |rows|)] == rows[..Min(PerPage * k, |rows|)];
      }
    }
  }

  /** Reading every page in turn shows each row once, in order. */
  lemma PagesCoverRows(rows: seq<CallRow>)
    ensures FirstPages(rows, TotalPages(|rows|)) == rows
  {
    FirstPagesPrefix(rows, TotalPages(|rows|));
  }

  /** A page beyond the last is empty. */
  lemma PagesBeyondAreEmpty(rows: seq<CallRow>, page: int)
    requires page > TotalPages(|rows|)
    ensures Page(rows, page) == []
  {
  }

  // ---------------------------------------------------------------------
  // The page
  // ---------------------------------------------------------------------

  datatype CallLogView = CallLogView(entries: seq<CallRow>, total: nat, totalPages: nat)

  /** `call_log_page`'s database part: `None` stands for a database the
      query cannot run against (the table missing), which shows an empty
      log. */
  function ReadPage(table: Option<seq<CallRow>>, f: Filters, page: int): (r: CallLogView)
    ensures r.totalPages >= 1 && r.total <= PerPage * r.totalPages && |r.entries| <= PerPage
    ensures r.totalPages == TotalPages(r.total)
    ensures table.None? ==> r == CallLogView([], 0, 1)
    ensures table.Some? ==> r.total == |Where(table.value, Conditions(f))|
    ensures table.Some? ==> r.entries == Page(Where(table.value, Conditions(f)), page)
    ensures forall row :: row in r.entries ==> Selects(Conditions(f), row)
  {
    match table
    case None => CallLogView([], 0, 1)
    case Some(rows) =>
      var selected := Where(rows, Conditions(f));
      var entries := Page(selected, page);
      assert forall row :: row in entries ==> row in selected;
      CallLogView(entries, |selected|, TotalPages(|selected|))
  }

  /** An unknown direction shows the same page as no direction at all. */
  lemma UnknownDirectionIgnored(table: Option<seq<CallRow>>, f: Filters, page: int)
    requires !KnownDirection(f.direction)
    ensures ReadPage(table, f, page) == ReadPage(table, f.(direction := ""), page)
  {
    assert Conditions(f) == Conditions(f.(direction := ""));
  }

  /** A known direction shows only calls in that direction. */
  lemma KnownDirectionFilters(table: Option<seq<CallRow>>, f: Filters, page: int)
    requires KnownDirection(f.direction)
    ensures forall row :: row in ReadPage(table, f, page).entries ==> row.direction == f.direction
  {
    var conds := Conditions(f);
    assert conds[0] == DirectionIs(f.direction);
  }

  // ---------------------------------------------------------------------
  // Names from the directory
  // ---------------------------------------------------------------------

  datatype Link = Link(displayName: string, uid: string)

  function LinkOf(c: Contact): Link {
    Link(c.displayName, c.uid)
  }

  predicate HasPhone(c: Contact, p: string) {
    p != "" && (c.telephone == p || c.telephone2 == p)
  }

  /** One contact's numbers entered in the map, each non-empty number
      pointing at the contact. */
  function Enter(m: map<string, Link>, c: Contact): (r: map<string, Link>)
    ensures forall p :: p in r <==> p in m || HasPhone(c, p)
    ensures forall p :: p in r ==> r[p] == (if HasPhone(c, p) then LinkOf(c) else m[p])
  {
    var m1 := if c.telephone != "" then m[c.telephone := LinkOf(c)] else m;
    if c.telephone2 != "" then m1[c.telephone2 := LinkOf(c)] else m1
  }

  /** `phone_to_contact`: the contacts entered in order, so that a later
      contact replaces an earlier one with the same number. */
  function PhoneMapFrom(m: map<string, Link>, contacts: seq<Contact>): map<string, Link>
    decreases |contacts|
  {
    if |contacts| == 0 then m else PhoneMapFrom(Enter(m, contacts[0]), contacts[1..])
  }

  /** `phone_to_contact`: each non-empty number of the directory leads to
      the last listed contact carrying it, and no other key is present. */
  function PhoneMap(contacts: seq<Contact>): (r: map<string, Link>)
    ensures forall p :: p in r <==> LastWith(contacts, p).Some?
    ensures forall p :: p in r ==> r[p] == LinkOf(contacts[LastWith(contacts, p).value])
  {
    assert forall p :: ((p in PhoneMapFrom(map[], contacts) <==> LastWith(contacts, p).Some?)
                        && (p in PhoneMapFrom(map[], contacts) ==>
                              PhoneMapFrom(map[], contacts)[p] == LinkOf(contacts[LastWith(contacts, p).value]))) by {
      forall p {
        PhoneMapLastWins(contacts, p);
      }
    }
    PhoneMapFrom(map[], contacts)
  }

  /** The position of the last contact with number `p`, if any. */
  function LastWith(contacts: seq<Contact>, p: string): (r: Option<nat>)
    ensures r.Some? ==> r.value < |contacts| && HasPhone(contacts[r.value], p)
    ensures r.Some? ==> forall j :: r.value < j < |contacts| ==> !HasPhone(contacts[j], p)
    ensures r.None? ==> forall j :: 0 <= j < |contacts| ==> !HasPhone(contacts[j], p)
    decreases |contacts|
  {
    if |contacts| == 0 then None
    else if HasPhone(contacts[|contacts| - 1], p) then Some(|contacts| - 1)
    else LastWith(contacts[..|contacts| - 1], p)
  }

  lemma {:induction false} PhoneMapFromAppend(m: map<string, Link>, a: seq<Contact>, c: Contact)
    ensures PhoneMapFrom(m, a + [c]) == Enter(PhoneMapFrom(m, a), c)
    decreases |a|
  {
    if |a| == 0 {
      assert a + [c] == [c];
    } else {
      assert (a + [c])[1..] == a[1..] + [c];
      PhoneMapFromAppend(Enter(m, a[0]), a[1..], c);
    }
  }

  /** A number leads to the last contact carrying it, and only numbers some
      contact carries are in the map. */
  lemma {:induction false} PhoneMapLastWins(contacts: seq<Contact>, p: string)
    ensures p in PhoneMapFrom(map[], contacts) <==> LastWith(contacts, p).Some?
    ensures p in PhoneMapFrom(map[], contacts) ==>
      PhoneMapFrom(map[], contacts)[p] == LinkOf(contacts[LastWith(contacts, p).value])
    decreases |contacts|
  {
    if |contacts| > 0 {
      var init := contacts[..|contacts| - 1];
      var c := contacts[|contacts| - 1];
      assert contacts == init + [c];
      PhoneMapFromAppend(map[], init, c);
      PhoneMapLastWins(init, p);
    }
  }

  /** An empty number is never looked up successfully. */
  lemma EmptyNumberHasNoContact(contacts: seq<Contact>)
    ensures "" !in PhoneMap(contacts)
  {
    assert LastWith(contacts, "").None?;
  }

  /** A row of the page with the directory's name for its external number. */
  datatype ShownRow = ShownRow(row: CallRow, contactName: string, contactUid: string)

  /** The name and uid shown for one external number: the number is
      normalised, and a number that does not normalise shows nothing. */
  function LookUp(m: map<string, Link>, normalize: Normalizer, number: string): (r: Link)
    ensures !Usable(normalize(number)) ==> r == Link("", "")
    ensures Usable(normalize(number)) && normalize(number).value in m ==> r == m[normalize(number).value]
    ensures Usable(normalize(number)) && normalize(number).value !in m ==> r == Link("", "")
  {
    var norm := normalize(number);
    if Usable(norm) && norm.value in m then m[norm.value] else Link("", "")
  }

  /** Every row of the page with its contact; when the directory cannot be
      read, every row shows no contact. */
  function Annotate(entries: seq<CallRow>, directory: Result<seq<Contact>, string>, normalize: Normalizer)
    : (r: seq<ShownRow>)
    ensures |r| == |entries|
    ensures forall i :: 0 <= i < |r| ==> r[i].row == entries[i]
    ensures directory.Err? ==> forall i :: 0 <= i < |r| ==> r[i].contactName == "" && r[i].contactUid == ""
    ensures directory.Ok? ==> forall i :: 0 <= i < |r| ==>
      Link(r[i].contactName, r[i].contactUid) == LookUp(PhoneMap(directory.value), normalize, entries[i].externalNumber)
  {
    if |entries| == 0 then []
    else
      var rest := Annotate(entries[1..], directory, normalize);
      var link := if directory.Ok? then LookUp(PhoneMap(directory.value), normalize, entries[0].externalNumber)
                  else Link("", "");
      [ShownRow(entries[0], link.displayName, link.uid)] + rest
  }

  /** The name shown next to a call is that of the last contact in the
      directory listing whose number is the call's number once normalised. */
  lemma ShownNameIsLastContact(entries: seq<CallRow>, contacts: seq<Contact>, normalize: Normalizer, i: nat)
    requires i < |entries|
    requires Usable(normalize(entries[i].externalNumber))
    ensures var shown := Annotate(entries, Ok(contacts), normalize)[i];
      var k := LastWith(contacts, normalize(entries[i].externalNumber).value);
      && (k.None? ==> shown.contactName == "" && shown.contactUid == "")
      && (k.Some? ==> shown.contactName == contacts[k.value].displayName && shown.contactUid == contacts[k.value].uid)
  {
    PhoneMapLastWins(contacts, normalize(entries[i].externalNumber).value);
  }
}

=== FILE: click_to_dial.dfy ===
/** The click-to-dial endpoint of the web application (`app.py`,
    `api_call`): the JSON body's checks, the call placed through the PBX
    client, and the reply shown to the user. */
module ClickToDial {
  import opened Prelude
  import opened Text
  import opened UcmClient

  const InvalidRequest := "Richiesta non valida."
  const NoExtension := "Seleziona prima il tuo interno."
  const NoNumber := "Numero di telefono mancante."
  const Calling := "Chiamata in corso verso "

  /** The JSON reply and its HTTP status. */
  datatype ApiReply = ApiReply(ok: bool, message: string, status: int)

  /** The reply, with what the PBX client left behind. */
  datatype Outcome = Outcome(reply: ApiReply, session: Session, sent: seq<Request>)

  // ---------------------------------------------------------------------
  // The number shown in the reply
  // ---------------------------------------------------------------------

  /** The characters `number.strip("+39")` removes from both ends. */
  const StripChars: set<char> := {'+', '3', '9'}

  /** The number shown, as written: `number.strip("+39")` removes every
      leading and trailing '+', '3' and '9', not the prefix "+39". */
  function DisplayNumberAsWritten(number: string): (r: string)
    ensures |r| > 0 ==> r[0] !in StripChars && r[|r| - 1] !in StripChars
  {
    Strip(number, StripChars)
  }

  /** The number shown without the Italian country prefix, the evident
      aim: the national number for "+39…", anything else unchanged. */
  function DisplayNumber(number: string): (r: string)
    ensures |r| <= |number|
    ensures "+39" <= number ==> "+39" + r == number
    ensures !("+39" <= number) ==> r == number
  {
    if "+39" <= number then number[3..] else number
  }

  /** The corrected display gives back the national number of every
      Italian number. */
  lemma DisplayNumberIsNational(national: string)
    ensures DisplayNumber("+39" + national) == national
  {
    assert "+39" <= "+39" + national;
    assert ("+39" + national)[3..] == national;
  }

  /** As written, every Italian mobile number (national part starting with
      3) and every number ending in 3 or 9 is shown with digits missing. */
  lemma StripEatsNationalDigits(national: string)
    requires national != "" && (national[0] in StripChars || national[|national| - 1] in StripChars)
    ensures DisplayNumberAsWritten("+39" + national) != national
    ensures DisplayNumber("+39" + national) == national
  {
    DisplayNumberIsNational(national);
  }

  /** The mobile number +39 333 1234567 is shown as "1234567". */
  lemma MobileNumberShownTruncated()
    ensures DisplayNumberAsWritten("+393331234567") != "3331234567"
    ensures DisplayNumber("+393331234567") == "3331234567"
  {
    assert "+393331234567" == "+39" + "3331234567";
    StripEatsNationalDigits("3331234567");
  }

  // ---------------------------------------------------------------------
  // The endpoint
  // ---------------------------------------------------------------------

  /** `data.get(key, "").strip()`. */
  function JsonField(data: map<string, string>, key: string): (r: string)
    ensures key !in data ==> r == ""
    ensures |r| > 0 ==> key in data && r[0] !in Whitespace && r[|r| - 1] !in Whitespace
  {
    Trim(if key in data then data[key] else "")
  }

  /** `api_call`: `data` is the parsed JSON body, None when it is missing
      or not JSON. A body that is empty or lacks the extension or the
      number is refused before the PBX is contacted; otherwise the call is
      placed and its failure reported with the client's message. The
      success message shows the number as `strip("+39")` leaves it. */
  function ApiCall(data: Option<map<string, string>>, cred: Credentials, md5: string -> string,
                   net: Network, s: Session, now: real): (r: Outcome)
    ensures data.None? || data.value == map[] ==> r == Outcome(ApiReply(false, InvalidRequest, 400), s, [])
    ensures data.Some? && data.value != map[] && JsonField(data.value, "extension") == ""
            ==> r == Outcome(ApiReply(false, NoExtension, 400), s, [])
    ensures data.Some? && data.value != map[] && JsonField(data.value, "extension") != ""
            && JsonField(data.value, "number") == ""
            ==> r == Outcome(ApiReply(false, NoNumber, 400), s, [])
    ensures r.reply.status in {200, 400, 502}
    ensures r.reply.ok <==> r.reply.status == 200
    ensures r.sent != [] ==> r.reply.status != 400
    ensures r.reply.ok ==> r.reply.message == Calling + DisplayNumberAsWritten(JsonField(data.value, "number")) + "..."
    ensures r.reply.status == 502 ==>
      var run := DialOutbound(cred, md5, net, s, now, JsonField(data.value, "extension"), JsonField(data.value, "number"));
      run.result.Err? && r.reply.message == run.result.error
  {
    if data.None? || data.value == map[] then Outcome(ApiReply(false, InvalidRequest, 400), s, [])
    else
      var extension := JsonField(data.value, "extension");
      var number := JsonField(data.value, "number");
      if extension == "" then Outcome(ApiReply(false, NoExtension, 400), s, [])
      else if number == "" then Outcome(ApiReply(false, NoNumber, 400), s, [])
      else
        var run := DialOutbound(cred, md5, net, s, now, extension, number);
        match run.result
        case Ok(_) => Outcome(ApiReply(true, Calling + DisplayNumberAsWritten(number) + "...", 200), run.session, run.sent)
        case Err(msg) => Outcome(ApiReply(false, msg, 502), run.session, run.sent)
  }

  /** A call the endpoint accepts asks the PBX to connect the given
      extension with the number exactly as received (not the shortened
      number shown), and succeeds exactly when the PBX accepted the last
      dial request. */
  lemma ApiCallDialsAsAsked(data: map<string, string>, cred: Credentials, md5: string -> string,
                            net: Network, s: Session, now: real)
    requires data != map[]
    requires JsonField(data, "extension") != "" && JsonField(data, "number") != ""
    ensures var r := ApiCall(Some(data), cred, md5, net, s, now);
      && r.reply.status != 400
      && (forall i :: 0 <= i < |r.sent| && r.sent[i].DialRequest? ==>
            r.sent[i].caller == JsonField(data, "extension") && r.sent[i].outbound == JsonField(data, "number"))
      && (r.reply.ok <==> |r.sent| > 0 && r.sent[|r.sent| - 1].DialRequest?
                          && CheckReply(net(|r.sent| - 1, r.sent[|r.sent| - 1])).Ok?)
  {
    var extension, number := JsonField(data, "extension"), JsonField(data, "number");
    ApiCallRuns(data, cred, md5, net, s, now);
    DialTrace(cred, md5, net, s, now, extension, number);
    var run := DialOutbound(cred, md5, net, s, now, extension, number);
    assert DialsWellFormed(s, now, net, run.sent, extension, number);
  }

  /** A request the endpoint accepts is handed to `dial_outbound`
      unchanged, and the reply reports that call's outcome. */
  lemma ApiCallRuns(data: map<string, string>, cred: Credentials, md5: string -> string,
                    net: Network, s: Session, now: real)
    requires data != map[]
    requires JsonField(data, "extension") != "" && JsonField(data, "number") != ""
    ensures var r := ApiCall(Some(data), cred, md5, net, s, now);
      var run := DialOutbound(cred, md5, net, s, now, JsonField(data, "extension"), JsonField(data, "number"));
      && r.sent == run.sent && r.session == run.session
      && r.reply.status != 400 && (r.reply.ok <==> run.result.Ok?)
      && (!r.reply.ok ==> r.reply.status == 502 && r.reply.message == run.result.error)
  {
  }

  /** The endpoint with the evident aim of its success message: the same
      checks, the same requests and the same status, with the national
      number shown for a "+39" number. */
  function ApiCallNational(data: Option<map<string, string>>, cred: Credentials, md5: string -> string,
                           net: Network, s: Session, now: real): (r: Outcome)
    ensures var w := ApiCall(data, cred, md5, net, s, now);
      r.sent == w.sent && r.session == w.session && r.reply.status == w.reply.status && r.reply.ok == w.reply.ok
    ensures !r.reply.ok ==> r == ApiCall(data, cred, md5, net, s, now)
    ensures r.reply.ok ==> r.reply.message == Calling + DisplayNumber(JsonField(data.value, "number")) + "..."
  {
    var w := ApiCall(data, cred, md5, net, s, now);
    if w.reply.ok then w.(reply := w.reply.(message := Calling + DisplayNumber(JsonField(data.value, "number")) + "..."))
    else w
  }

  /** A call to +39 333 1234567 that the PBX accepts is announced as a call
      to "1234567" by the endpoint as written, and to "3331234567" by the
      corrected one. */
  lemma MobileCallAnnounced(cred: Credentials, md5: string -> string, net: Network, s: Session, now: real)
    ensures var data := Some(map["extension" := "101", "number" := "+393331234567"]);
      var r := ApiCall(data, cred, md5, net, s, now);
      r.reply.ok ==>
        && r.reply.message == Calling + "1234567" + "..."
        && ApiCallNational(data, cred, md5, net, s, now).reply.message == Calling + "3331234567" + "..."
  {
    var data := map["extension" := "101", "number" := "+393331234567"];
    StripClean("+393331234567", Whitespace);
    assert JsonField(data, "number") == "+393331234567";
    MobileNumberShownTruncated();
    MobileNumberShownAs();
  }

  /** The characters `strip("+39")` takes from "+393331234567": the six
      leading ones, and none at the end. */
  lemma MobileNumberShownAs()
    ensures DisplayNumberAsWritten("+393331234567") == "1234567"
  {
    var s := "+393331234567";
    MobileLead();
    assert s[6..] == "1234567";
    MobileTrail();
    assert |s[6..]| - TrailLen(s[6..], StripChars) == 7;
  }

  lemma MobileLead()
    ensures LeadLen("+393331234567", StripChars) == 6
  {
    var s := "+393331234567";
    assert s[6] == '1' && s[6] !in StripChars;
    assert forall k :: 0 <= k < 6 ==> s[k] in StripChars;
    LeadLenIs(s, StripChars, 6);
  }

  lemma MobileTrail()
    ensures TrailLen("1234567", StripChars) == 0
  {
  }
}

=== FILE: contact_forms.dfy ===
/** The contact forms of the web application (`app.py`): reading and
    trimming the submitted fields, composing the display name and the uid,
    the required-field and phone-format checks, what `add_contact` sends to
    the directory and logs, the change list `edit_contact` logs, and the
    search filter of the index page. Phone-number normalisation is a
    library call and is taken as a parameter. */
module ContactForms {
  import opened Prelude
  import opened Text
  import opened LdapClient

  // ---------------------------------------------------------------------
  // Form fields
  // ---------------------------------------------------------------------

  /** `request.form.get(key, "").strip()`. */
  function FormField(form: map<string, string>, key: string): (r: string)
    ensures key !in form ==> r == ""
    ensures |r| > 0 ==> r[0] !in Whitespace && r[|r| - 1] !in Whitespace
  {
    Trim(if key in form then form[key] else "")
  }

  datatype Fields = Fields(title: string, givenName: string, sn: string, telephone: string, telephone2: string)

  /** The five fields, each read from its own form key and trimmed. */
  function ReadFields(form: map<string, string>): (r: Fields)
    ensures r.title == FormField(form, "title") && r.givenName == FormField(form, "given_name")
    ensures r.sn == FormField(form, "sn")
    ensures r.telephone == FormField(form, "telephone") && r.telephone2 == FormField(form, "telephone2")
  {
    Fields(FormField(form, "title"), FormField(form, "given_name"), FormField(form, "sn"),
           FormField(form, "telephone"), FormField(form, "telephone2"))
  }

  // ---------------------------------------------------------------------
  // Display name and uid
  // ---------------------------------------------------------------------

  /** A part of the display name, or nothing when it is empty. */
  function Present(p: string): (r: seq<string>)
    ensures |r| <= 1 && (r == [] <==> p == "")
  {
    if p != "" then [p] else []
  }

  /** `[part for part in [title, given_name, sn] if part]`. */
  function DisplayParts(title: string, givenName: string, sn: string): (r: seq<string>)
    ensures forall i :: 0 <= i < |r| ==> r[i] != ""
    ensures r == [] <==> title == "" && givenName == "" && sn == ""
  {
    Present(title) + Present(givenName) + Present(sn)
  }

  /** The parts written one after the other, each without its spaces. */
  function Squeezed(parts: seq<string>): string {
    if |parts| == 0 then "" else Uid(parts[0]) + Squeezed(parts[1..])
  }

  /** `" ".join(part for part in [title, given_name, sn] if part)`: a
      company has only a surname, a person may add a given name and a
      title in front. */
  function DisplayName(title: string, givenName: string, sn: string): (r: string)
    ensures r == "" <==> title == "" && givenName == "" && sn == ""
    ensures title == "" && givenName == "" ==> r == sn
  {
    var parts := DisplayParts(title, givenName, sn);
    if |parts| > 0 then
      JoinStartsWith(parts, " ");
      assert parts[0] != "";
      assert title == "" && givenName == "" ==> parts == [sn];
      Join(parts, " ")
    else ""
  }

  /** `display_name.replace(" ", "")`. */
  function Uid(displayName: string): (r: string)
    ensures ' ' !in r
  {
    ReplaceChar(displayName, ' ', [])
  }

  lemma JoinStartsWith(parts: seq<string>, sep: string)
    requires |parts| > 0
    ensures parts[0] <= Join(parts, sep)
  {
  }

  lemma {:induction false} JoinEndsWith(parts: seq<string>, sep: string)
    requires |parts| > 0
    ensures var j := Join(parts, sep); var last := parts[|parts| - 1];
      |last| <= |j| && j[|j| - |last|..] == last
  {
    if |parts| > 1 {
      JoinEndsWith(parts[1..], sep);
      var rest := Join(parts[1..], sep);
      assert Join(parts, sep) == (parts[0] + sep) + rest;
      assert parts[1..][|parts[1..]| - 1] == parts[|parts| - 1];
    }
  }

  /** Removing the spaces from parts joined by spaces removes the
      separators and the spaces inside each part. */
  lemma {:induction false} JoinWithoutSpaces(parts: seq<string>)
    ensures Uid(Join(parts, " ")) == Squeezed(parts)
  {
    if |parts| == 1 {
      assert Squeezed(parts[1..]) == "";
      assert Uid(parts[0]) + "" == Uid(parts[0]);
    } else if |parts| > 1 {
      JoinWithoutSpaces(parts[1..]);
      var rest := Join(parts[1..], " ");
      assert Join(parts, " ") == (parts[0] + " ") + rest;
      UidAroundSpace(parts[0], rest);
    }
  }

  /** A separating space disappears from the uid. */
  lemma UidAroundSpace(head: string, rest: string)
    ensures Uid((head + " ") + rest) == Uid(head) + Uid(rest)
  {
    ReplaceCharAppend(head + " ", rest, ' ', []);
    ReplaceCharAppend(head, " ", ' ', []);
    ReplaceCharSingle(' ', ' ', []);
    assert Uid(head) + [] == Uid(head);
  }

  lemma {:induction false} SqueezedAppend(a: seq<string>, b: seq<string>)
    ensures Squeezed(a + b) == Squeezed(a) + Squeezed(b)
  {
    if |a| > 0 {
      assert (a + b)[1..] == a[1..] + b;
      SqueezedAppend(a[1..], b);
    } else {
      assert a + b == b;
    }
  }

  lemma SqueezedPresent(p: string)
    ensures Squeezed(Present(p)) == Uid(p)
  {
    if p != "" {
      assert Squeezed([p]) == Uid(p) + Squeezed([]);
    }
  }

  /** The uid is the title, given name and surname written together, each
      without its own spaces: "Studio Bianchi Srl" as a surname contributes
      "StudioBianchiSrl", and an empty part contributes nothing. */
  lemma UidIsConcatenation(title: string, givenName: string, sn: string)
    ensures Uid(DisplayName(title, givenName, sn)) == Uid(title) + Uid(givenName) + Uid(sn)
  {
    var parts := DisplayParts(title, givenName, sn);
    JoinWithoutSpaces(parts);
    SqueezedAppend(Present(title) + Present(givenName), Present(sn));
    SqueezedAppend(Present(title), Present(givenName));
    SqueezedPresent(title);
    SqueezedPresent(givenName);
    SqueezedPresent(sn);
  }

  /** Parts without spaces of their own are written together unchanged. */
  lemma UidOfPlainParts(title: string, givenName: string, sn: string)
    requires ' ' !in title && ' ' !in givenName && ' ' !in sn
    ensures Uid(DisplayName(title, givenName, sn)) == title + givenName + sn
  {
    UidIsConcatenation(title, givenName, sn);
  }

  /** The surname always ends the display name, so a form with a surname
      never yields an empty name or uid. */
  lemma DisplayNameEndsWithSurname(title: string, givenName: string, sn: string)
    requires sn != ""
    ensures var d := DisplayName(title, givenName, sn);
      |sn| <= |d| && d[|d| - |sn|..] == sn
  {
    var parts := DisplayParts(title, givenName, sn);
    assert parts == (Present(title) + Present(givenName)) + [sn];
    JoinEndsWith(parts, " ");
  }

  /** The non-empty parts, in order, each separated from the next by
      exactly one space: "Mario Rossi", never "MarioRossi". */
  lemma DisplayNameSpacing(title: string, givenName: string, sn: string)
    ensures var d := DisplayName(title, givenName, sn);
      && (title == "" && givenName != "" && sn != "" ==> d == givenName + " " + sn)
      && (title != "" && givenName == "" && sn != "" ==> d == title + " " + sn)
      && (title != "" && givenName != "" && sn != "" ==> d == title + " " + givenName + " " + sn)
      && (title != "" && givenName != "" && sn == "" ==> d == title + " " + givenName)
      && (title == "" && givenName != "" && sn == "" ==> d == givenName)
      && (title != "" && givenName == "" && sn == "" ==> d == title)
  {
    var parts := DisplayParts(title, givenName, sn);
    if title != "" && givenName != "" && sn != "" {
      assert parts == [title, givenName, sn] && parts[1..] == [givenName, sn];
      JoinPair(givenName, sn);
    } else if title == "" && givenName != "" && sn != "" {
      assert parts == [givenName, sn];
      JoinPair(givenName, sn);
    } else if title != "" && givenName == "" && sn != "" {
      assert parts == [title, sn];
      JoinPair(title, sn);
    } else if title != "" && givenName != "" && sn == "" {
      assert parts == [title, givenName];
      JoinPair(title, givenName);
    } else if title == "" && givenName != "" && sn == "" {
      assert parts == [givenName];
    } else if title != "" && givenName == "" && sn == "" {
      assert parts == [title];
    }
  }

  /** Two parts are joined by one space. */
  lemma JoinPair(a: string, b: string)
    ensures Join([a, b], " ") == a + " " + b
  {
    assert [a, b][1..] == [b];
  }

  // ---------------------------------------------------------------------
  // Validation
  // ---------------------------------------------------------------------

  const RequiredMessage := "Cognome/Ragione Sociale e numero di telefono sono obbligatori."
  const FormatMessage := "I numeri di telefono non sono nel formato corretto."

  /** `normalize_number`: the number in international form, or None when
      the library cannot read it. */
  type Normalizer = string -> Option<string>

  /** Python's truth test on `normalize_number`'s result. */
  predicate Usable(o: Option<string>) {
    o.Some? && o.value != ""
  }

  /** The form after validation: the numbers are the normalised ones. */
  datatype Checked =
    | Rejected(message: string)
    | Accepted(displayName: string, telephone: string, telephone2: string)

  /** Both forms' checks: surname and first number are required, checked
      before anything else; then each number given must normalise. */
  function Validate(f: Fields, normalize: Normalizer): (r: Checked)
    ensures f.sn == "" || f.telephone == "" ==> r == Rejected(RequiredMessage)
    ensures r.Accepted? <==> f.sn != "" && f.telephone != "" && Usable(normalize(f.telephone))
                             && (f.telephone2 != "" ==> Usable(normalize(f.telephone2)))
    ensures r.Rejected? ==> r.message == RequiredMessage || r.message == FormatMessage
    ensures r.Accepted? ==> r.telephone == normalize(f.telephone).value && r.telephone != ""
    ensures r.Accepted? ==> (r.telephone2 == "" <==> f.telephone2 == "")
    ensures r.Accepted? && f.telephone2 != "" ==> r.telephone2 == normalize(f.telephone2).value
    ensures r.Accepted? ==> r.displayName != "" && r.displayName == DisplayName(f.title, f.givenName, f.sn)
  {
    if f.sn == "" || f.telephone == "" then Rejected(RequiredMessage)
    else
      var n1 := normalize(f.telephone);
      var n2 := if f.telephone2 != "" then normalize(f.telephone2) else Some("");
      if !Usable(n1) || (f.telephone2 != "" && !Usable(n2)) then Rejected(FormatMessage)
      else Accepted(DisplayName(f.title, f.givenName, f.sn), n1.value, n2.value)
  }

  // ---------------------------------------------------------------------
  // Adding a contact
  // ---------------------------------------------------------------------

  /** What a valid add form sends to the directory and writes to the
      audit log. */
  datatype AddPlan = AddPlan(uid: string, dn: string, attributes: DirEntry, auditDetail: string)

  /** `add_contact`'s POST before the directory is contacted. The audit
      detail shows the numbers as typed, not as normalised. */
  function PlanAdd(f: Fields, normalize: Normalizer, base: string): (r: Result<AddPlan, string>)
    ensures r.Err? <==> Validate(f, normalize).Rejected?
    ensures r.Err? ==> r.error == Validate(f, normalize).message
    ensures r.Ok? ==>
      var c := Validate(f, normalize);
      && ' ' !in r.value.uid && r.value.uid == Uid(c.displayName)
      && r.value.dn == Dn(r.value.uid, base)
      && EntryToContact(r.value.attributes)
         == Contact(r.value.uid, c.displayName, c.displayName, f.sn, f.givenName, f.title, c.telephone, c.telephone2)
      && (f.telephone2 == "" ==> r.value.auditDetail == "Nome: " + c.displayName + ", Tel: " + f.telephone)
      && (f.telephone2 != "" ==>
            r.value.auditDetail == "Nome: " + c.displayName + ", Tel: " + f.telephone + ", Tel2: " + f.telephone2)
  {
    match Validate(f, normalize)
    case Rejected(msg) => Err(msg)
    case Accepted(name, tel, tel2) =>
      var uid := Uid(name);
      AddRoundTrip(uid, name, f.sn, tel, tel2, f.givenName, f.title);
      var detail := "Nome: " + name + ", Tel: " + f.telephone
                    + (if f.telephone2 != "" then ", Tel2: " + f.telephone2 else "");
      Ok(AddPlan(uid, Dn(uid, base), AddAttributes(uid, name, f.sn, tel, tel2, f.givenName, f.title), detail))
  }

  // ---------------------------------------------------------------------
  // Editing a contact: the logged change list
  // ---------------------------------------------------------------------

  const NoChanges := "Nessuna modifica rilevata"

  function NameChange(prev: Contact, name: string): string {
    "Nome: " + prev.displayName + " -> " + name
  }

  function TelChange(prev: Contact, tel: string): string {
    "Tel: " + prev.telephone + " -> " + tel
  }

  function Tel2Change(prev: Contact, tel2: string): string {
    "Tel2: " + prev.telephone2 + " -> " + tel2
  }

  /** One entry per field that differs from the contact read before the
      update; nothing when the contact could not be read. */
  function ChangeList(prev: Option<Contact>, name: string, tel: string, tel2: string): (r: seq<string>)
    ensures |r| <= 3
    ensures prev.None? ==> r == []
    ensures prev.Some? ==>
      && (NameChange(prev.value, name) in r <==> prev.value.displayName != name)
      && (TelChange(prev.value, tel) in r <==> prev.value.telephone != tel)
      && (Tel2Change(prev.value, tel2) in r <==> prev.value.telephone2 != tel2)
    ensures prev.Some? ==> forall x :: x in r ==>
      x == NameChange(prev.value, name) || x == TelChange(prev.value, tel) || x == Tel2Change(prev.value, tel2)
  {
    match prev
    case None => []
    case Some(c) =>
      var a, b, d := NameChange(c, name), TelChange(c, tel), Tel2Change(c, tel2);
      assert a[0] == 'N' && b[0] == 'T' && d[0] == 'T' && b[3] == ':' && d[3] == '2';
      (if c.displayName != name then [a] else [])
      + (if c.telephone != tel then [b] else [])
      + (if c.telephone2 != tel2 then [d] else [])
  }

  /** The text written to the audit log for an update. */
  function EditDetail(changes: seq<string>): (r: string)
    ensures |changes| == 0 ==> r == NoChanges
    ensures |changes| == 1 ==> r == changes[0]
    ensures |changes| > 0 ==> changes[0] <= r
  {
    if |changes| > 0 then
      JoinStartsWith(changes, "; ");
      Join(changes, "; ")
    else NoChanges
  }

  /** The log says "no change" exactly when no field differs. */
  lemma NoChangesIffNothingDiffers(prev: Option<Contact>, name: string, tel: string, tel2: string)
    ensures EditDetail(ChangeList(prev, name, tel, tel2)) == NoChanges
            <==> prev.None? || (prev.value.displayName == name && prev.value.telephone == tel
                               && prev.value.telephone2 == tel2)
  {
    var ch := ChangeList(prev, name, tel, tel2);
    if |ch| > 0 {
      JoinStartsWith(ch, "; ");
      var x := ch[0];
      assert x in ch;
      var c := prev.value;
      if x == NameChange(c, name) {
        assert x[1] == 'o';
      } else if x == TelChange(c, tel) {
        assert x[0] == 'T';
      } else {
        assert x[0] == 'T';
      }
      assert NoChanges[0] == 'N' && NoChanges[1] == 'e';
    }
  }

  /** What `edit_contact` logs, as written: the stored numbers, which are
      normalised, are compared with the numbers as typed. */
  function EditDetailAsWritten(prev: Option<Contact>, f: Fields, normalize: Normalizer): (r: Option<string>)
    ensures r.Some? <==> Validate(f, normalize).Accepted?
    ensures r == Some(NoChanges) <==>
      && Validate(f, normalize).Accepted?
      && (prev.None? || (prev.value.displayName == Validate(f, normalize).displayName
                         && prev.value.telephone == f.telephone && prev.value.telephone2 == f.telephone2))
  {
    match Validate(f, normalize)
    case Rejected(_) => None
    case Accepted(name, _, _) =>
      NoChangesIffNothingDiffers(prev, name, f.telephone, f.telephone2);
      Some(EditDetail(ChangeList(prev, name, f.telephone, f.telephone2)))
  }

  /** What `edit_contact` logs when it compares like with like: the stored
      numbers against the normalised numbers it is about to store. */
  function EditDetailNormalised(prev: Option<Contact>, f: Fields, normalize: Normalizer): (r: Option<string>)
    ensures r.Some? <==> Validate(f, normalize).Accepted?
    ensures r == Some(NoChanges) <==>
      && Validate(f, normalize).Accepted?
      && (prev.None? || (prev.value.displayName == Validate(f, normalize).displayName
                         && prev.value.telephone == Validate(f, normalize).telephone
                         && prev.value.telephone2 == Validate(f, normalize).telephone2))
  {
    match Validate(f, normalize)
    case Rejected(_) => None
    case Accepted(name, tel, tel2) =>
      NoChangesIffNothingDiffers(prev, name, tel, tel2);
      Some(EditDetail(ChangeList(prev, name, tel, tel2)))
  }

  /** Comparing normalised values, saving a form that leaves the stored
      contact as it is logs no change. */
  lemma UnchangedEditLogsNothing(prev: Contact, f: Fields, normalize: Normalizer)
    requires Validate(f, normalize).Accepted?
    requires var c := Validate(f, normalize);
      prev.displayName == c.displayName && prev.telephone == c.telephone && prev.telephone2 == c.telephone2
    ensures EditDetailNormalised(Some(prev), f, normalize) == Some(NoChanges)
  {
    var c := Validate(f, normalize);
    NoChangesIffNothingDiffers(Some(prev), c.displayName, c.telephone, c.telephone2);
  }

  /** As written, re-saving a stored mobile number typed in national form
      logs a change of number although the stored number stays the same. */
  lemma UnchangedNumberLoggedAsChanged(normalize: Normalizer)
    requires normalize("3331234567") == Some("+393331234567")
    ensures var prev := Contact("Rossi", "Rossi", "Rossi", "Rossi", "", "", "+393331234567", "");
      var f := Fields("", "", "Rossi", "3331234567", "");
      && EditDetailAsWritten(Some(prev), f, normalize) == Some(TelChange(prev, "3331234567"))
      && EditDetailNormalised(Some(prev), f, normalize) == Some(NoChanges)
  {
    var prev := Contact("Rossi", "Rossi", "Rossi", "Rossi", "", "", "+393331234567", "");
    var f := Fields("", "", "Rossi", "3331234567", "");
    var c := Validate(f, normalize);
    assert c.displayName == "Rossi";
    NoChangesIffNothingDiffers(Some(prev), c.displayName, c.telephone, c.telephone2);
    assert ChangeList(Some(prev), "Rossi", "3331234567", "") == [TelChange(prev, "3331234567")];
  }

  // ---------------------------------------------------------------------
  // Search
  // ---------------------------------------------------------------------

  /** The index page's test: the query, already lowercased, occurs in the
      lowercased display name or in one of the numbers as stored. */
  predicate Matches(c: Contact, q: string) {
    Contains(Lower(c.displayName), q) || Contains(c.telephone, q) || Contains(c.telephone2, q)
  }

  /** The contacts that match, in their order. */
  function Filter(contacts: seq<Contact>, q: string): (r: seq<Contact>)
    ensures |r| <= |contacts|
    ensures forall c :: multiset(r)[c] == (if Matches(c, q) then multiset(contacts)[c] else 0)
  {
    if |contacts| == 0 then []
    else
      assert contacts == [contacts[0]] + contacts[1..];
      (if Matches(contacts[0], q) then [contacts[0]] else []) + Filter(contacts[1..], q)
  }

  /** `index`: the trimmed query selects the contacts that match its
      lowercase form; an empty query lists every contact. */
  function Search(contacts: seq<Contact>, raw: string): (r: seq<Contact>)
    ensures Trim(raw) == "" ==> r == contacts
    ensures forall c :: c in r <==> c in contacts && (Trim(raw) == "" || Matches(c, Lower(Trim(raw))))
  {
    var q := Trim(raw);
    if q == "" then contacts
    else
      var r := Filter(contacts, Lower(q));
      assert forall c :: c in r <==> multiset(r)[c] > 0;
      r
  }

  /** Filtering again with the same query changes nothing. */
  lemma {:induction false} FilterIdempotent(contacts: seq<Contact>, q: string)
    ensures Filter(Filter(contacts, q), q) == Filter(contacts, q)
  {
    if |contacts| > 0 {
      FilterIdempotent(contacts[1..], q);
      var head := if Matches(contacts[0], q) then [contacts[0]] else [];
      FilterAppend(head, Filter(contacts[1..], q), q);
      if Matches(contacts[0], q) {
        assert Filter(head, q) == [contacts[0]] + Filter([], q);
      }
    }
  }

  lemma {:induction false} FilterAppend(a: seq<Contact>, b: seq<Contact>, q: string)
    ensures Filter(a + b, q) == Filter(a, q) + Filter(b, q)
  {
    if |a| > 0 {
      assert (a + b)[1..] == a[1..] + b;
      FilterAppend(a[1..], b, q);
    } else {
      assert a + b == b;
    }
  }

  /** Searching within the results of a search for the same text gives
      the same results. */
  lemma SearchIdempotent(contacts: seq<Contact>, raw: string)
    ensures Search(Search(contacts, raw), raw) == Search(contacts, raw)
  {
    if Trim(raw) != "" {
      FilterIdempotent(contacts, Lower(Trim(raw)));
    }
  }

  /** Lowercasing neither adds nor removes whitespace, so trimming and
      lowercasing commute. */
  lemma {:induction false} LeadLenLower(s: string, cs: set<char>)
    requires forall c {:trigger LowerChar(c)} :: LowerChar(c) in cs <==> c in cs
    ensures LeadLen(Lower(s), cs) == LeadLen(s, cs)
  {
    if |s| > 0 {
      assert Lower(s)[0] == LowerChar(s[0]);
      assert Lower(s)[1..] == Lower(s[1..]);
      LeadLenLower(s[1..], cs);
    }
  }

  lemma {:induction false} TrailLenLower(s: string, cs: set<char>)
    requires forall c {:trigger LowerChar(c)} :: LowerChar(c) in cs <==> c in cs
    ensures TrailLen(Lower(s), cs) == TrailLen(s, cs)
  {
    if |s| > 0 {
      assert Lower(s)[|s| - 1] == LowerChar(s[|s| - 1]);
      assert Lower(s)[..|s| - 1] == Lower(s[..|s| - 1]);
      TrailLenLower(s[..|s| - 1], cs);
    }
  }

  lemma LowerKeepsWhitespace(c: char)
    ensures LowerChar(c) in Whitespace <==> c in Whitespace
  {
  }

  lemma LowerSlice(s: string, lo: nat, hi: nat)
    requires lo <= hi <= |s|
    ensures Lower(s)[lo..hi] == Lower(s[lo..hi])
  {
  }

  lemma StripLower(s: string, cs: set<char>)
    requires forall c {:trigger LowerChar(c)} :: LowerChar(c) in cs <==> c in cs
    ensures Strip(Lower(s), cs) == Lower(Strip(s, cs))
  {
    var ls := Lower(s);
    var lo := LeadLen(s, cs);
    var t := s[lo..];
    var hi := lo + |t| - TrailLen(t, cs);
    LeadLenLower(s, cs);
    LowerSlice(s, lo, |s|);
    TrailLenLower(t, cs);
    LowerSlice(s, lo, hi);
    StripAt(s, cs, lo, hi);
    StripAt(ls, cs, lo, hi);
  }

  lemma StripAt(s: string, cs: set<char>, lo: nat, hi: nat)
    requires lo == LeadLen(s, cs) && hi == lo + |s[lo..]| - TrailLen(s[lo..], cs)
    ensures hi <= |s| && Strip(s, cs) == s[lo..hi]
  {
  }

  lemma TrimLower(s: string)
    ensures Trim(Lower(s)) == Lower(Trim(s))
  {
    forall c ensures LowerChar(c) in Whitespace <==> c in Whitespace {
      LowerKeepsWhitespace(c);
    }
    StripLower(s, Whitespace);
  }

  /** The search ignores the case of the query. */
  lemma SearchIgnoresQueryCase(contacts: seq<Contact>, raw: string)
    ensures Search(contacts, Lower(raw)) == Search(contacts, raw)
  {
    TrimLower(raw);
    LowerIdempotent(Trim(raw));
  }
}

=== FILE: event_hub.dfy ===
/** The monitor as its users see it: the call tables, the list of
    subscriber queues the server-sent-events endpoint registers, and what
    each queue has received. Every event a notification publishes is put on
    every registered queue in registration order; a queue that refuses an
    event (`put_nowait` raising) simply misses it and stays registered. */
module EventHub {
  import opened Prelude
  import opened PbxMonitor
  import opened PbxProperties

  /** Queues are told apart by identity; a number stands for one. */
  type QueueId = nat

  /** What a queue holds: nothing until something is put on it. */
  function Inbox(inbox: map<QueueId, seq<Event>>, q: QueueId): seq<Event> {
    if q in inbox then inbox[q] else []
  }

  /** `n` copies of `ev`. */
  function Copies(ev: Event, n: nat): (r: seq<Event>)
    ensures |r| == n
    ensures forall i :: 0 <= i < n ==> r[i] == ev
  {
    if n == 0 then [] else Copies(ev, n - 1) + [ev]
  }

  // ---------------------------------------------------------------------
  // The subscriber list
  // ---------------------------------------------------------------------

  /** `subscribe_events`: the queue is appended (a queue registered twice
      is listed twice). */
  function Subscribe(subs: seq<QueueId>, q: QueueId): (r: seq<QueueId>)
    ensures |r| == |subs| + 1 && r[..|subs|] == subs && r[|subs|] == q
    ensures multiset(r)[q] == multiset(subs)[q] + 1
    ensures forall p :: p != q ==> multiset(r)[p] == multiset(subs)[p]
  {
    subs + [q]
  }

  /** `unsubscribe_events`: the first registration of the queue is removed;
      a queue that is not registered is ignored (the `ValueError` is
      swallowed). */
  function Unsubscribe(subs: seq<QueueId>, q: QueueId): (r: seq<QueueId>)
    ensures q in subs ==> multiset(r)[q] == multiset(subs)[q] - 1
    ensures q !in subs ==> r == subs
    ensures forall p :: p != q ==> multiset(r)[p] == multiset(subs)[p]
  {
    RemoveFirst(subs, q)
  }

  /** Unsubscribing a queue that was just subscribed for the first time
      restores the list exactly, order included. */
  lemma SubscribeUnsubscribe(subs: seq<QueueId>, q: QueueId)
    requires q !in subs
    ensures Unsubscribe(Subscribe(subs, q), q) == subs
  {
    RemoveFirstAppended(subs, q);
  }

  /** Unsubscribing keeps the other queues in their order. */
  lemma UnsubscribeKeepsOrder(subs: seq<QueueId>, q: QueueId)
    requires q in subs
    ensures Unsubscribe(subs, q) == subs[..IndexOf(subs, q)] + subs[IndexOf(subs, q) + 1..]
  {
    RemoveFirstSplits(subs, q);
  }

  // ---------------------------------------------------------------------
  // Broadcasting
  // ---------------------------------------------------------------------

  /** `_broadcast_event`: each registration, in order, puts `ev` on its
      queue unless the queue is one of the `full` ones refusing it. */
  function Broadcast(subs: seq<QueueId>, inbox: map<QueueId, seq<Event>>, ev: Event, full: set<QueueId>)
    : (r: map<QueueId, seq<Event>>)
    ensures forall p :: p !in subs || p in full ==> Inbox(r, p) == Inbox(inbox, p)
    decreases |subs|
  {
    if |subs| == 0 then inbox
    else
      var q := subs[|subs| - 1];
      var r := Broadcast(subs[..|subs| - 1], inbox, ev, full);
      if q in full then r else r[q := Inbox(r, q) + [ev]]
  }

  /** A queue gains one copy of the event per registration, unless it
      refuses it; a refusing queue affects no other. */
  lemma {:induction false} BroadcastDelivers(subs: seq<QueueId>, inbox: map<QueueId, seq<Event>>, ev: Event,
                                             full: set<QueueId>, p: QueueId)
    ensures p !in full ==> Inbox(Broadcast(subs, inbox, ev, full), p) == Inbox(inbox, p) + Copies(ev, multiset(subs)[p])
    ensures p in full ==> Inbox(Broadcast(subs, inbox, ev, full), p) == Inbox(inbox, p)
    decreases |subs|
  {
    if |subs| > 0 {
      var init: seq<QueueId> := subs[..|subs| - 1];
      var q: QueueId := subs[|subs| - 1];
      assert subs == init + [q];
      assert multiset(subs) == multiset(init) + multiset{q};
      assert multiset(subs)[p] == multiset(init)[p] + (if p == q then 1 else 0);
      BroadcastDelivers(init, inbox, ev, full, p);
      var r := Broadcast(init, inbox, ev, full);
      var out := Broadcast(subs, inbox, ev, full);
      if q in full || p != q {
        assert Inbox(out, p) == Inbox(r, p);
      } else {
        assert Inbox(out, p) == Inbox(r, p) + [ev];
        var n: nat := multiset(init)[p];
        assert Copies(ev, n + 1) == Copies(ev, n) + [ev];
      }
    }
  }

  /** Every element of `evs` repeated `k` times in place. */
  function Stutter(evs: seq<Event>, k: nat): (r: seq<Event>)
    ensures |r| == |evs| * k
  {
    if |evs| == 0 then [] else Copies(evs[0], k) + Stutter(evs[1..], k)
  }

  lemma {:induction false} StutterOnce(evs: seq<Event>)
    ensures Stutter(evs, 1) == evs
  {
    if |evs| > 0 {
      StutterOnce(evs[1..]);
      assert Copies(evs[0], 1) == [evs[0]];
    }
  }

  /** Broadcasts the events one after the other. */
  function Publish(subs: seq<QueueId>, inbox: map<QueueId, seq<Event>>, evs: seq<Event>, full: set<QueueId>)
    : map<QueueId, seq<Event>>
    decreases |evs|
  {
    if |evs| == 0 then inbox else Publish(subs, Broadcast(subs, inbox, evs[0], full), evs[1..], full)
  }

  /** A queue that accepts everything receives each event once per
      registration, in the order published; a refusing queue receives
      nothing. */
  lemma {:induction false} PublishDelivers(subs: seq<QueueId>, inbox: map<QueueId, seq<Event>>,
                                           evs: seq<Event>, full: set<QueueId>, q: QueueId)
    ensures q !in full ==> Inbox(Publish(subs, inbox, evs, full), q)
                           == Inbox(inbox, q) + Stutter(evs, multiset(subs)[q])
    ensures q in full ==> Inbox(Publish(subs, inbox, evs, full), q) == Inbox(inbox, q)
    decreases |evs|
  {
    if |evs| > 0 {
      var next := Broadcast(subs, inbox, evs[0], full);
      BroadcastDelivers(subs, inbox, evs[0], full, q);
      PublishDelivers(subs, next, evs[1..], full, q);
    }
  }

  /** A queue registered once and never refusing sees exactly the events
      published, in order. */
  lemma PublishToSingleSubscriber(subs: seq<QueueId>, inbox: map<QueueId, seq<Event>>,
                                  evs: seq<Event>, full: set<QueueId>, q: QueueId)
    requires multiset(subs)[q] == 1 && q !in full
    ensures Inbox(Publish(subs, inbox, evs, full), q) == Inbox(inbox, q) + evs
  {
    PublishDelivers(subs, inbox, evs, full, q);
    StutterOnce(evs);
  }

  // ---------------------------------------------------------------------
  // The monitor
  // ---------------------------------------------------------------------

  datatype Monitor = Monitor(tables: Tables, subscribers: seq<QueueId>, inbox: map<QueueId, seq<Event>>)

  /** The monitor before its first notification. */
  const Initial := Monitor(Empty, [], map[])

  /** A notification updates the tables, then each event it produced is
      broadcast in order. */
  function OnNotify(m: Monitor, eventname: string, body: seq<Entry>, full: set<QueueId>): (r: Monitor)
    ensures r.subscribers == m.subscribers
    ensures r.tables == Notify(m.tables, eventname, body).tables
    ensures forall q :: q !in m.subscribers ==> Inbox(r.inbox, q) == Inbox(m.inbox, q)
  {
    var o := Notify(m.tables, eventname, body);
    forall q | q !in m.subscribers
      ensures Inbox(Publish(m.subscribers, m.inbox, o.events, full), q) == Inbox(m.inbox, q)
    {
      PublishDelivers(m.subscribers, m.inbox, o.events, full, q);
      if q !in full {
        assert multiset(m.subscribers)[q] == 0;
        assert |Stutter(o.events, 0)| == 0;
      }
    }
    Monitor(o.tables, m.subscribers, Publish(m.subscribers, m.inbox, o.events, full))
  }

  /** The connection to the PBX dropped: the calls shown, the extension
      states and every channel table are forgotten; the subscribers stay
      registered and keep what they received. */
  function OnConnectionClosed(m: Monitor): (r: Monitor)
    ensures ActiveCallList(r.tables) == [] && r.tables.extensionStatus == map[]
    ensures r.tables.channelMap == map[] && r.tables.callChannels == map[] && r.tables.incoming == {}
    ensures r.subscribers == m.subscribers && r.inbox == m.inbox
  {
    m.(tables := Empty)
  }

  /** The monitor's tables stay consistent whatever the PBX sends and
      whenever the connection drops. */
  lemma OnNotifyValid(m: Monitor, eventname: string, body: seq<Entry>, full: set<QueueId>)
    requires Valid(m.tables)
    ensures Valid(OnNotify(m, eventname, body, full).tables)
  {
    NotifyValid(m.tables, eventname, body);
  }

  lemma OnConnectionClosedValid(m: Monitor)
    ensures Valid(OnConnectionClosed(m).tables)
  {
    EmptyIsValid();
  }

  /** A subscriber registered once that never refuses an event stays in
      step with the monitor: if replaying what it has received on the calls
      shown when it joined gives the calls shown now, the same holds after
      the next notification. */
  lemma SubscriberStaysInSync(m: Monitor, eventname: string, body: seq<Entry>, full: set<QueueId>,
                              q: QueueId, joined: set<string>)
    requires multiset(m.subscribers)[q] == 1 && q !in full
    requires ReplayCalls(joined, Inbox(m.inbox, q)) == m.tables.activeCalls.Keys
    ensures var r := OnNotify(m, eventname, body, full);
      ReplayCalls(joined, Inbox(r.inbox, q)) == r.tables.activeCalls.Keys
  {
    var o := Notify(m.tables, eventname, body);
    PublishToSingleSubscriber(m.subscribers, m.inbox, o.events, full, q);
    ReplayAppend(joined, Inbox(m.inbox, q), o.events);
    NotifyReplay(m.tables, eventname, body);
  }
}

=== FILE: ldap_client.dfy ===
/** The pure part of the LDAP directory client: escaping a value for a
    search filter (section 3 of RFC 4515), the contact record read back
    from an inetOrgPerson entry, the attributes written by an add and the
    replacements sent by an update, the entry's DN, and the listing order. */
module LdapClient {
  import opened Prelude
  import opened Text

  // ---------------------------------------------------------------------
  // Filter-value escaping
  // ---------------------------------------------------------------------

  /** The five characters a filter value must not contain raw. */
  predicate Special(c: char) {
    c == '\\' || c == '*' || c == '(' || c == ')' || c == '\0'
  }

  /** The escape of one character: a backslash and two hex digits for the
      five special ones, the character itself otherwise. */
  function EscapeChar(c: char): (r: string)
    ensures Special(c) ==> |r| == 3 && r[0] == '\\'
    ensures !Special(c) ==> r == [c]
  {
    if c == '\\' then "\\5c"
    else if c == '*' then "\\2a"
    else if c == '(' then "\\28"
    else if c == ')' then "\\29"
    else if c == '\0' then "\\00"
    else [c]
  }

  /** The escape as a per-character map. */
  function EscapeEach(s: string): string {
    if |s| == 0 then "" else EscapeChar(s[0]) + EscapeEach(s[1..])
  }

  /** `_escape_ldap_filter`: five `str.replace` passes, the backslash
      first. */
  function EscapeFilterValue(s: string): (r: string)
    ensures '*' !in r && '(' !in r && ')' !in r && '\0' !in r
    ensures (forall i :: 0 <= i < |s| ==> !Special(s[i])) ==> r == s
  {
    var s1 := ReplaceChar(s, '\\', "\\5c");
    var s2 := ReplaceChar(s1, '*', "\\2a");
    var s3 := ReplaceChar(s2, '(', "\\28");
    var s4 := ReplaceChar(s3, ')', "\\29");
    LaterPassesAvoid(s2, s3, s4);
    PlainPassesUnchanged(s, s1, s2, s3, s4);
    ReplaceChar(s4, '\0', "\\00")
  }

  /** No later pass brings back a character an earlier one removed. */
  lemma LaterPassesAvoid(s2: string, s3: string, s4: string)
    requires '*' !in s2
    requires s3 == ReplaceChar(s2, '(', "\\28") && s4 == ReplaceChar(s3, ')', "\\29")
    ensures var r := ReplaceChar(s4, '\0', "\\00");
      '*' !in r && '(' !in r && ')' !in r
  {
    BracketPassesAvoid(s2, s3, s4);
    ReplaceCharAvoids(s4, '\0', "\\00", '*');
    ReplaceCharAvoids(s4, '\0', "\\00", '(');
    ReplaceCharAvoids(s4, '\0', "\\00", ')');
  }

  /** The two bracket passes keep the star out and drop the opening bracket. */
  lemma BracketPassesAvoid(s2: string, s3: string, s4: string)
    requires '*' !in s2
    requires s3 == ReplaceChar(s2, '(', "\\28") && s4 == ReplaceChar(s3, ')', "\\29")
    ensures '*' !in s4 && '(' !in s4
  {
    ReplaceCharAvoids(s2, '(', "\\28", '*');
    ReplaceCharAvoids(s3, ')', "\\29", '*');
    ReplaceCharAvoids(s3, ')', "\\29", '(');
  }

  /** Without special characters no pass changes anything. */
  lemma PlainPassesUnchanged(s: string, s1: string, s2: string, s3: string, s4: string)
    requires s1 == ReplaceChar(s, '\\', "\\5c") && s2 == ReplaceChar(s1, '*', "\\2a")
    requires s3 == ReplaceChar(s2, '(', "\\28") && s4 == ReplaceChar(s3, ')', "\\29")
    ensures (forall i :: 0 <= i < |s| ==> !Special(s[i])) ==> ReplaceChar(s4, '\0', "\\00") == s
  {
    if forall i :: 0 <= i < |s| ==> !Special(s[i]) {
      assert '\\' !in s && '*' !in s && '(' !in s && ')' !in s && '\0' !in s;
    }
  }

  /** The five passes distribute over concatenation. */
  lemma EscapeFilterValueAppend(a: string, b: string)
    ensures EscapeFilterValue(a + b) == EscapeFilterValue(a) + EscapeFilterValue(b)
  {
    ReplaceCharAppend(a, b, '\\', "\\5c");
    var a1, b1 := ReplaceChar(a, '\\', "\\5c"), ReplaceChar(b, '\\', "\\5c");
    ReplaceCharAppend(a1, b1, '*', "\\2a");
    var a2, b2 := ReplaceChar(a1, '*', "\\2a"), ReplaceChar(b1, '*', "\\2a");
    ReplaceCharAppend(a2, b2, '(', "\\28");
    var a3, b3 := ReplaceChar(a2, '(', "\\28"), ReplaceChar(b2, '(', "\\28");
    ReplaceCharAppend(a3, b3, ')', "\\29");
    var a4, b4 := ReplaceChar(a3, ')', "\\29"), ReplaceChar(b3, ')', "\\29");
    ReplaceCharAppend(a4, b4, '\0', "\\00");
  }

  /** On one character the five passes give that character's escape: a
      backslash inserted by one pass is never escaped again by a later one. */
  lemma EscapeFilterValueChar(c: char)
    ensures EscapeFilterValue([c]) == EscapeChar(c)
  {
    // an escape sequence holds only '\\' and hexadecimal digits, so no
    // later replacement touches it
    ReplaceCharSingle(c, '\\', "\\5c");
    if c == '\\' {
      var e := "\\5c";
      assert '*' !in e && '(' !in e && ')' !in e && '\0' !in e;
      assert ReplaceChar(e, '*', "\\2a") == e;
      assert ReplaceChar(e, '(', "\\28") == e;
      assert ReplaceChar(e, ')', "\\29") == e;
      assert ReplaceChar(e, '\0', "\\00") == e;
    } else {
      ReplaceCharSingle(c, '*', "\\2a");
      if c == '*' {
        var e := "\\2a";
        assert '(' !in e && ')' !in e && '\0' !in e;
        assert ReplaceChar(e, '(', "\\28") == e;
        assert ReplaceChar(e, ')', "\\29") == e;
        assert ReplaceChar(e, '\0', "\\00") == e;
      } else {
        ReplaceCharSingle(c, '(', "\\28");
        if c == '(' {
          var e := "\\28";
          assert ')' !in e && '\0' !in e;
          assert ReplaceChar(e, ')', "\\29") == e;
          assert ReplaceChar(e, '\0', "\\00") == e;
        } else {
          ReplaceCharSingle(c, ')', "\\29");
          if c == ')' {
            var e := "\\29";
            assert '\0' !in e;
            assert ReplaceChar(e, '\0', "\\00") == e;
          } else {
            ReplaceCharSingle(c, '\0', "\\00");
          }
        }
      }
    }
  }

  /** The sequential replacements equal the per-character map. */
  lemma {:induction false} EscapeIsPerCharacter(s: string)
    ensures EscapeFilterValue(s) == EscapeEach(s)
  {
    if |s| == 0 {
      assert EscapeFilterValue(s) == "";
    } else {
      assert s == [s[0]] + s[1..];
      EscapeFilterValueAppend([s[0]], s[1..]);
      EscapeFilterValueChar(s[0]);
      EscapeIsPerCharacter(s[1..]);
    }
  }

  /** The escaped value contains none of `*`, `(`, `)` or NUL, and a value
      without special characters is left as it is. */
  lemma {:induction false} EscapedIsSafe(s: string)
    ensures forall c :: c in EscapeFilterValue(s) && Special(c) ==> c == '\\'
    ensures (forall i :: 0 <= i < |s| ==> !Special(s[i])) ==> EscapeFilterValue(s) == s
  {
    EscapeIsPerCharacter(s);
    EscapeEachIsSafe(s);
  }

  lemma {:induction false} EscapeEachIsSafe(s: string)
    ensures forall c :: c in EscapeEach(s) && Special(c) ==> c == '\\'
    ensures (forall i :: 0 <= i < |s| ==> !Special(s[i])) ==> EscapeEach(s) == s
  {
    if |s| > 0 {
      EscapeEachIsSafe(s[1..]);
      var e := EscapeChar(s[0]);
      assert forall c :: c in e && Special(c) ==> c == '\\';
      assert forall c :: c in EscapeEach(s) ==> c in e || c in EscapeEach(s[1..]);
      if forall i :: 0 <= i < |s| ==> !Special(s[i]) {
        assert forall i :: 0 <= i < |s[1..]| ==> !Special(s[1..][i]);
        assert s == [s[0]] + s[1..];
      }
    }
  }

  /** Hex digits of an escape back to the character. */
  function UnescapePair(a: char, b: char): Option<char> {
    if a == '5' && b == 'c' then Some('\\')
    else if a == '2' && b == 'a' then Some('*')
    else if a == '2' && b == '8' then Some('(')
    else if a == '2' && b == '9' then Some(')')
    else if a == '0' && b == '0' then Some('\0')
    else None
  }

  /** How the directory server reads an escaped filter value back. */
  function Unescape(s: string): string
    decreases |s|
  {
    if |s| == 0 then ""
    else if s[0] == '\\' && |s| >= 3 && UnescapePair(s[1], s[2]).Some? then
      [UnescapePair(s[1], s[2]).value] + Unescape(s[3..])
    else [s[0]] + Unescape(s[1..])
  }

  /** The server reads back exactly the value that was escaped: the uid
      matched is the uid asked for. */
  lemma {:induction false} UnescapeEscape(s: string)
    ensures Unescape(EscapeFilterValue(s)) == s
  {
    EscapeIsPerCharacter(s);
    UnescapeEscapeEach(s);
  }

  lemma {:induction false} UnescapeEscapeEach(s: string)
    ensures Unescape(EscapeEach(s)) == s
  {
    if |s| > 0 {
      UnescapeEscapeEach(s[1..]);
      var e := EscapeChar(s[0]);
      var t := e + EscapeEach(s[1..]);
      if Special(s[0]) {
        assert t[0] == '\\' && t[1] == e[1] && t[2] == e[2] && t[3..] == EscapeEach(s[1..]);
      } else {
        assert t[0] == s[0] && t[1..] == EscapeEach(s[1..]);
      }
      assert s == [s[0]] + s[1..];
    }
  }

  /** The search filter `get_contact` sends for a uid. */
  function UidFilter(uid: string): (r: string)
    ensures exists v :: r == "(&(objectClass=inetOrgPerson)(uid=" + v + "))"
                        && '(' !in v && ')' !in v && '*' !in v && '\0' !in v
  {
    var v := EscapeFilterValue(uid);
    "(&(objectClass=inetOrgPerson)(uid=" + v + "))"
  }

  /** Whatever the uid, it fills only the value slot of the filter: the
      text put there holds no parenthesis and no wildcard, and the server
      reads it back as exactly the uid. */
  lemma UidFilterStructure(uid: string)
    ensures exists v :: UidFilter(uid) == "(&(objectClass=inetOrgPerson)(uid=" + v + "))"
                        && '(' !in v && ')' !in v && '*' !in v && '\0' !in v && Unescape(v) == uid
  {
    EscapedIsSafe(uid);
    UnescapeEscape(uid);
    var v := EscapeFilterValue(uid);
    assert UidFilter(uid) == "(&(objectClass=inetOrgPerson)(uid=" + v + "))";
  }

  // ---------------------------------------------------------------------
  // Entries and contacts
  // ---------------------------------------------------------------------

  /** A directory entry: attribute name to its values (an attribute with
      no values is absent). */
  type DirEntry = map<string, seq<string>>

  /** A contact as the web layer handles it. */
  datatype Contact = Contact(uid: string, cn: string, displayName: string, sn: string,
                             givenName: string, title: string, telephone: string, telephone2: string)

  /** `str(entry.attr) if entry.attr else ""` for a single-valued
      attribute: its value, or "" when it has none. */
  function Single(e: DirEntry, name: string): (r: string)
    ensures name in e && |e[name]| > 0 ==> r == e[name][0]
    ensures !(name in e && |e[name]| > 0) ==> r == ""
  {
    if name in e && |e[name]| > 0 then e[name][0] else ""
  }

  /** The `telephoneNumber` values, in order. */
  function Phones(e: DirEntry): seq<string> {
    if "telephoneNumber" in e then e["telephoneNumber"] else []
  }

  /** `_entry_to_dict`: the single-valued attributes, and the first two
      phone numbers as `telephoneNumber` and `telephoneNumber2` (further
      numbers are dropped). */
  function EntryToContact(e: DirEntry): (c: Contact)
    ensures c.telephone == (if |Phones(e)| > 0 then Phones(e)[0] else "")
    ensures c.telephone2 == (if |Phones(e)| > 1 then Phones(e)[1] else "")
  {
    var phones := Phones(e);
    Contact(Single(e, "uid"), Single(e, "cn"), Single(e, "displayName"), Single(e, "sn"),
            Single(e, "givenName"), Single(e, "title"),
            if |phones| > 0 then phones[0] else "",
            if |phones| > 1 then phones[1] else "")
  }

  /** The stored phone list: the main number, then the second one only
      when it is non-empty. */
  function PhoneList(telephone: string, telephone2: string): (r: seq<string>)
    ensures 1 <= |r| <= 2 && r[0] == telephone
    ensures |r| == 2 <==> telephone2 != ""
  {
    [telephone] + (if telephone2 != "" then [telephone2] else [])
  }

  /** Reading back a stored phone list gives the two numbers entered. */
  lemma PhoneListRoundTrip(e: DirEntry, telephone: string, telephone2: string)
    ensures var c := EntryToContact(e["telephoneNumber" := PhoneList(telephone, telephone2)]);
      c.telephone == telephone && c.telephone2 == telephone2
  {
  }

  /** The DN of a contact's entry: `uid=<uid>,<base>`. A uid without a
      comma is read back from the DN, with the base after it. */
  function Dn(uid: string, base: string): (r: string)
    ensures ',' !in uid ==> DnParts(r) == Some((uid, base))
  {
    var r := "uid=" + uid + "," + base;
    DnSplits(uid, base, r);
    r
  }

  /** The RDN value and the parent of a DN of the form `uid=<v>,<parent>`,
      split at the first comma. */
  function DnParts(dn: string): Option<(string, string)> {
    if "uid=" <= dn && ',' in dn[4..] then
      var i := IndexOf(dn[4..], ',');
      Some((dn[4..][..i], dn[4..][i + 1..]))
    else None
  }

  lemma DnSplits(uid: string, base: string, dn: string)
    requires dn == "uid=" + uid + "," + base
    ensures ',' !in uid ==> DnParts(dn) == Some((uid, base))
  {
    if ',' !in uid {
      var t := dn[4..];
      assert t == uid + "," + base;
      assert t[|uid|] == ',';
      var i := IndexOf(t, ',');
      assert t[..i] == uid;
      assert t[i + 1..] == base;
    }
  }

  const ObjectClasses := ["top", "person", "organizationalPerson", "inetOrgPerson"]

  /** `add_contact`'s attributes: `cn` and `displayName` both hold the
      display name; `givenName` and `title` are written only when
      non-empty. */
  function AddAttributes(uid: string, displayName: string, sn: string, telephone: string,
                         telephone2: string, givenName: string, title: string): (a: DirEntry)
    ensures ("givenName" in a) == (givenName != "") && ("title" in a) == (title != "")
  {
    map["objectClass" := ObjectClasses, "uid" := [uid], "cn" := [displayName],
        "displayName" := [displayName], "sn" := [sn],
        "telephoneNumber" := PhoneList(telephone, telephone2)]
    + (if givenName != "" then map["givenName" := [givenName]] else map[])
    + (if title != "" then map["title" := [title]] else map[])
  }

  /** An added entry reads back as the contact that was entered. */
  lemma AddRoundTrip(uid: string, displayName: string, sn: string, telephone: string,
                     telephone2: string, givenName: string, title: string)
    ensures EntryToContact(AddAttributes(uid, displayName, sn, telephone, telephone2, givenName, title))
            == Contact(uid, displayName, displayName, sn, givenName, title, telephone, telephone2)
  {
    AddedNames(uid, displayName, sn, telephone, telephone2, givenName, title);
    AddedPhones(uid, displayName, sn, telephone, telephone2, givenName, title);
    AddedOptional(uid, displayName, sn, telephone, telephone2, givenName, title);
  }

  /** The mandatory attributes read back as written. */
  lemma AddedNames(uid: string, displayName: string, sn: string, telephone: string,
                   telephone2: string, givenName: string, title: string)
    ensures var a := AddAttributes(uid, displayName, sn, telephone, telephone2, givenName, title);
      && Single(a, "uid") == uid && Single(a, "cn") == displayName
      && Single(a, "displayName") == displayName && Single(a, "sn") == sn
  {
  }

  /** The phone numbers read back as written. */
  lemma AddedPhones(uid: string, displayName: string, sn: string, telephone: string,
                    telephone2: string, givenName: string, title: string)
    ensures Phones(AddAttributes(uid, displayName, sn, telephone, telephone2, givenName, title))
            == PhoneList(telephone, telephone2)
  {
  }

  /** The optional attributes read back as written, "" when absent. */
  lemma AddedOptional(uid: string, displayName: string, sn: string, telephone: string,
                      telephone2: string, givenName: string, title: string)
    ensures var a := AddAttributes(uid, displayName, sn, telephone, telephone2, givenName, title);
      Single(a, "givenName") == givenName && Single(a, "title") == title
  {
  }

  /** `update_contact`'s modifications, all replacements: an empty
      `givenName` or `title` is replaced by no value at all, which clears
      it. The uid is not touched. */
  function UpdateChanges(displayName: string, sn: string, telephone: string, telephone2: string,
                         givenName: string, title: string): (ch: map<string, seq<string>>)
    ensures "uid" !in ch && "objectClass" !in ch && "givenName" in ch && "title" in ch
    ensures ch["givenName"] == (if givenName != "" then [givenName] else [])
    ensures ch["title"] == (if title != "" then [title] else [])
  {
    map["cn" := [displayName], "displayName" := [displayName], "sn" := [sn],
        "telephoneNumber" := PhoneList(telephone, telephone2),
        "givenName" := if givenName != "" then [givenName] else [],
        "title" := if title != "" then [title] else []]
  }

  /** A modify whose every change is a replacement: each named attribute
      takes exactly the given values. */
  function ApplyReplace(e: DirEntry, changes: map<string, seq<string>>): (r: DirEntry)
    ensures forall k :: k in changes ==> k in r && r[k] == changes[k]
    ensures forall k :: k !in changes ==> (k in r <==> k in e) && (k in e ==> r[k] == e[k])
  {
    e + changes
  }

  /** An updated entry reads back as the values entered, under its old
      uid, whatever the entry held before. */
  lemma UpdateRoundTrip(e: DirEntry, displayName: string, sn: string, telephone: string,
                        telephone2: string, givenName: string, title: string)
    ensures EntryToContact(ApplyReplace(e, UpdateChanges(displayName, sn, telephone, telephone2, givenName, title)))
            == Contact(Single(e, "uid"), displayName, displayName, sn, givenName, title, telephone, telephone2)
  {
    var ch := UpdateChanges(displayName, sn, telephone, telephone2, givenName, title);
    var r := ApplyReplace(e, ch);
    assert Phones(r) == PhoneList(telephone, telephone2);
    assert Single(r, "uid") == Single(e, "uid");
    assert Single(r, "cn") == displayName && Single(r, "displayName") == displayName && Single(r, "sn") == sn;
  }

  // ---------------------------------------------------------------------
  // The listing order
  // ---------------------------------------------------------------------

  /** `c["displayName"].lower()`. */
  function SortKey(c: Contact): string {
    Lower(c.displayName)
  }

  predicate SortedByName(s: seq<Contact>) {
    forall i, j :: 0 <= i < j < |s| ==> StrLe(SortKey(s[i]), SortKey(s[j]))
  }

  lemma StrLeReflexive(a: string)
    ensures StrLe(a, a)
  {
    StrLeTotal(a, a);
  }

  /** Places `x` before the first contact whose key is not below its own. */
  function Insert(x: Contact, s: seq<Contact>): (r: seq<Contact>)
    ensures multiset(r) == multiset(s) + multiset{x}
    ensures |r| == |s| + 1
  {
    if |s| == 0 then [x]
    else if StrLe(SortKey(x), SortKey(s[0])) then
      assert s == [s[0]] + s[1..];
      [x] + s
    else
      assert s == [s[0]] + s[1..];
      [s[0]] + Insert(x, s[1..])
  }

  lemma SortedTail(s: seq<Contact>)
    requires SortedByName(s) && |s| > 0
    ensures SortedByName(s[1..])
  {
    forall i, j | 0 <= i < j < |s[1..]| ensures StrLe(SortKey(s[1..][i]), SortKey(s[1..][j])) {
      assert s[1..][i] == s[i + 1] && s[1..][j] == s[j + 1];
    }
  }

  /** A contact whose key is below every key of a sorted list can go in
      front of it. */
  lemma SortedCons(x: Contact, s: seq<Contact>)
    requires SortedByName(s)
    requires forall y :: y in s ==> StrLe(SortKey(x), SortKey(y))
    ensures SortedByName([x] + s)
  {
    forall i, j | 0 <= i < j < |[x] + s| ensures StrLe(SortKey(([x] + s)[i]), SortKey(([x] + s)[j])) {
      assert ([x] + s)[j] == s[j - 1];
      if i > 0 {
        assert ([x] + s)[i] == s[i - 1];
      }
    }
  }

  /** Inserting into a sorted list keeps it sorted. */
  lemma {:induction false} InsertSorted(x: Contact, s: seq<Contact>)
    requires SortedByName(s)
    ensures SortedByName(Insert(x, s))
  {
    if |s| == 0 {
    } else if StrLe(SortKey(x), SortKey(s[0])) {
      forall y | y in s ensures StrLe(SortKey(x), SortKey(y)) {
        var k :| 0 <= k < |s| && s[k] == y;
        if k > 0 {
          StrLeTransitive(SortKey(x), SortKey(s[0]), SortKey(y));
        }
      }
      SortedCons(x, s);
    } else {
      var rest := Insert(x, s[1..]);
      SortedTail(s);
      InsertSorted(x, s[1..]);
      StrLeTotal(SortKey(x), SortKey(s[0]));
      forall y | y in rest ensures StrLe(SortKey(s[0]), SortKey(y)) {
        assert y in multiset(rest);
        if y != x {
          assert y in multiset(s[1..]);
          var k :| 0 <= k < |s[1..]| && s[1..][k] == y;
          assert s[k + 1] == y;
        }
      }
      SortedCons(s[0], rest);
    }
  }

  /** `get_all_contacts`' ordering, `sorted` on the lowercased display
      name: modelled as an insertion sort, which is stable as Python's
      `sorted` is. */
  function SortContacts(s: seq<Contact>): (r: seq<Contact>)
    ensures multiset(r) == multiset(s)
    ensures SortedByName(r)
  {
    if |s| == 0 then []
    else
      assert s == [s[0]] + s[1..];
      var rest := SortContacts(s[1..]);
      InsertSorted(s[0], rest);
      Insert(s[0], rest)
  }

  /** The contacts of `s` whose key is `k`, in order. */
  function WithKey(s: seq<Contact>, k: string): (r: seq<Contact>)
    ensures forall y :: y in r ==> SortKey(y) == k
  {
    if |s| == 0 then [] else (if SortKey(s[0]) == k then [s[0]] else []) + WithKey(s[1..], k)
  }

  lemma {:induction false} WithKeyInsert(x: Contact, s: seq<Contact>, k: string)
    ensures WithKey(Insert(x, s), k) == (if SortKey(x) == k then [x] else []) + WithKey(s, k)
  {
    if |s| == 0 || StrLe(SortKey(x), SortKey(s[0])) {
      assert Insert(x, s) == [x] + s;
      WithKeyCons(x, s, k);
    } else {
      var rest := s[1..];
      assert s == [s[0]] + rest;
      assert Insert(x, s) == [s[0]] + Insert(x, rest);
      WithKeyCons(s[0], Insert(x, rest), k);
      WithKeyCons(s[0], rest, k);
      WithKeyInsert(x, rest, k);
      var hx: seq<Contact> := if SortKey(x) == k then [x] else [];
      var h0: seq<Contact> := if SortKey(s[0]) == k then [s[0]] else [];
      assert WithKey(Insert(x, s), k) == h0 + (hx + WithKey(rest, k));
      assert WithKey(s, k) == h0 + WithKey(rest, k);
      assert hx == [] || h0 == [] by {
        if SortKey(x) == k {
          StrLeReflexive(SortKey(x));
        }
      }
      SwapEmpty(h0, hx, WithKey(rest, k));
    }
  }

  lemma SwapEmpty<T>(a: seq<T>, b: seq<T>, w: seq<T>)
    requires a == [] || b == []
    ensures a + (b + w) == b + (a + w)
  {
    if a == [] {
      assert a + (b + w) == b + w;
      assert a + w == w;
    } else {
      assert b + w == w;
      assert b + (a + w) == a + w;
    }
  }

  lemma WithKeyCons(y: Contact, s: seq<Contact>, k: string)
    ensures WithKey([y] + s, k) == (if SortKey(y) == k then [y] else []) + WithKey(s, k)
  {
    assert ([y] + s)[0] == y && ([y] + s)[1..] == s;
  }

  /** The sort is stable: contacts with the same key keep their order. */
  lemma {:induction false} SortIsStable(s: seq<Contact>, k: string)
    ensures WithKey(SortContacts(s), k) == WithKey(s, k)
  {
    if |s| > 0 {
      SortIsStable(s[1..], k);
      WithKeyInsert(s[0], SortContacts(s[1..]), k);
    }
  }
}

=== FILE: pbx_monitor.dfy ===
/** The call-tracking core of the PBX monitor (pbx_monitor.py): Grandstream
    `ActiveCallStatus` and `ExtensionStatus` notifications are folded into
    the monitor's tables, and every step returns the events it publishes.

    The tables are the four structures of the monitor plus the extension
    status map:
    - `channelMap`: channel name to the linkedid of its call;
    - `callChannels`: linkedid to the set of its channels;
    - `incoming`: linkedids of calls that entered through an inbound trunk;
    - `activeCalls`: linkedid to the record shown to the web layer, kept in
      insertion order by `callOrder` (the source uses an OrderedDict);
    - `extensionStatus`: extension number to its last reported status. */
module PbxMonitor {
  import opened Prelude
  import opened Text

  /** One element of a notification's `eventbody`: field name to value. A
      field the PBX did not send is a missing key, which is not the same as
      a key whose value is the empty string. */
  type Entry = map<string, string>

  /** `entry.get(key, "")`. */
  function Field(e: Entry, key: string): string {
    if key in e then e[key] else ""
  }

  datatype CallRecord =
    | Ringing(uniqueid: string, callernum: string, callername: string,
              connectednum: string, extensions: seq<string>)
    | Connected(uniqueid: string, callerid1: string, callerid2: string,
                name1: string, name2: string, bridgeTime: string)

  /** The events pushed to subscribers; `Name` gives the SSE event type. */
  datatype Event =
    | CallRing(uniqueid: string, callernum: string, connectednum: string, callername: string)
    | CallConnect(uniqueid: string, callerid1: string, callerid2: string,
                  name1: string, name2: string, bridgeTime: string)
    | CallHangup(uniqueid: string)
    | ExtensionStatus(extension: string, status: string)
  {
    function Name(): string {
      match this
      case CallRing(_, _, _, _) => "call_ring"
      case CallConnect(_, _, _, _, _, _) => "call_connect"
      case CallHangup(_) => "call_hangup"
      case ExtensionStatus(_, _) => "extension_status"
    }
  }

  datatype Tables = Tables(
    channelMap: map<string, string>,
    callChannels: map<string, set<string>>,
    incoming: set<string>,
    activeCalls: map<string, CallRecord>,
    callOrder: seq<string>,
    extensionStatus: map<string, string>)

  /** The tables of a fresh monitor, and after every lost connection. */
  const Empty: Tables := Tables(map[], map[], {}, map[], [], map[])

  /** What one step leaves behind and what it publishes, in order. */
  datatype Outcome = Outcome(tables: Tables, events: seq<Event>)

  // ---------------------------------------------------------------------
  // Table primitives
  // ---------------------------------------------------------------------

  /** `call_channels.get(lid, set())`. */
  function ChannelsOf(cc: map<string, set<string>>, lid: string): set<string> {
    if lid in cc then cc[lid] else {}
  }

  /** Records every channel of `chs` as a channel of call `lid`: the channel
      map points each of them at `lid` and `lid`'s channel set gains them.
      An empty `chs` leaves the tables as they are (no empty set is created
      for `lid`). */
  function Track(t: Tables, lid: string, chs: set<string>): (r: Tables)
    ensures forall ch :: ch in chs ==> ch in r.channelMap && r.channelMap[ch] == lid
    ensures forall ch :: ch !in chs ==>
              (ch in r.channelMap <==> ch in t.channelMap)
              && (ch in t.channelMap ==> r.channelMap[ch] == t.channelMap[ch])
    ensures chs != {} ==> r.callChannels == t.callChannels[lid := ChannelsOf(t.callChannels, lid) + chs]
    ensures chs == {} ==> r == t
    ensures r.incoming == t.incoming && r.activeCalls == t.activeCalls
    ensures r.callOrder == t.callOrder && r.extensionStatus == t.extensionStatus
  {
    if chs == {} then t
    else t.(channelMap := t.channelMap + (map ch | ch in chs :: lid),
            callChannels := t.callChannels[lid := ChannelsOf(t.callChannels, lid) + chs])
  }

  /** `active_calls[lid] = rec` on an OrderedDict: a new key goes last, an
      existing key keeps its position. */
  function PutCall(t: Tables, lid: string, rec: CallRecord): (r: Tables)
    ensures r.activeCalls == t.activeCalls[lid := rec]
    ensures lid in t.activeCalls ==> r.callOrder == t.callOrder
    ensures lid !in t.activeCalls ==> r.callOrder == t.callOrder + [lid]
    ensures r.channelMap == t.channelMap && r.callChannels == t.callChannels
    ensures r.incoming == t.incoming && r.extensionStatus == t.extensionStatus
  {
    t.(activeCalls := t.activeCalls[lid := rec],
       callOrder := if lid in t.activeCalls then t.callOrder else t.callOrder + [lid])
  }

  /** `active_calls.pop(lid, None)`. */
  function DropCall(t: Tables, lid: string): (r: Tables)
    ensures r.activeCalls == t.activeCalls - {lid}
    ensures r.callOrder == RemoveFirst(t.callOrder, lid)
    ensures r.channelMap == t.channelMap && r.callChannels == t.callChannels
    ensures r.incoming == t.incoming && r.extensionStatus == t.extensionStatus
  {
    t.(activeCalls := t.activeCalls - {lid}, callOrder := RemoveFirst(t.callOrder, lid))
  }

  /** Removes channels `chs` from call `linked`. When that leaves the call
      without channels the call is over: it leaves `callChannels`, the
      incoming set and the active calls, and a hangup is published if a
      record was shown. Otherwise only the channel set shrinks. */
  function Release(t: Tables, linked: string, chs: set<string>): (r: Outcome)
    ensures r.tables.channelMap == t.channelMap
    ensures r.tables.extensionStatus == t.extensionStatus
    ensures ChannelsOf(t.callChannels, linked) <= chs ==>
              && linked !in r.tables.callChannels
              && r.tables.callChannels == t.callChannels - {linked}
              && r.tables.incoming == t.incoming - {linked}
              && r.tables.activeCalls == t.activeCalls - {linked}
              && r.events == (if linked in t.activeCalls then [CallHangup(linked)] else [])
    ensures !(ChannelsOf(t.callChannels, linked) <= chs) ==>
              && r.tables.callChannels == t.callChannels[linked := t.callChannels[linked] - chs]
              && r.tables.incoming == t.incoming
              && r.tables.activeCalls == t.activeCalls
              && r.tables.callOrder == t.callOrder
              && r.events == []
  {
    var remaining := ChannelsOf(t.callChannels, linked) - chs;
    EmptyDifference(ChannelsOf(t.callChannels, linked), chs);
    if remaining == {} then
      var t2 := t.(callChannels := t.callChannels - {linked}, incoming := t.incoming - {linked});
      if linked in t.activeCalls then Outcome(DropCall(t2, linked), [CallHangup(linked)])
      else Outcome(t2, [])
    else
      Outcome(t.(callChannels := t.callChannels[linked := remaining]), [])
  }

  lemma EmptyDifference(x: set<string>, chs: set<string>)
    ensures (x - chs == {}) <==> x <= chs
  {
    if x <= chs {
      assert forall y :: y !in x - chs;
    } else {
      var y :| y in x && y !in chs;
      assert y in x - chs;
    }
  }

  // ---------------------------------------------------------------------
  // Unbridged channels: ringing and hang-up
  // ---------------------------------------------------------------------

  predicate IsAddOrUpdate(action: string) {
    action == "add" || action == "update"
  }

  predicate IsRingState(state: string) {
    state == "Ring" || state == "Ringing"
  }

  /** `entry.get("linkedid", uniqueid or channel)`: a `linkedid` key that is
      present wins even when its value is empty; only a missing key falls
      back to the uniqueid, or to the channel when the uniqueid is empty. */
  function UnbridgeLinkedid(e: Entry, uniqueid: string): string {
    if "linkedid" in e then e["linkedid"]
    else if uniqueid != "" then uniqueid
    else Field(e, "channel")
  }

  /** An extension channel rings for the incoming call `lid`. The first
      ring creates the record, with the PBX's perspective swapped (the
      extension's `connectednum` is the external caller), and publishes one
      `call_ring`; further rings of a ring group only add their extension
      to a still ringing record and publish nothing. */
  function Ring(t: Tables, lid: string, e: Entry): (r: Outcome)
    ensures r.tables.channelMap == t.channelMap && r.tables.callChannels == t.callChannels
    ensures r.tables.incoming == t.incoming && r.tables.extensionStatus == t.extensionStatus
    ensures lid !in t.activeCalls ==>
              && r.tables.activeCalls == t.activeCalls[lid := NewRinging(lid, e)]
              && r.tables.callOrder == t.callOrder + [lid]
              && r.events == [CallRing(lid, Field(e, "connectednum"), Field(e, "callernum"),
                                       Field(e, "connectedname"))]
    ensures lid in t.activeCalls ==>
              && r.events == []
              && r.tables.callOrder == t.callOrder
              && r.tables.activeCalls.Keys == t.activeCalls.Keys
              && (forall k :: k in t.activeCalls && k != lid ==> r.tables.activeCalls[k] == t.activeCalls[k])
              && (t.activeCalls[lid].Connected? ==> r.tables.activeCalls[lid] == t.activeCalls[lid])
              && (t.activeCalls[lid].Ringing? ==>
                    r.tables.activeCalls[lid] == t.activeCalls[lid].(extensions :=
                      AddExtension(t.activeCalls[lid].extensions, Field(e, "callernum"))))
  {
    var callernum := Field(e, "callernum");
    if lid in t.activeCalls then
      var existing := t.activeCalls[lid];
      if existing.Ringing? then
        Outcome(PutCall(t, lid, existing.(extensions := AddExtension(existing.extensions, callernum))), [])
      else
        Outcome(t, [])
    else
      Outcome(PutCall(t, lid, NewRinging(lid, e)),
              [CallRing(lid, Field(e, "connectednum"), callernum, Field(e, "connectedname"))])
  }

  /** The record a first ring creates. */
  function NewRinging(lid: string, e: Entry): (rec: CallRecord)
    ensures rec.Ringing? && rec.uniqueid == lid
    ensures rec.callernum == Field(e, "connectednum") && rec.connectednum == Field(e, "callernum")
    ensures rec.callername == Field(e, "connectedname")
    ensures NoDup(rec.extensions)
    ensures Field(e, "callernum") != "" ==> rec.extensions == [Field(e, "callernum")]
    ensures Field(e, "callernum") == "" ==> rec.extensions == []
  {
    var callernum := Field(e, "callernum");
    Ringing(lid, Field(e, "connectednum"), Field(e, "connectedname"), callernum,
            if callernum != "" then [callernum] else [])
  }

  /** A ring-group member joins the list once, and never as the empty string. */
  function AddExtension(exts: seq<string>, ext: string): (r: seq<string>)
    ensures ext != "" && ext !in exts ==> r == exts + [ext]
    ensures ext == "" || ext in exts ==> r == exts
    ensures NoDup(exts) ==> NoDup(r)
    ensures forall x :: x in r ==> x in exts || x == ext
  {
    if ext != "" && ext !in exts then exts + [ext] else exts
  }

  /** `_handle_unbridge`. */
  function HandleUnbridge(t: Tables, action: string, e: Entry, uniqueid: string): (r: Outcome)
    // a trunk channel of an inbound call only marks its linkedid as incoming
    ensures IsAddOrUpdate(action) && IsRingState(Field(e, "state"))
            && Field(e, "inbound_trunk_name") != "" ==>
              && r.events == []
              && r.tables.activeCalls == t.activeCalls
              && r.tables.callOrder == t.callOrder
              && r.tables.incoming == t.incoming + (if UnbridgeLinkedid(e, uniqueid) != ""
                                                    then {UnbridgeLinkedid(e, uniqueid)} else {})
    // rings of calls that did not come in through a trunk are never shown
    ensures IsAddOrUpdate(action) && IsRingState(Field(e, "state"))
            && Field(e, "inbound_trunk_name") == ""
            && (UnbridgeLinkedid(e, uniqueid) == "" || UnbridgeLinkedid(e, uniqueid) !in t.incoming) ==>
              r.events == [] && r.tables.activeCalls == t.activeCalls && r.tables.incoming == t.incoming
    // other channel states publish nothing and touch no call record
    ensures IsAddOrUpdate(action) && !IsRingState(Field(e, "state")) ==>
              r.events == [] && r.tables.activeCalls == t.activeCalls && r.tables.incoming == t.incoming
    // add/update records the channel under its linkedid
    ensures IsAddOrUpdate(action) && Field(e, "channel") != "" && UnbridgeLinkedid(e, uniqueid) != "" ==>
              r.tables.channelMap == t.channelMap[Field(e, "channel") := UnbridgeLinkedid(e, uniqueid)]
    // delete of an unknown (or empty) channel changes nothing
    ensures action == "delete" && (Field(e, "channel") == "" || Field(e, "channel") !in t.channelMap) ==>
              r == Outcome(t, [])
    // delete of a known channel forgets it; the call ends with its last channel
    ensures action == "delete" && Field(e, "channel") != "" && Field(e, "channel") in t.channelMap ==>
              r.tables.channelMap == t.channelMap - {Field(e, "channel")}
    ensures action == "delete" ==> r.tables.activeCalls.Keys <= t.activeCalls.Keys
    ensures !IsAddOrUpdate(action) && action != "delete" ==> r == Outcome(t, [])
    ensures r.tables.extensionStatus == t.extensionStatus
  {
    var channel := Field(e, "channel");
    var linkedid := UnbridgeLinkedid(e, uniqueid);
    if IsAddOrUpdate(action) then
      var t1 := if channel != "" && linkedid != "" then Track(t, linkedid, {channel}) else t;
      if IsRingState(Field(e, "state")) then
        if Field(e, "inbound_trunk_name") != "" then
          Outcome(t1.(incoming := if linkedid != "" then t1.incoming + {linkedid} else t1.incoming), [])
        else if linkedid == "" || linkedid !in t1.incoming then
          Outcome(t1, [])
        else
          Ring(t1, linkedid, e)
      else
        Outcome(t1, [])
    else if action == "delete" then
      if channel == "" || channel !in t.channelMap then Outcome(t, [])
      else
        var linked := t.channelMap[channel];
        var t1 := t.(channelMap := t.channelMap - {channel});
        if linked == "" then Outcome(t1, []) else Release(t1, linked, {channel})
    else
      Outcome(t, [])
  }

  // ---------------------------------------------------------------------
  // Bridged channels: answer and hang-up
  // ---------------------------------------------------------------------

  /** Index of the first non-empty key of `keys` that `m` maps, or `|keys|`
      when there is none. */
  function FirstMappedIndex(keys: seq<string>, m: map<string, string>): (i: nat)
    ensures i <= |keys|
    ensures forall j :: 0 <= j < i ==> keys[j] == "" || keys[j] !in m
    ensures i < |keys| ==> keys[i] != "" && keys[i] in m
  {
    if |keys| == 0 then 0
    else if keys[0] != "" && keys[0] in m then 0
    else 1 + FirstMappedIndex(keys[1..], m)
  }

  /** The value `m` gives the first mapped key of `keys`, if any. */
  function FirstMapped(keys: seq<string>, m: map<string, string>): Option<string> {
    var i := FirstMappedIndex(keys, m);
    if i < |keys| then Some(m[keys[i]]) else None
  }

  /** `_resolve_bridge_linkedid`: the entry's own non-empty `linkedid`, else
      the call of the first of channel1, channel2, channel that the channel
      map knows, else the empty string. */
  function ResolveBridgeLinkedid(channelMap: map<string, string>, e: Entry): (lid: string)
    ensures Field(e, "linkedid") != "" ==> lid == Field(e, "linkedid")
    ensures Field(e, "linkedid") == "" ==>
      var keys := [Field(e, "channel1"), Field(e, "channel2"), Field(e, "channel")];
      var i := FirstMappedIndex(keys, channelMap);
      && (i < 3 ==> lid == channelMap[keys[i]])
      && (i == 3 ==> lid == "")
  {
    var linkedid := Field(e, "linkedid");
    if linkedid != "" then linkedid
    else
      match FirstMapped([Field(e, "channel1"), Field(e, "channel2"), Field(e, "channel")], channelMap)
      case Some(v) => v
      case None => ""
  }

  /** `a or b or c or d` over strings. */
  function FirstNonEmpty(xs: seq<string>): (r: string)
    ensures r != "" ==> r in xs
    ensures r == "" ==> forall x :: x in xs ==> x == ""
  {
    if |xs| == 0 then ""
    else if xs[0] != "" then xs[0]
    else
      assert xs == [xs[0]] + xs[1..];
      FirstNonEmpty(xs[1..])
  }

  /** The linkedid a bridge add/update is attributed to: the resolved one, or
      for an outbound call that was never seen unbridged, the first
      non-empty of uniqueid, channel1, channel2, channel. */
  function BridgeLinkedid(channelMap: map<string, string>, e: Entry, uniqueid: string): string {
    var resolved := ResolveBridgeLinkedid(channelMap, e);
    if resolved == "" && Field(e, "outbound_trunk_name") != "" then
      FirstNonEmpty([uniqueid, Field(e, "channel1"), Field(e, "channel2"), Field(e, "channel")])
    else resolved
  }

  /** The non-empty ones of channel, channel1, channel2, in that order. */
  function BridgeChannels(e: Entry): (chs: seq<string>)
    ensures forall ch :: ch in chs ==> ch != ""
    ensures forall ch :: ch in chs <==>
              ch != "" && (ch == Field(e, "channel") || ch == Field(e, "channel1") || ch == Field(e, "channel2"))
  {
    var all := [Field(e, "channel"), Field(e, "channel1"), Field(e, "channel2")];
    (if all[0] != "" then [all[0]] else []) + (if all[1] != "" then [all[1]] else [])
      + (if all[2] != "" then [all[2]] else [])
  }

  /** The record a bridge add/update shows for an answered call. */
  function NewConnected(lid: string, e: Entry): CallRecord {
    Connected(lid, Field(e, "callerid1"), Field(e, "callerid2"), Field(e, "name1"), Field(e, "name2"),
              Field(e, "bridge_time"))
  }

  /** The parties of a bridge: the external number, the internal
      extension and the internal name. */
  datatype Parties = Parties(external: string, internalExt: string, internalName: string)

  /** `_extract_bridge_parties`: the side whose channel name contains
      "trunk" (in any letter case) is the external one; channel1 is looked
      at first. Without a trunk side the parties are unknown. */
  function ExtractBridgeParties(e: Entry): (r: Option<Parties>)
    ensures r.None? <==> !Contains(Lower(Field(e, "channel1")), "trunk")
                         && !Contains(Lower(Field(e, "channel2")), "trunk")
    ensures Contains(Lower(Field(e, "channel1")), "trunk") ==>
              r == Some(Parties(Field(e, "callerid1"), Field(e, "callerid2"), Field(e, "name2")))
    ensures !Contains(Lower(Field(e, "channel1")), "trunk") && Contains(Lower(Field(e, "channel2")), "trunk") ==>
              r == Some(Parties(Field(e, "callerid2"), Field(e, "callerid1"), Field(e, "name1")))
  {
    if Contains(Lower(Field(e, "channel1")), "trunk") then
      Some(Parties(Field(e, "callerid1"), Field(e, "callerid2"), Field(e, "name2")))
    else if Contains(Lower(Field(e, "channel2")), "trunk") then
      Some(Parties(Field(e, "callerid2"), Field(e, "callerid1"), Field(e, "name1")))
    else None
  }

  /** `_handle_bridge`. */
  function HandleBridge(t: Tables, action: string, e: Entry, uniqueid: string): (r: Outcome)
    // answer: a ringing incoming call turns into a connected one
    ensures IsAddOrUpdate(action) ==>
      var lid := BridgeLinkedid(t.channelMap, e, uniqueid);
      && (lid != "" && lid in t.incoming && lid in t.activeCalls ==>
            && r.tables.activeCalls == t.activeCalls[lid := NewConnected(lid, e)]
            && r.tables.callOrder == t.callOrder
            && r.events == [CallConnect(lid, Field(e, "callerid1"), Field(e, "callerid2"),
                                        Field(e, "name1"), Field(e, "name2"), Field(e, "bridge_time"))])
      && (!(lid != "" && lid in t.incoming && lid in t.activeCalls) ==>
            r.tables.activeCalls == t.activeCalls && r.tables.callOrder == t.callOrder && r.events == [])
      && r.tables.incoming == t.incoming
      && (lid != "" ==> forall ch :: ch in BridgeChannels(e) ==>
                          ch in r.tables.channelMap && r.tables.channelMap[ch] == lid)
    // hang-up: none of the bridge's channels stays in the channel map
    ensures action == "delete" ==>
      && (forall ch :: ch in BridgeChannels(e) ==> ch !in r.tables.channelMap)
      && (forall ch :: ch in t.channelMap && ch !in BridgeChannels(e) ==>
            ch in r.tables.channelMap && r.tables.channelMap[ch] == t.channelMap[ch])
      && r.tables.activeCalls.Keys <= t.activeCalls.Keys
    ensures !IsAddOrUpdate(action) && action != "delete" ==> r == Outcome(t, [])
    ensures r.tables.extensionStatus == t.extensionStatus
  {
    var chs := BridgeChannels(e);
    if IsAddOrUpdate(action) then
      var linkedid := BridgeLinkedid(t.channelMap, e, uniqueid);
      if linkedid == "" then Outcome(t, [])
      else
        var t1 := Track(t, linkedid, set ch | ch in chs);
        if linkedid !in t1.incoming || linkedid !in t1.activeCalls then Outcome(t1, [])
        else
          Outcome(PutCall(t1, linkedid, NewConnected(linkedid, e)),
                  [CallConnect(linkedid, Field(e, "callerid1"), Field(e, "callerid2"),
                               Field(e, "name1"), Field(e, "name2"), Field(e, "bridge_time"))])
    else if action == "delete" then
      var linked := FirstMapped(chs, t.channelMap);
      var t1 := t.(channelMap := t.channelMap - (set ch | ch in chs));
      match linked
      case Some(l) => if l == "" then Outcome(t1, []) else Release(t1, l, set ch | ch in chs)
      case None => Outcome(t1, [])
    else
      Outcome(t, [])
  }

  // ---------------------------------------------------------------------
  // Notifications
  // ---------------------------------------------------------------------

  /** One `ActiveCallStatus` entry, dispatched on its `chantype`. */
  function HandleEntry(t: Tables, e: Entry): (r: Outcome)
    ensures Field(e, "chantype") != "unbridge" && Field(e, "chantype") != "bridge" ==> r == Outcome(t, [])
    ensures r.tables.extensionStatus == t.extensionStatus
  {
    var chantype := Field(e, "chantype");
    if chantype == "unbridge" then HandleUnbridge(t, Field(e, "action"), e, Field(e, "uniqueid"))
    else if chantype == "bridge" then HandleBridge(t, Field(e, "action"), e, Field(e, "uniqueid"))
    else Outcome(t, [])
  }

  predicate IsTrunkEntry(e: Entry) {
    Field(e, "inbound_trunk_name") != ""
  }

  function TrunkEntries(body: seq<Entry>): (r: seq<Entry>)
    ensures forall x :: x in r ==> IsTrunkEntry(x)
  {
    if |body| == 0 then []
    else (if IsTrunkEntry(body[0]) then [body[0]] else []) + TrunkEntries(body[1..])
  }

  function OtherEntries(body: seq<Entry>): (r: seq<Entry>)
    ensures forall x :: x in r ==> !IsTrunkEntry(x)
  {
    if |body| == 0 then []
    else (if IsTrunkEntry(body[0]) then [] else [body[0]]) + OtherEntries(body[1..])
  }

  lemma {:induction false} TrunkAppend(a: seq<Entry>, b: seq<Entry>)
    ensures TrunkEntries(a + b) == TrunkEntries(a) + TrunkEntries(b)
  {
    if |a| == 0 {
      assert a + b == b;
    } else {
      var h := if IsTrunkEntry(a[0]) then [a[0]] else [];
      assert (a + b)[0] == a[0];
      assert (a + b)[1..] == a[1..] + b;
      TrunkAppend(a[1..], b);
      assert TrunkEntries(a + b) == h + (TrunkEntries(a[1..]) + TrunkEntries(b));
      assert TrunkEntries(a) == h + TrunkEntries(a[1..]);
    }
  }

  lemma {:induction false} OtherAppend(a: seq<Entry>, b: seq<Entry>)
    ensures OtherEntries(a + b) == OtherEntries(a) + OtherEntries(b)
  {
    if |a| == 0 {
      assert a + b == b;
    } else {
      var h := if IsTrunkEntry(a[0]) then [] else [a[0]];
      assert (a + b)[0] == a[0];
      assert (a + b)[1..] == a[1..] + b;
      OtherAppend(a[1..], b);
      assert OtherEntries(a + b) == h + (OtherEntries(a[1..]) + OtherEntries(b));
      assert OtherEntries(a) == h + OtherEntries(a[1..]);
    }
  }

  lemma GroupsAppend(a: seq<Entry>, b: seq<Entry>)
    ensures TrunkEntries(a + b) == TrunkEntries(a) + TrunkEntries(b)
    ensures OtherEntries(a + b) == OtherEntries(a) + OtherEntries(b)
  {
    TrunkAppend(a, b);
    OtherAppend(a, b);
  }

  /** Each group selected again is itself, and has nothing of the other. */
  lemma {:induction false} GroupsSelectAgain(body: seq<Entry>)
    ensures TrunkEntries(TrunkEntries(body)) == TrunkEntries(body)
    ensures OtherEntries(TrunkEntries(body)) == []
    ensures TrunkEntries(OtherEntries(body)) == []
    ensures OtherEntries(OtherEntries(body)) == OtherEntries(body)
  {
    if |body| > 0 {
      GroupsSelectAgain(body[1..]);
      var h := [body[0]];
      assert h[1..] == [];
      if IsTrunkEntry(body[0]) {
        GroupsAppend(h, TrunkEntries(body[1..]));
        assert OtherEntries(body) == OtherEntries(body[1..]);
      } else {
        GroupsAppend(h, OtherEntries(body[1..]));
        assert TrunkEntries(body) == TrunkEntries(body[1..]);
      }
    }
  }

  lemma GroupsKeepOrder(body: seq<Entry>)
    ensures TrunkEntries(TrunkEntries(body) + OtherEntries(body)) == TrunkEntries(body)
    ensures OtherEntries(TrunkEntries(body) + OtherEntries(body)) == OtherEntries(body)
  {
    GroupsAppend(TrunkEntries(body), OtherEntries(body));
    GroupsSelectAgain(body);
  }

  /** The stable sort on `0 if inbound_trunk_name else 1`: trunk entries
      first, so that their linkedids are known to be incoming before the
      extension channels of the same call are seen; each group keeps the
      order it arrived in. */
  function TrunkFirst(body: seq<Entry>): (r: seq<Entry>)
    ensures |r| == |body|
    ensures multiset(r) == multiset(body)
    ensures forall i, j :: 0 <= i < j < |r| && !IsTrunkEntry(r[i]) ==> !IsTrunkEntry(r[j])
    ensures TrunkEntries(r) == TrunkEntries(body) && OtherEntries(r) == OtherEntries(body)
  {
    TrunkSplitIsPermutation(body);
    TrunkSplitLength(body);
    GroupsKeepOrder(body);
    TrunksBeforeOthers(TrunkEntries(body), OtherEntries(body));
    TrunkEntries(body) + OtherEntries(body)
  }

  /** Trunk entries followed by other entries: no trunk entry comes after
      a non-trunk one. */
  lemma TrunksBeforeOthers(a: seq<Entry>, b: seq<Entry>)
    requires forall x :: x in a ==> IsTrunkEntry(x)
    requires forall x :: x in b ==> !IsTrunkEntry(x)
    ensures forall i, j :: 0 <= i < j < |a + b| && !IsTrunkEntry((a + b)[i]) ==> !IsTrunkEntry((a + b)[j])
  {
    forall i, j | 0 <= i < j < |a + b| && !IsTrunkEntry((a + b)[i])
      ensures !IsTrunkEntry((a + b)[j])
    {
      assert (a + b)[j] == b[j - |a|] && b[j - |a|] in b;
    }
  }

  lemma {:induction false} TrunkSplitIsPermutation(body: seq<Entry>)
    ensures multiset(TrunkEntries(body) + OtherEntries(body)) == multiset(body)
  {
    if |body| > 0 {
      var x, rest := body[0], body[1..];
      TrunkSplitIsPermutation(rest);
      var a, b := TrunkEntries(rest), OtherEntries(rest);
      var t, o := TrunkEntries(body), OtherEntries(body);
      if IsTrunkEntry(x) {
        assert t == [x] + a && o == b;
        MultisetFront(x, a, b);
      } else {
        assert t == a && o == [x] + b;
        MultisetMiddle(x, a, b);
      }
      assert multiset(t + o) == multiset{x} + multiset(a + b);
      MultisetCons(x, rest);
      assert body == [x] + rest;
    }
  }

  lemma {:induction false} TrunkSplitLength(body: seq<Entry>)
    ensures |TrunkEntries(body)| + |OtherEntries(body)| == |body|
  {
    if |body| > 0 {
      TrunkSplitLength(body[1..]);
    }
  }

  lemma MultisetFront<T>(x: T, a: seq<T>, b: seq<T>)
    ensures multiset([x] + a + b) == multiset{x} + multiset(a + b)
  {
    assert [x] + a + b == [x] + (a + b);
  }

  lemma MultisetCons<T>(x: T, rest: seq<T>)
    ensures multiset([x] + rest) == multiset{x} + multiset(rest)
  {
  }

  lemma MultisetMiddle<T>(x: T, a: seq<T>, b: seq<T>)
    ensures multiset(a + ([x] + b)) == multiset{x} + multiset(a + b)
  {
  }

  /** Applies the entries in order, concatenating what each publishes. */
  function FoldEntries(t: Tables, es: seq<Entry>): (r: Outcome)
    ensures r.tables.extensionStatus == t.extensionStatus
    decreases |es|
  {
    if |es| == 0 then Outcome(t, [])
    else
      var first := HandleEntry(t, es[0]);
      var rest := FoldEntries(first.tables, es[1..]);
      Outcome(rest.tables, first.events + rest.events)
  }

  /** Handling two runs of entries is handling the first, then the second
      from where the first left the tables. */
  lemma {:induction false} FoldAppend(t: Tables, a: seq<Entry>, b: seq<Entry>)
    ensures var x := FoldEntries(t, a); var y := FoldEntries(x.tables, b);
      FoldEntries(t, a + b) == Outcome(y.tables, x.events + y.events)
    decreases |a|
  {
    if |a| == 0 {
      assert a + b == b;
    } else {
      var e, rest := a[0], a[1..];
      assert a == [e] + rest;
      assert a + b == [e] + (rest + b);
      var h := HandleEntry(t, e);
      FoldAppend(h.tables, rest, b);
      FoldCons(t, e, rest);
      FoldCons(t, e, rest + b);
      var x1 := FoldEntries(h.tables, rest);
      EventsAssoc(h.events, x1.events, FoldEntries(x1.tables, b).events);
    }
  }

  /** One step of `FoldEntries`. */
  lemma FoldCons(t: Tables, e: Entry, rest: seq<Entry>)
    ensures var h := HandleEntry(t, e); var x := FoldEntries(h.tables, rest);
      FoldEntries(t, [e] + rest) == Outcome(x.tables, h.events + x.events)
  {
    assert ([e] + rest)[0] == e && ([e] + rest)[1..] == rest;
  }

  lemma EventsAssoc(a: seq<Event>, b: seq<Event>, c: seq<Event>)
    ensures a + (b + c) == (a + b) + c
  {
  }

  /** `_handle_active_call_status`: every trunk entry is handled before
      any other entry, each group in the order it arrived; the events are
      those of the trunk entries followed by those of the others. */
  function HandleActiveCallStatus(t: Tables, body: seq<Entry>): (r: Outcome)
    ensures r.tables.extensionStatus == t.extensionStatus
    ensures var x := FoldEntries(t, TrunkEntries(body)); var y := FoldEntries(x.tables, OtherEntries(body));
      r == Outcome(y.tables, x.events + y.events)
  {
    FoldAppend(t, TrunkEntries(body), OtherEntries(body));
    FoldEntries(t, TrunkFirst(body))
  }

  /** `_handle_extension_status`: every entry with a non-empty extension
      stores its status and publishes an `extension_status` event. */
  function HandleExtensionStatus(t: Tables, body: seq<Entry>): (r: Outcome)
    ensures r.tables == t.(extensionStatus := r.tables.extensionStatus)
    ensures r.events == ExtensionEvents(body)
    ensures r.tables.extensionStatus.Keys == t.extensionStatus.Keys + ReportedExtensions(body)
    decreases |body|
  {
    if |body| == 0 then Outcome(t, [])
    else
      var ext := Field(body[0], "extension");
      var t1 := if ext != "" then t.(extensionStatus := t.extensionStatus[ext := Field(body[0], "status")]) else t;
      var rest := HandleExtensionStatus(t1, body[1..]);
      Outcome(rest.tables, (if ext != "" then [ExtensionStatus(ext, Field(body[0], "status"))] else []) + rest.events)
  }

  /** The events an `ExtensionStatus` body publishes: one per entry that
      names an extension, in order. */
  function ExtensionEvents(body: seq<Entry>): (evs: seq<Event>)
    ensures |evs| <= |body|
    ensures forall ev :: ev in evs ==> ev.ExtensionStatus? && ev.extension != ""
  {
    if |body| == 0 then []
    else
      var ext := Field(body[0], "extension");
      (if ext != "" then [ExtensionStatus(ext, Field(body[0], "status"))] else []) + ExtensionEvents(body[1..])
  }

  function ReportedExtensions(body: seq<Entry>): (exts: set<string>)
    ensures "" !in exts
  {
    if |body| == 0 then {}
    else
      var ext := Field(body[0], "extension");
      (if ext != "" then {ext} else {}) + ReportedExtensions(body[1..])
  }

  /** Dispatch of one `notify` message on its event name; other names are
      ignored. */
  function Notify(t: Tables, eventname: string, body: seq<Entry>): (r: Outcome)
    ensures eventname != "ExtensionStatus" && eventname != "ActiveCallStatus" ==> r == Outcome(t, [])
  {
    if eventname == "ExtensionStatus" then HandleExtensionStatus(t, body)
    else if eventname == "ActiveCallStatus" then HandleActiveCallStatus(t, body)
    else Outcome(t, [])
  }

  /** The active calls as the web layer lists them, in insertion order:
      only stored calls, and, when every key of the order is stored, the
      call of each key at its position. */
  function ActiveCallList(t: Tables): (r: seq<CallRecord>)
    ensures forall rec :: rec in r ==> rec in t.activeCalls.Values
    ensures (forall k :: k in t.callOrder ==> k in t.activeCalls) ==>
      |r| == |t.callOrder| && forall i :: 0 <= i < |r| ==> r[i] == t.activeCalls[t.callOrder[i]]
  {
    CallsInOrderAll(t.callOrder, t.activeCalls);
    CallsInOrder(t.callOrder, t.activeCalls)
  }

  lemma {:induction false} CallsInOrderAll(order: seq<string>, calls: map<string, CallRecord>)
    ensures (forall k :: k in order ==> k in calls) ==>
      && |CallsInOrder(order, calls)| == |order|
      && forall i :: 0 <= i < |order| ==> CallsInOrder(order, calls)[i] == calls[order[i]]
  {
    if |order| > 0 {
      CallsInOrderAll(order[1..], calls);
    }
  }

  function CallsInOrder(order: seq<string>, calls: map<string, CallRecord>): (r: seq<CallRecord>)
    ensures |r| <= |order|
    ensures forall rec :: rec in r ==> rec in calls.Values
  {
    if |order| == 0 then []
    else (if order[0] in calls then [calls[order[0]]] else []) + CallsInOrder(order[1..], calls)
  }
}

=== FILE: pbx_properties.dfy ===
/** Properties of the PBX monitor's call tables that hold across whole
    notifications: the consistency the handlers keep, that a call ends only
    with its last channel, that the published events tell a subscriber
    exactly which calls are shown, and a ring / answer / hang-up scenario. */
module PbxProperties {
  import opened Prelude
  import opened Text
  import opened PbxMonitor

  // ---------------------------------------------------------------------
  // The consistency of the tables
  // ---------------------------------------------------------------------

  /** A tracked channel points at a non-empty linkedid whose channel set
      contains it. (The converse need not hold: a channel re-assigned to
      another call stays in its old call's set.) */
  predicate ChannelLinked(t: Tables, ch: string)
    requires ch in t.channelMap
  {
    var lid := t.channelMap[ch];
    lid != "" && lid in t.callChannels && ch in t.callChannels[lid]
  }

  ghost predicate ChannelsValid(t: Tables) {
    && "" !in t.channelMap
    && (forall ch :: ch in t.channelMap ==> ChannelLinked(t, ch))
    && "" !in t.callChannels
    && (forall lid :: lid in t.callChannels ==> t.callChannels[lid] != {})
  }

  /** A shown record is filed under its own uniqueid; a ringing record
      lists each extension once and never the empty string. */
  predicate WellFormedRecord(lid: string, rec: CallRecord) {
    rec.uniqueid == lid && (rec.Ringing? ==> NoDup(rec.extensions) && "" !in rec.extensions)
  }

  /** Only incoming calls are ever shown; the insertion order lists each
      shown call exactly once. */
  ghost predicate CallsValid(t: Tables) {
    && "" !in t.incoming
    && t.activeCalls.Keys <= t.incoming
    && (forall lid :: lid in t.activeCalls ==> WellFormedRecord(lid, t.activeCalls[lid]))
    && NoDup(t.callOrder)
    && (forall lid :: lid in t.callOrder <==> lid in t.activeCalls)
  }

  ghost predicate Valid(t: Tables) {
    ChannelsValid(t) && CallsValid(t)
  }

  lemma EmptyIsValid()
    ensures Valid(Empty)
  {
  }

  lemma TrackValid(t: Tables, lid: string, chs: set<string>)
    requires Valid(t) && lid != "" && "" !in chs
    ensures Valid(Track(t, lid, chs))
  {
    var r := Track(t, lid, chs);
    if chs != {} {
      forall ch | ch in r.channelMap ensures ChannelLinked(r, ch) {
        if ch !in chs {
          assert ChannelLinked(t, ch);
          var l := t.channelMap[ch];
          assert r.callChannels[l] >= t.callChannels[l];
        }
      }
    }
  }

  lemma PutCallValid(t: Tables, lid: string, rec: CallRecord)
    requires Valid(t) && lid in t.incoming && WellFormedRecord(lid, rec)
    ensures Valid(PutCall(t, lid, rec))
  {
    if lid !in t.activeCalls {
      NoDupSnoc(t.callOrder, lid);
    }
  }

  /** Forgetting channels from the channel map keeps the tables valid. */
  lemma ForgetChannelsValid(t: Tables, chs: set<string>)
    requires Valid(t)
    ensures Valid(t.(channelMap := t.channelMap - chs))
  {
    var r := t.(channelMap := t.channelMap - chs);
    forall ch | ch in r.channelMap ensures ChannelLinked(r, ch) {
      assert ChannelLinked(t, ch);
    }
  }

  lemma ReleaseValid(t: Tables, linked: string, chs: set<string>)
    requires Valid(t) && linked != ""
    requires forall ch :: ch in chs ==> ch !in t.channelMap
    ensures Valid(Release(t, linked, chs).tables)
  {
    var r := Release(t, linked, chs).tables;
    EmptyDifference(ChannelsOf(t.callChannels, linked), chs);
    if ChannelsOf(t.callChannels, linked) <= chs {
      // no tracked channel still points at the finished call
      forall ch | ch in r.channelMap ensures ChannelLinked(r, ch) {
        assert ChannelLinked(t, ch);
        assert t.channelMap[ch] != linked;
      }
      if linked in t.activeCalls {
        RemoveFirstNoDup(t.callOrder, linked);
      } else {
        assert r.callOrder == t.callOrder;
      }
    } else {
      forall ch | ch in r.channelMap ensures ChannelLinked(r, ch) {
        assert ChannelLinked(t, ch);
      }
      var rest := t.callChannels[linked] - chs;
      assert rest != {};
    }
  }

  lemma RingValid(t: Tables, lid: string, e: Entry)
    requires Valid(t) && lid in t.incoming
    ensures Valid(Ring(t, lid, e).tables)
  {
    var callernum := Field(e, "callernum");
    if lid in t.activeCalls {
      var existing := t.activeCalls[lid];
      if existing.Ringing? {
        assert WellFormedRecord(lid, existing);
        PutCallValid(t, lid, existing.(extensions := AddExtension(existing.extensions, callernum)));
      }
    } else {
      PutCallValid(t, lid, NewRinging(lid, e));
    }
  }

  lemma UnbridgeValid(t: Tables, action: string, e: Entry, uniqueid: string)
    requires Valid(t)
    ensures Valid(HandleUnbridge(t, action, e, uniqueid).tables)
  {
    var channel := Field(e, "channel");
    var linkedid := UnbridgeLinkedid(e, uniqueid);
    if IsAddOrUpdate(action) {
      var t1 := if channel != "" && linkedid != "" then Track(t, linkedid, {channel}) else t;
      if channel != "" && linkedid != "" {
        TrackValid(t, linkedid, {channel});
      }
      if IsRingState(Field(e, "state")) && Field(e, "inbound_trunk_name") == ""
         && linkedid != "" && linkedid in t1.incoming {
        RingValid(t1, linkedid, e);
      }
    } else if action == "delete" && channel != "" && channel in t.channelMap {
      var linked := t.channelMap[channel];
      assert ChannelLinked(t, channel);
      ForgetChannelsValid(t, {channel});
      ReleaseValid(t.(channelMap := t.channelMap - {channel}), linked, {channel});
    }
  }

  lemma BridgeValid(t: Tables, action: string, e: Entry, uniqueid: string)
    requires Valid(t)
    ensures Valid(HandleBridge(t, action, e, uniqueid).tables)
  {
    var chs := BridgeChannels(e);
    var chset := set ch | ch in chs;
    if IsAddOrUpdate(action) {
      var linkedid := BridgeLinkedid(t.channelMap, e, uniqueid);
      if linkedid != "" {
        TrackValid(t, linkedid, chset);
        var t1 := Track(t, linkedid, chset);
        if linkedid in t1.incoming && linkedid in t1.activeCalls {
          PutCallValid(t1, linkedid, NewConnected(linkedid, e));
        }
      }
    } else if action == "delete" {
      var t1 := t.(channelMap := t.channelMap - chset);
      ForgetChannelsValid(t, chset);
      var i := FirstMappedIndex(chs, t.channelMap);
      if i < |chs| {
        assert ChannelLinked(t, chs[i]);
        ReleaseValid(t1, t.channelMap[chs[i]], chset);
      }
    }
  }

  lemma EntryValid(t: Tables, e: Entry)
    requires Valid(t)
    ensures Valid(HandleEntry(t, e).tables)
  {
    UnbridgeValid(t, Field(e, "action"), e, Field(e, "uniqueid"));
    BridgeValid(t, Field(e, "action"), e, Field(e, "uniqueid"));
  }

  lemma {:induction false} FoldValid(t: Tables, es: seq<Entry>)
    requires Valid(t)
    ensures Valid(FoldEntries(t, es).tables)
    decreases |es|
  {
    if |es| > 0 {
      EntryValid(t, es[0]);
      FoldValid(HandleEntry(t, es[0]).tables, es[1..]);
    }
  }

  /** Every notification keeps the tables consistent. */
  lemma NotifyValid(t: Tables, eventname: string, body: seq<Entry>)
    requires Valid(t)
    ensures Valid(Notify(t, eventname, body).tables)
  {
    if eventname == "ActiveCallStatus" {
      FoldValid(t, TrunkFirst(body));
    }
  }

  // ---------------------------------------------------------------------
  // A call ends with its last channel
  // ---------------------------------------------------------------------

  /** The channels a delete entry removes. */
  predicate Deletes(e: Entry, ch: string) {
    && Field(e, "action") == "delete"
    && ((Field(e, "chantype") == "unbridge" && ch == Field(e, "channel"))
        || (Field(e, "chantype") == "bridge" && ch in BridgeChannels(e)))
  }

  /** A shown call whose tracked channel is not deleted by the entry stays
      shown and is not hung up. */
  lemma CallSurvivesWhileChannelRemains(t: Tables, e: Entry, lid: string, ch: string)
    requires Valid(t) && lid in t.activeCalls
    requires ch in t.channelMap && t.channelMap[ch] == lid && !Deletes(e, ch)
    ensures lid in HandleEntry(t, e).tables.activeCalls
    ensures CallHangup(lid) !in HandleEntry(t, e).events
  {
    assert ChannelLinked(t, ch);
    if Field(e, "chantype") == "unbridge" {
      UnbridgeKeepsCall(t, Field(e, "action"), e, Field(e, "uniqueid"), lid, ch);
    } else if Field(e, "chantype") == "bridge" {
      BridgeKeepsCall(t, Field(e, "action"), e, Field(e, "uniqueid"), lid, ch);
    }
  }

  lemma UnbridgeKeepsCall(t: Tables, action: string, e: Entry, uniqueid: string, lid: string, ch: string)
    requires lid in t.activeCalls && lid in t.callChannels && ch in t.callChannels[lid]
    requires ch in t.channelMap && t.channelMap[ch] == lid
    requires !(action == "delete" && ch == Field(e, "channel"))
    ensures lid in HandleUnbridge(t, action, e, uniqueid).tables.activeCalls
    ensures CallHangup(lid) !in HandleUnbridge(t, action, e, uniqueid).events
  {
    var channel := Field(e, "channel");
    if action == "delete" && channel != "" && channel in t.channelMap {
      var t1 := t.(channelMap := t.channelMap - {channel});
      if t.channelMap[channel] == lid {
        assert ch in ChannelsOf(t1.callChannels, lid) - {channel};
      }
    }
  }

  lemma BridgeKeepsCall(t: Tables, action: string, e: Entry, uniqueid: string, lid: string, ch: string)
    requires lid in t.activeCalls && lid in t.callChannels && ch in t.callChannels[lid]
    requires ch in t.channelMap && t.channelMap[ch] == lid
    requires !(action == "delete" && ch in BridgeChannels(e))
    ensures lid in HandleBridge(t, action, e, uniqueid).tables.activeCalls
    ensures CallHangup(lid) !in HandleBridge(t, action, e, uniqueid).events
  {
    if action != "delete" {
      var r := HandleBridge(t, action, e, uniqueid);
      if IsAddOrUpdate(action) {
        var l := BridgeLinkedid(t.channelMap, e, uniqueid);
        if l != "" && l in t.incoming && l in t.activeCalls {
          assert r.tables.activeCalls == t.activeCalls[l := NewConnected(l, e)];
          assert r.events[0].CallConnect? && |r.events| == 1;
        } else {
          assert r.tables.activeCalls == t.activeCalls && r.events == [];
        }
      }
    } else {
      var r := HandleBridge(t, action, e, uniqueid);
      var chs := BridgeChannels(e);
      var chset := set c | c in chs;
      assert ch !in chset;
      var t1 := t.(channelMap := t.channelMap - chset);
      var linked := FirstMapped(chs, t.channelMap);
      if linked.Some? && linked.value != "" {
        assert r == Release(t1, linked.value, chset);
        if linked.value == lid {
          // the call keeps channel `ch`, so it is not released
          assert ch in ChannelsOf(t1.callChannels, lid);
          assert !(ChannelsOf(t1.callChannels, lid) <= chset);
        }
      } else {
        assert r == Outcome(t1, []);
      }
    }
  }

  /** A hang-up is published only for a shown call that has just lost its
      last channel: afterwards it is neither shown, nor incoming, nor has a
      channel set, and no tracked channel points at it. */
  lemma HangupOnlyAfterLastChannel(t: Tables, e: Entry, lid: string)
    requires Valid(t)
    requires CallHangup(lid) in HandleEntry(t, e).events
    ensures lid in t.activeCalls
    ensures var r := HandleEntry(t, e).tables;
      && lid !in r.activeCalls && lid !in r.incoming && lid !in r.callChannels
      && forall ch :: ch in r.channelMap ==> r.channelMap[ch] != lid
  {
    EntryValid(t, e);
    var r := HandleEntry(t, e).tables;
    var action := Field(e, "action");
    if Field(e, "chantype") == "unbridge" && action == "delete" {
      UnbridgeHangup(t, e, lid);
    } else if Field(e, "chantype") == "bridge" && action == "delete" {
      BridgeHangup(t, e, lid);
    } else {
      HangupOnlyOnDelete(t, e);
    }
    forall ch | ch in r.channelMap ensures r.channelMap[ch] != lid {
      assert ChannelLinked(r, ch);
    }
  }

  /** A channel's removal hangs up only the call it belonged to, once its
      last channel is gone. */
  lemma UnbridgeHangup(t: Tables, e: Entry, lid: string)
    requires Field(e, "chantype") == "unbridge" && Field(e, "action") == "delete"
    requires CallHangup(lid) in HandleEntry(t, e).events
    ensures lid in t.activeCalls
    ensures var r := HandleEntry(t, e).tables;
      lid !in r.activeCalls && lid !in r.incoming && lid !in r.callChannels
  {
    var channel := Field(e, "channel");
    assert channel != "" && channel in t.channelMap;
    var linked := t.channelMap[channel];
    var t1 := t.(channelMap := t.channelMap - {channel});
    assert HandleEntry(t, e) == Release(t1, linked, {channel});
    EmptyDifference(ChannelsOf(t1.callChannels, linked), {channel});
    assert linked == lid;
  }

  /** The removal of a bridge hangs up only the call of its first tracked
      channel, once that call's last channel is gone. */
  lemma BridgeHangup(t: Tables, e: Entry, lid: string)
    requires Field(e, "chantype") == "bridge" && Field(e, "action") == "delete"
    requires CallHangup(lid) in HandleEntry(t, e).events
    ensures lid in t.activeCalls
    ensures var r := HandleEntry(t, e).tables;
      lid !in r.activeCalls && lid !in r.incoming && lid !in r.callChannels
  {
    var chs := BridgeChannels(e);
    var chset := set c | c in chs;
    var t1 := t.(channelMap := t.channelMap - chset);
    var i := FirstMappedIndex(chs, t.channelMap);
    assert i < |chs|;
    var linked := t.channelMap[chs[i]];
    assert HandleEntry(t, e) == Release(t1, linked, chset);
    EmptyDifference(ChannelsOf(t1.callChannels, linked), chset);
    assert linked == lid;
  }

  /** Add and update entries never publish a hang-up. */
  lemma HangupOnlyOnDelete(t: Tables, e: Entry)
    requires Field(e, "action") != "delete"
    ensures forall ev :: ev in HandleEntry(t, e).events ==> !ev.CallHangup?
  {
  }

  // ---------------------------------------------------------------------
  // The events describe the shown calls
  // ---------------------------------------------------------------------

  /** How one event changes the set of shown calls a subscriber keeps: a
      ring adds the call, a hang-up removes it, anything else leaves it. */
  function ApplyEvent(shown: set<string>, ev: Event): set<string> {
    match ev
    case CallRing(u, _, _, _) => shown + {u}
    case CallHangup(u) => shown - {u}
    case _ => shown
  }

  /** The set of shown calls a subscriber reconstructs from the events. */
  function ReplayCalls(shown: set<string>, evs: seq<Event>): set<string>
    decreases |evs|
  {
    if |evs| == 0 then shown else ReplayCalls(ApplyEvent(shown, evs[0]), evs[1..])
  }

  lemma {:induction false} ReplayAppend(shown: set<string>, a: seq<Event>, b: seq<Event>)
    ensures ReplayCalls(shown, a + b) == ReplayCalls(ReplayCalls(shown, a), b)
    decreases |a|
  {
    if |a| == 0 {
      assert a + b == b;
    } else {
      assert (a + b)[0] == a[0];
      assert (a + b)[1..] == a[1..] + b;
      ReplayAppend(ApplyEvent(shown, a[0]), a[1..], b);
    }
  }

  /** A step publishes at most one event, never an extension status, and
      that event agrees with the change of the shown calls: a ring for a
      call not shown before and ringing after, an answer for a shown call
      now connected, a hang-up for a shown call now gone. Replaying the
      events on the calls shown before gives the calls shown after. */
  ghost predicate EventsAgree(t: Tables, r: Outcome) {
    && |r.events| <= 1
    && (forall ev :: ev in r.events ==> !ev.ExtensionStatus?)
    && (forall ev :: ev in r.events && ev.CallRing? ==>
          ev.uniqueid !in t.activeCalls && ev.uniqueid in r.tables.activeCalls
          && r.tables.activeCalls[ev.uniqueid].Ringing?)
    && (forall ev :: ev in r.events && ev.CallConnect? ==>
          ev.uniqueid in t.activeCalls && ev.uniqueid in r.tables.activeCalls
          && r.tables.activeCalls[ev.uniqueid].Connected?)
    && (forall ev :: ev in r.events && ev.CallHangup? ==>
          ev.uniqueid in t.activeCalls && ev.uniqueid !in r.tables.activeCalls)
    && ReplayCalls(t.activeCalls.Keys, r.events) == r.tables.activeCalls.Keys
  }

  /** A step that publishes nothing and keeps the shown calls agrees. */
  lemma SilentAgrees(t: Tables, r: Outcome)
    requires r.events == [] && r.tables.activeCalls.Keys == t.activeCalls.Keys
    ensures EventsAgree(t, r)
  {
  }

  /** A step that hangs up a shown call and removes only it agrees. */
  lemma HangupAgrees(t: Tables, r: Outcome, u: string)
    requires r.events == [CallHangup(u)] && u in t.activeCalls
    requires r.tables.activeCalls.Keys == t.activeCalls.Keys - {u}
    ensures EventsAgree(t, r)
  {
    assert ReplayCalls(t.activeCalls.Keys, r.events) == ReplayCalls(t.activeCalls.Keys - {u}, []);
  }

  /** A step that connects a shown call and keeps the shown calls agrees. */
  lemma ConnectAgrees(t: Tables, r: Outcome, ev: Event)
    requires ev.CallConnect? && r.events == [ev] && ev.uniqueid in t.activeCalls
    requires r.tables.activeCalls.Keys == t.activeCalls.Keys
    requires r.tables.activeCalls[ev.uniqueid].Connected?
    ensures EventsAgree(t, r)
  {
    assert ReplayCalls(t.activeCalls.Keys, r.events) == ReplayCalls(t.activeCalls.Keys, []);
  }

  /** A step that shows a new ringing call, and only it, agrees. */
  lemma RingAgrees(t: Tables, r: Outcome, ev: Event)
    requires ev.CallRing? && r.events == [ev] && ev.uniqueid !in t.activeCalls
    requires r.tables.activeCalls.Keys == t.activeCalls.Keys + {ev.uniqueid}
    requires r.tables.activeCalls[ev.uniqueid].Ringing?
    ensures EventsAgree(t, r)
  {
    assert ReplayCalls(t.activeCalls.Keys, r.events) == ReplayCalls(t.activeCalls.Keys + {ev.uniqueid}, []);
  }

  lemma ReleaseEventsAgree(t: Tables, linked: string, chs: set<string>)
    ensures EventsAgree(t, Release(t, linked, chs))
  {
    var r := Release(t, linked, chs);
    if ChannelsOf(t.callChannels, linked) <= chs && linked in t.activeCalls {
      HangupAgrees(t, r, linked);
    } else {
      SilentAgrees(t, r);
    }
  }

  lemma UnbridgeEventsAgree(t: Tables, action: string, e: Entry, uniqueid: string)
    ensures EventsAgree(t, HandleUnbridge(t, action, e, uniqueid))
  {
    var r := HandleUnbridge(t, action, e, uniqueid);
    var channel := Field(e, "channel");
    var linkedid := UnbridgeLinkedid(e, uniqueid);
    if IsAddOrUpdate(action) {
      var t1 := if channel != "" && linkedid != "" then Track(t, linkedid, {channel}) else t;
      assert t1.activeCalls == t.activeCalls;
      if IsRingState(Field(e, "state")) && Field(e, "inbound_trunk_name") == ""
         && linkedid != "" && linkedid in t1.incoming {
        assert r == Ring(t1, linkedid, e);
        if linkedid !in t1.activeCalls {
          RingAgrees(t, r, r.events[0]);
        } else {
          SilentAgrees(t, r);
        }
      } else {
        SilentAgrees(t, r);
      }
    } else if action == "delete" && channel != "" && channel in t.channelMap {
      var linked := t.channelMap[channel];
      var t1 := t.(channelMap := t.channelMap - {channel});
      if linked != "" {
        assert r == Release(t1, linked, {channel});
        ReleaseEventsAgree(t1, linked, {channel});
      } else {
        SilentAgrees(t, r);
      }
    } else {
      SilentAgrees(t, r);
    }
  }

  lemma BridgeEventsAgree(t: Tables, action: string, e: Entry, uniqueid: string)
    ensures EventsAgree(t, HandleBridge(t, action, e, uniqueid))
  {
    if IsAddOrUpdate(action) {
      BridgeAddEventsAgree(t, action, e, uniqueid);
    } else if action == "delete" {
      BridgeDeleteEventsAgree(t, e, uniqueid);
    }
  }

  lemma BridgeDeleteEventsAgree(t: Tables, e: Entry, uniqueid: string)
    ensures EventsAgree(t, HandleBridge(t, "delete", e, uniqueid))
  {
    var chs := BridgeChannels(e);
    var chset := set ch | ch in chs;
    var t1 := t.(channelMap := t.channelMap - chset);
    var r := HandleBridge(t, "delete", e, uniqueid);
    var linked := FirstMapped(chs, t.channelMap);
    if linked.Some? && linked.value != "" {
      assert r == Release(t1, linked.value, chset);
      ReleaseEventsAgree(t1, linked.value, chset);
    } else {
      assert r == Outcome(t1, []);
    }
  }

  lemma BridgeAddEventsAgree(t: Tables, action: string, e: Entry, uniqueid: string)
    requires IsAddOrUpdate(action)
    ensures EventsAgree(t, HandleBridge(t, action, e, uniqueid))
  {
    var r := HandleBridge(t, action, e, uniqueid);
    var lid := BridgeLinkedid(t.channelMap, e, uniqueid);
    if lid != "" && lid in t.incoming && lid in t.activeCalls {
      var ev := CallConnect(lid, Field(e, "callerid1"), Field(e, "callerid2"),
                            Field(e, "name1"), Field(e, "name2"), Field(e, "bridge_time"));
      assert r.events == [ev];
      assert r.tables.activeCalls.Keys == t.activeCalls.Keys;
      ConnectAgrees(t, r, ev);
    } else {
      assert r.events == [];
      assert r.tables.activeCalls == t.activeCalls;
      SilentAgrees(t, r);
    }
  }

  lemma EntryEventsAgree(t: Tables, e: Entry)
    ensures EventsAgree(t, HandleEntry(t, e))
  {
    var chantype := Field(e, "chantype");
    if chantype == "unbridge" {
      UnbridgeEventsAgree(t, Field(e, "action"), e, Field(e, "uniqueid"));
    } else if chantype == "bridge" {
      BridgeEventsAgree(t, Field(e, "action"), e, Field(e, "uniqueid"));
    } else {
      SilentAgrees(t, HandleEntry(t, e));
    }
  }

  /** Replaying what a whole `ActiveCallStatus` notification publishes
      gives exactly the calls shown afterwards. */
  lemma {:induction false} FoldReplay(t: Tables, es: seq<Entry>)
    ensures ReplayCalls(t.activeCalls.Keys, FoldEntries(t, es).events)
            == FoldEntries(t, es).tables.activeCalls.Keys
    decreases |es|
  {
    if |es| > 0 {
      var first := HandleEntry(t, es[0]);
      EntryEventsAgree(t, es[0]);
      FoldReplay(first.tables, es[1..]);
      ReplayAppend(t.activeCalls.Keys, first.events, FoldEntries(first.tables, es[1..]).events);
    }
  }

  lemma NotifyReplay(t: Tables, eventname: string, body: seq<Entry>)
    ensures ReplayCalls(t.activeCalls.Keys, Notify(t, eventname, body).events)
            == Notify(t, eventname, body).tables.activeCalls.Keys
  {
    if eventname == "ExtensionStatus" {
      ExtensionEventsReplayNoCalls(t.activeCalls.Keys, body);
    } else if eventname == "ActiveCallStatus" {
      FoldReplay(t, TrunkFirst(body));
    }
  }

  lemma {:induction false} ExtensionEventsReplayNoCalls(shown: set<string>, body: seq<Entry>)
    ensures ReplayCalls(shown, ExtensionEvents(body)) == shown
    decreases |body|
  {
    if |body| > 0 {
      var ext := Field(body[0], "extension");
      var head: seq<Event> := if ext != "" then [ExtensionStatus(ext, Field(body[0], "status"))] else [];
      ReplayAppend(shown, head, ExtensionEvents(body[1..]));
      ExtensionEventsReplayNoCalls(shown, body[1..]);
    }
  }

  /** The extension status map a subscriber reconstructs from the events. */
  function ReplayStatus(status: map<string, string>, evs: seq<Event>): map<string, string>
    decreases |evs|
  {
    if |evs| == 0 then status
    else
      var next := match evs[0]
                  case ExtensionStatus(x, s) => status[x := s]
                  case _ => status;
      ReplayStatus(next, evs[1..])
  }

  /** An `ExtensionStatus` notification leaves the map a subscriber would
      rebuild from its events: the last status reported for each extension
      wins. */
  lemma {:induction false} ExtensionStatusReplay(t: Tables, body: seq<Entry>)
    ensures ReplayStatus(t.extensionStatus, HandleExtensionStatus(t, body).events)
            == HandleExtensionStatus(t, body).tables.extensionStatus
    decreases |body|
  {
    if |body| > 0 {
      var ext := Field(body[0], "extension");
      var t1 := if ext != "" then t.(extensionStatus := t.extensionStatus[ext := Field(body[0], "status")]) else t;
      ExtensionStatusReplay(t1, body[1..]);
      var evs := HandleExtensionStatus(t, body).events;
      if ext != "" {
        assert evs[0] == ExtensionStatus(ext, Field(body[0], "status"));
        assert evs[1..] == HandleExtensionStatus(t1, body[1..]).events;
      } else {
        assert evs == HandleExtensionStatus(t1, body[1..]).events;
      }
    }
  }

  // ---------------------------------------------------------------------
  // The distinction of line 534
  // ---------------------------------------------------------------------

  /** An extension ring whose `linkedid` field is present but empty is
      ignored even though its uniqueid would have named an incoming call:
      only a missing `linkedid` field falls back to the uniqueid. */
  lemma PresentEmptyLinkedidIsIgnored(t: Tables, e: Entry)
    requires Field(e, "chantype") == "unbridge" && IsAddOrUpdate(Field(e, "action"))
    requires IsRingState(Field(e, "state")) && Field(e, "inbound_trunk_name") == ""
    requires "linkedid" in e && e["linkedid"] == ""
    ensures HandleEntry(t, e).events == []
    ensures HandleEntry(t, e).tables.activeCalls == t.activeCalls
  {
  }

  lemma MissingLinkedidFallsBack(t: Tables, e: Entry)
    requires Field(e, "chantype") == "unbridge" && IsAddOrUpdate(Field(e, "action"))
    requires IsRingState(Field(e, "state")) && Field(e, "inbound_trunk_name") == ""
    requires "linkedid" !in e && Field(e, "uniqueid") in t.incoming
    requires Field(e, "uniqueid") != "" && Field(e, "uniqueid") !in t.activeCalls
    ensures HandleEntry(t, e).events == [CallRing(Field(e, "uniqueid"), Field(e, "connectednum"),
                                                  Field(e, "callernum"), Field(e, "connectedname"))]
  {
  }

  // ---------------------------------------------------------------------
  // The parties of a bridge
  // ---------------------------------------------------------------------

  /** The same bridge reported with its two sides the other way round. */
  function SwapSides(e: Entry): Entry {
    e["channel1" := Field(e, "channel2")]["channel2" := Field(e, "channel1")]
     ["callerid1" := Field(e, "callerid2")]["callerid2" := Field(e, "callerid1")]
     ["name1" := Field(e, "name2")]["name2" := Field(e, "name1")]
  }

  /** When exactly one side is a trunk, which side the PBX lists first
      does not change who is external and who is internal. */
  lemma PartiesIgnoreSideOrder(e: Entry)
    requires Contains(Lower(Field(e, "channel1")), "trunk") != Contains(Lower(Field(e, "channel2")), "trunk")
    ensures ExtractBridgeParties(SwapSides(e)) == ExtractBridgeParties(e)
  {
    var f := SwapSides(e);
    assert Field(f, "channel1") == Field(e, "channel2") && Field(f, "channel2") == Field(e, "channel1");
    assert Field(f, "callerid1") == Field(e, "callerid2") && Field(f, "callerid2") == Field(e, "callerid1");
    assert Field(f, "name1") == Field(e, "name2") && Field(f, "name2") == Field(e, "name1");
  }

  // ---------------------------------------------------------------------
  // The list of active calls
  // ---------------------------------------------------------------------

  /** On consistent tables the web layer lists every shown call exactly
      once, in the order the calls were first shown. */
  lemma ActiveCallListComplete(t: Tables)
    requires Valid(t)
    ensures |ActiveCallList(t)| == |t.callOrder| == |t.activeCalls|
    ensures forall i :: 0 <= i < |t.callOrder| ==> ActiveCallList(t)[i] == t.activeCalls[t.callOrder[i]]
  {
    CallsInOrderAll(t.callOrder, t.activeCalls);
    NoDupCardinality(t.callOrder);
    assert (set k | k in t.callOrder) == t.activeCalls.Keys;
  }

  lemma {:induction false} NoDupCardinality(s: seq<string>)
    requires NoDup(s)
    ensures |set k | k in s| == |s|
  {
    if |s| > 0 {
      NoDupTail(s);
      NoDupCardinality(s[1..]);
      assert (set k | k in s) == (set k | k in s[1..]) + {s[0]};
    }
  }

  // ---------------------------------------------------------------------
  // An inbound call from ring to hang-up
  // ---------------------------------------------------------------------

  const CallId := "1700000000.1"
  const TrunkChannel := "PJSIP/trunk-00000001"
  const PhoneChannel := "PJSIP/1001-00000002"

  /** The trunk leg of an inbound call rings. */
  const TrunkRings: Entry := map["chantype" := "unbridge", "action" := "add", "channel" := TrunkChannel,
                                 "uniqueid" := CallId, "linkedid" := CallId, "state" := "Ring",
                                 "inbound_trunk_name" := "Trunk1", "callernum" := "0512345678"]

  /** Extension 1001 rings for the same call. */
  const PhoneRings: Entry := map["chantype" := "unbridge", "action" := "add", "channel" := PhoneChannel,
                                 "uniqueid" := "1700000000.2", "linkedid" := CallId, "state" := "Ringing",
                                 "callernum" := "1001", "connectednum" := "0512345678",
                                 "connectedname" := "Mario Rossi"]

  /** The extension answers: the two legs are bridged (no linkedid given). */
  const Answered: Entry := map["chantype" := "bridge", "action" := "add",
                               "channel1" := TrunkChannel, "channel2" := PhoneChannel,
                               "callerid1" := "0512345678", "callerid2" := "1001",
                               "name1" := "Mario Rossi", "name2" := "Ufficio",
                               "bridge_time" := "2024-05-01 10:00:00"]

  /** The bridge goes away with both legs. */
  const HungUp: Entry := map["chantype" := "bridge", "action" := "delete",
                             "channel1" := TrunkChannel, "channel2" := PhoneChannel]

  const RingingCall := Ringing(CallId, "0512345678", "Mario Rossi", "1001", ["1001"])
  const ConnectedCall := Connected(CallId, "0512345678", "1001", "Mario Rossi", "Ufficio", "2024-05-01 10:00:00")

  /** The tables once the trunk leg is known. */
  const AfterTrunk := Tables(map[TrunkChannel := CallId], map[CallId := {TrunkChannel}], {CallId},
                             map[], [], map[])
  /** The tables once extension 1001 rings. */
  const AfterRing := Tables(map[TrunkChannel := CallId, PhoneChannel := CallId],
                            map[CallId := {TrunkChannel, PhoneChannel}], {CallId},
                            map[CallId := RingingCall], [CallId], map[])
  const AfterAnswer := AfterRing.(activeCalls := map[CallId := ConnectedCall])

  lemma TrunkStep()
    ensures HandleEntry(Empty, TrunkRings) == Outcome(AfterTrunk, [])
  {
    var e := TrunkRings;
    assert Field(e, "chantype") == "unbridge" && Field(e, "action") == "add";
    assert Field(e, "channel") == TrunkChannel && UnbridgeLinkedid(e, CallId) == CallId;
    assert Field(e, "state") == "Ring" && Field(e, "inbound_trunk_name") == "Trunk1";
    var t1 := Track(Empty, CallId, {TrunkChannel});
    assert ChannelsOf(Empty.callChannels, CallId) + {TrunkChannel} == {TrunkChannel};
    assert t1.channelMap == map[TrunkChannel := CallId];
    assert t1.callChannels == map[CallId := {TrunkChannel}];
  }

  lemma PhoneStep()
    ensures HandleEntry(AfterTrunk, PhoneRings) == Outcome(AfterRing, [CallRing(CallId, "0512345678", "1001", "Mario Rossi")])
  {
    PhoneDispatch();
    PhoneRingShown();
  }

  /** What the extension's channel entry says. */
  lemma PhoneRingsFields()
    ensures Field(PhoneRings, "chantype") == "unbridge" && Field(PhoneRings, "action") == "add"
    ensures Field(PhoneRings, "channel") == PhoneChannel && Field(PhoneRings, "uniqueid") == "1700000000.2"
    ensures UnbridgeLinkedid(PhoneRings, "1700000000.2") == CallId
    ensures Field(PhoneRings, "state") == "Ringing" && Field(PhoneRings, "inbound_trunk_name") == ""
    ensures Field(PhoneRings, "callernum") == "1001" && Field(PhoneRings, "connectednum") == "0512345678"
    ensures Field(PhoneRings, "connectedname") == "Mario Rossi"
  {
  }

  /** The tables once the extension's channel is known, before it rings. */
  const PhoneTracked := AfterRing.(activeCalls := map[], callOrder := [])

  lemma PhoneDispatch()
    ensures HandleEntry(AfterTrunk, PhoneRings) == Ring(PhoneTracked, CallId, PhoneRings)
  {
    PhoneRingsFields();
    PhoneTrack();
  }

  lemma PhoneTrack()
    ensures Track(AfterTrunk, CallId, {PhoneChannel}) == PhoneTracked
  {
    var t1 := Track(AfterTrunk, CallId, {PhoneChannel});
    assert ChannelsOf(AfterTrunk.callChannels, CallId) + {PhoneChannel} == {TrunkChannel, PhoneChannel};
    assert t1.channelMap == map[TrunkChannel := CallId, PhoneChannel := CallId];
  }

  lemma PhoneRingShown()
    ensures Ring(PhoneTracked, CallId, PhoneRings)
            == Outcome(AfterRing, [CallRing(CallId, "0512345678", "1001", "Mario Rossi")])
  {
    PhoneRingsFields();
    assert NewRinging(CallId, PhoneRings) == RingingCall;
  }

  lemma TrunkEntriesSortedFirst()
    ensures TrunkFirst([PhoneRings, TrunkRings]) == [TrunkRings, PhoneRings]
  {
    assert Field(TrunkRings, "inbound_trunk_name") == "Trunk1";
    assert Field(PhoneRings, "inbound_trunk_name") == "";
    assert IsTrunkEntry(TrunkRings) && !IsTrunkEntry(PhoneRings);
    assert [PhoneRings, TrunkRings][1..] == [TrunkRings];
    assert [TrunkRings][1..] == [];
    assert TrunkEntries([TrunkRings]) == [TrunkRings];
    assert OtherEntries([TrunkRings]) == [];
    assert TrunkEntries([PhoneRings, TrunkRings]) == [TrunkRings];
    assert OtherEntries([PhoneRings, TrunkRings]) == [PhoneRings];
  }

  lemma AnswerStep()
    ensures HandleEntry(AfterRing, Answered)
            == Outcome(AfterAnswer, [CallConnect(CallId, "0512345678", "1001", "Mario Rossi", "Ufficio",
                                                 "2024-05-01 10:00:00")])
  {
    AnswerDispatch();
    AnswerBridges();
    AnsweredParties();
    AnswerRecord();
  }

  lemma AnswerRecord()
    ensures PutCall(AfterRing, CallId, ConnectedCall) == AfterAnswer
  {
    assert AfterRing.activeCalls[CallId := ConnectedCall] == map[CallId := ConnectedCall];
  }

  /** The bridge of the answer connects the call it is attributed to. */
  lemma AnswerBridges()
    ensures HandleBridge(AfterRing, "add", Answered, "")
            == Outcome(PutCall(AfterRing, CallId, NewConnected(CallId, Answered)),
                       [CallConnect(CallId, Field(Answered, "callerid1"), Field(Answered, "callerid2"),
                                    Field(Answered, "name1"), Field(Answered, "name2"),
                                    Field(Answered, "bridge_time"))])
  {
    AnswerDispatch();
    AnswerTracksNothingNew();
  }

  /** What the bridge entry of the answer says about the parties. */
  lemma AnsweredParties()
    ensures Field(Answered, "callerid1") == "0512345678" && Field(Answered, "callerid2") == "1001"
    ensures Field(Answered, "name1") == "Mario Rossi" && Field(Answered, "name2") == "Ufficio"
    ensures Field(Answered, "bridge_time") == "2024-05-01 10:00:00"
    ensures NewConnected(CallId, Answered) == ConnectedCall
  {
  }

  /** What the bridge entry of the answer says about the channels. */
  lemma AnsweredChannels()
    ensures Field(Answered, "chantype") == "bridge" && Field(Answered, "action") == "add"
    ensures Field(Answered, "channel") == "" && Field(Answered, "linkedid") == ""
    ensures Field(Answered, "uniqueid") == "" && Field(Answered, "outbound_trunk_name") == ""
    ensures Field(Answered, "channel1") == TrunkChannel && Field(Answered, "channel2") == PhoneChannel
  {
  }

  /** The answer is attributed to the call of the trunk channel. */
  lemma AnswerDispatch()
    ensures HandleEntry(AfterRing, Answered) == HandleBridge(AfterRing, "add", Answered, "")
    ensures BridgeLinkedid(AfterRing.channelMap, Answered, "") == CallId
    ensures BridgeChannels(Answered) == [TrunkChannel, PhoneChannel]
  {
    AnsweredChannels();
    assert FirstMappedIndex([TrunkChannel, PhoneChannel, ""], AfterRing.channelMap) == 0;
  }

  lemma AnswerTracksNothingNew()
    ensures Track(AfterRing, CallId, set ch | ch in [TrunkChannel, PhoneChannel]) == AfterRing
  {
    var chs := set ch | ch in [TrunkChannel, PhoneChannel];
    assert chs == {TrunkChannel, PhoneChannel};
    assert ChannelsOf(AfterRing.callChannels, CallId) + chs == {TrunkChannel, PhoneChannel};
    assert AfterRing.channelMap + (map ch | ch in chs :: CallId) == AfterRing.channelMap;
  }

  /** Removing the bridge's channels from the answered call. */
  const AfterHangupDispatch := AfterAnswer.(channelMap := map[])

  lemma HangupDispatch()
    ensures HandleEntry(AfterAnswer, HungUp) == Release(AfterHangupDispatch, CallId, {TrunkChannel, PhoneChannel})
  {
    HungUpFields();
    var chs := [TrunkChannel, PhoneChannel];
    assert FirstMappedIndex(chs, AfterAnswer.channelMap) == 0;
    var chset := set ch | ch in chs;
    assert chset == {TrunkChannel, PhoneChannel};
    assert AfterAnswer.channelMap - chset == map[];
  }

  /** What the entry of the hang-up says. */
  lemma HungUpFields()
    ensures Field(HungUp, "chantype") == "bridge" && Field(HungUp, "action") == "delete"
    ensures BridgeChannels(HungUp) == [TrunkChannel, PhoneChannel]
  {
  }

  lemma HangupStep()
    ensures HandleEntry(AfterAnswer, HungUp) == Outcome(Empty, [CallHangup(CallId)])
  {
    HangupDispatch();
    var chset := {TrunkChannel, PhoneChannel};
    assert ChannelsOf(AfterHangupDispatch.callChannels, CallId) == chset;
    assert RemoveFirst([CallId], CallId) == [];
  }

  /** Two entries are processed one after the other. */
  lemma FoldTwo(t: Tables, a: Entry, b: Entry)
    ensures var first := HandleEntry(t, a);
            var second := HandleEntry(first.tables, b);
            FoldEntries(t, [a, b]) == Outcome(second.tables, first.events + second.events)
  {
    var first := HandleEntry(t, a);
    var second := HandleEntry(first.tables, b);
    assert [a, b][1..] == [b];
    assert [b][1..] == [];
    assert FoldEntries(second.tables, []) == Outcome(second.tables, []);
    assert second.events + [] == second.events;
  }

  lemma RingNotify()
    ensures Notify(Empty, "ActiveCallStatus", [PhoneRings, TrunkRings])
            == Outcome(AfterRing, [CallRing(CallId, "0512345678", "1001", "Mario Rossi")])
  {
    RingFrameOrder();
    RingFrameFold();
  }

  /** The frame is processed trunk entry first. */
  lemma RingFrameOrder()
    ensures Notify(Empty, "ActiveCallStatus", [PhoneRings, TrunkRings])
            == FoldEntries(Empty, [TrunkRings, PhoneRings])
  {
    TrunkEntriesSortedFirst();
  }

  lemma RingFrameFold()
    ensures FoldEntries(Empty, [TrunkRings, PhoneRings])
            == Outcome(AfterRing, [CallRing(CallId, "0512345678", "1001", "Mario Rossi")])
  {
    TrunkStep();
    PhoneStep();
    FoldTwo(Empty, TrunkRings, PhoneRings);
    assert [] + [CallRing(CallId, "0512345678", "1001", "Mario Rossi")]
           == [CallRing(CallId, "0512345678", "1001", "Mario Rossi")];
  }

  /** A one-entry `ActiveCallStatus` frame is just that entry's step. */
  lemma NotifyOne(t: Tables, e: Entry)
    ensures Notify(t, "ActiveCallStatus", [e]) == HandleEntry(t, e)
  {
    TrunkFirstSingle(e);
    FoldOne(t, e);
  }

  lemma TrunkFirstSingle(e: Entry)
    ensures TrunkFirst([e]) == [e]
  {
    var r := TrunkFirst([e]);
    assert r[0] in multiset(r);
    assert r == [r[0]];
  }

  lemma FoldOne(t: Tables, e: Entry)
    ensures FoldEntries(t, [e]) == HandleEntry(t, e)
  {
    var r := HandleEntry(t, e);
    assert [e][1..] == [];
    assert FoldEntries(r.tables, []) == Outcome(r.tables, []);
    assert r.events + [] == r.events;
  }

  lemma ListedCalls()
    ensures ActiveCallList(AfterRing) == [RingingCall]
    ensures ActiveCallList(AfterAnswer) == [ConnectedCall]
  {
    assert [CallId][1..] == [];
  }

  /** A frame listing the extension before the trunk still shows the call
      ringing (trunk entries are handled first); the bridge turns it into a
      connected call, and its removal hangs it up and empties the tables. */
  lemma InboundCallScenario()
    ensures Notify(Empty, "ActiveCallStatus", [PhoneRings, TrunkRings])
            == Outcome(AfterRing, [CallRing(CallId, "0512345678", "1001", "Mario Rossi")])
    ensures ActiveCallList(AfterRing) == [RingingCall]
    ensures Notify(AfterRing, "ActiveCallStatus", [Answered])
            == Outcome(AfterAnswer, [CallConnect(CallId, "0512345678", "1001", "Mario Rossi", "Ufficio",
                                                 "2024-05-01 10:00:00")])
    ensures ActiveCallList(AfterAnswer) == [ConnectedCall]
    ensures Notify(AfterAnswer, "ActiveCallStatus", [HungUp]) == Outcome(Empty, [CallHangup(CallId)])
  {
    RingNotify();
    NotifyOne(AfterRing, Answered);
    AnswerStep();
    NotifyOne(AfterAnswer, HungUp);
    HangupStep();
    ListedCalls();
  }
}

=== FILE: prelude.dfy ===
/** Small generic vocabulary shared by every other module: optional values,
    results with an error, and a few facts about sequences. */
module Prelude {

  datatype Option<+T> = None | Some(value: T)

  datatype Result<+T, +E> = Ok(value: T) | Err(error: E)

  /** No element occurs twice. */
  predicate NoDup<T(==)>(s: seq<T>) {
    forall i, j :: 0 <= i < j < |s| ==> s[i] != s[j]
  }

  /** Number of occurrences of `x` in `s`. */
  function Count<T(==)>(s: seq<T>, x: T): (n: nat)
    ensures n <= |s|
    ensures x !in s ==> n == 0
  {
    if |s| == 0 then 0 else (if s[0] == x then 1 else 0) + Count(s[1..], x)
  }

  lemma {:induction false} CountAppend<T>(a: seq<T>, b: seq<T>, x: T)
    ensures Count(a + b, x) == Count(a, x) + Count(b, x)
  {
    if |a| == 0 {
      assert a + b == b;
    } else {
      assert (a + b)[1..] == a[1..] + b;
      CountAppend(a[1..], b, x);
    }
  }

  lemma {:induction false} CountPositive<T>(s: seq<T>, x: T)
    ensures x in s <==> Count(s, x) > 0
  {
    if |s| > 0 {
      CountPositive(s[1..], x);
      assert x in s <==> s[0] == x || x in s[1..];
    }
  }

  /** `s` with its first occurrence of `x` removed, or `s` itself when `x`
      does not occur. */
  function RemoveFirst<T(==)>(s: seq<T>, x: T): (r: seq<T>)
    ensures x in s ==> |r| == |s| - 1
    ensures x !in s ==> r == s
    ensures multiset(r) == multiset(s) - multiset{x}
  {
    if |s| == 0 then s
    else if s[0] == x then
      assert s == [s[0]] + s[1..];
      s[1..]
    else
      assert s == [s[0]] + s[1..];
      [s[0]] + RemoveFirst(s[1..], x)
  }

  /** Removing an element just appended, and present nowhere else, gives
      back the original list. */
  lemma {:induction false} RemoveFirstAppended<T>(s: seq<T>, x: T)
    requires x !in s
    ensures RemoveFirst(s + [x], x) == s
  {
    if |s| == 0 {
      assert s + [x] == [x];
    } else {
      assert (s + [x])[1..] == s[1..] + [x];
      RemoveFirstAppended(s[1..], x);
      assert s == [s[0]] + s[1..];
    }
  }

  /** Position of the first occurrence of `x` in `s`. */
  function IndexOf<T(==)>(s: seq<T>, x: T): (i: nat)
    requires x in s
    ensures i < |s| && s[i] == x && x !in s[..i]
  {
    if s[0] == x then 0 else 1 + IndexOf(s[1..], x)
  }

  /** Removing the first occurrence keeps every other element in order: the
      result is `s` with exactly the position `IndexOf(s, x)` cut out. */
  lemma {:induction false} RemoveFirstSplits<T>(s: seq<T>, x: T)
    requires x in s
    ensures RemoveFirst(s, x) == s[..IndexOf(s, x)] + s[IndexOf(s, x) + 1..]
  {
    if s[0] != x {
      var t := s[1..];
      assert x in t;
      RemoveFirstSplits(t, x);
      var i := IndexOf(t, x);
      var h, a, b := [s[0]], t[..i], t[i + 1..];
      assert IndexOf(s, x) == i + 1;
      assert RemoveFirst(s, x) == h + (a + b);
      SplitAfterHead(s, i);
      ConcatAssoc(h, a, b);
    } else {
      assert IndexOf(s, x) == 0;
      assert RemoveFirst(s, x) == s[1..];
      assert s[..0] + s[1..] == s[1..];
    }
  }

  /** Cutting `s` after position `i + 1` splits off its head and `i` more
      elements. */
  lemma SplitAfterHead<T>(s: seq<T>, i: nat)
    requires i + 1 < |s|
    ensures s[..i + 1] == [s[0]] + s[1..][..i]
    ensures s[i + 2..] == s[1..][i + 1..]
  {
  }

  lemma ConcatAssoc<T>(a: seq<T>, b: seq<T>, c: seq<T>)
    ensures a + (b + c) == (a + b) + c
  {
  }

  lemma NoDupTail<T>(s: seq<T>)
    requires NoDup(s) && |s| > 0
    ensures NoDup(s[1..]) && s[0] !in s[1..]
  {
    forall i, j | 0 <= i < j < |s[1..]| ensures s[1..][i] != s[1..][j] {
      assert s[i + 1] != s[j + 1];
    }
    forall j | 0 <= j < |s[1..]| ensures s[1..][j] != s[0] {
      assert s[0] != s[j + 1];
    }
  }

  lemma NoDupCons<T>(x: T, t: seq<T>)
    requires NoDup(t) && x !in t
    ensures NoDup([x] + t)
  {
    forall i, j | 0 <= i < j < |[x] + t| ensures ([x] + t)[i] != ([x] + t)[j] {
      if i == 0 {
        assert ([x] + t)[j] == t[j - 1];
      } else {
        assert t[i - 1] != t[j - 1];
      }
    }
  }

  lemma {:induction false} RemoveFirstMembers<T>(s: seq<T>, x: T, y: T)
    requires NoDup(s)
    ensures y in RemoveFirst(s, x) <==> y in s && y != x
  {
    if |s| > 0 {
      NoDupTail(s);
      assert s == [s[0]] + s[1..];
      if s[0] != x {
        RemoveFirstMembers(s[1..], x, y);
        assert RemoveFirst(s, x) == [s[0]] + RemoveFirst(s[1..], x);
      }
    }
  }

  /** On a duplicate-free sequence, removing the first occurrence removes
      the element altogether and keeps the sequence duplicate-free. */
  lemma {:induction false} RemoveFirstNoDup<T>(s: seq<T>, x: T)
    requires NoDup(s)
    ensures NoDup(RemoveFirst(s, x))
    ensures forall y :: y in RemoveFirst(s, x) <==> y in s && y != x
  {
    forall y ensures y in RemoveFirst(s, x) <==> y in s && y != x {
      RemoveFirstMembers(s, x, y);
    }
    if |s| > 0 {
      NoDupTail(s);
      if s[0] != x {
        RemoveFirstNoDup(s[1..], x);
        assert RemoveFirst(s, x) == [s[0]] + RemoveFirst(s[1..], x);
        NoDupCons(s[0], RemoveFirst(s[1..], x));
      }
    }
  }

  lemma NoDupSnoc<T>(s: seq<T>, x: T)
    requires NoDup(s) && x !in s
    ensures NoDup(s + [x])
  {
    forall i, j | 0 <= i < j < |s + [x]| ensures (s + [x])[i] != (s + [x])[j] {
      if j == |s| {
        assert (s + [x])[i] == s[i];
      }
    }
  }
}

=== FILE: text.dfy ===
/** String helpers with Python's meaning: `str.lower` (ASCII letters only),
    `in` on strings, `str.join`, `str.replace` of one character, `str.strip`
    with a character set, string ordering, and `str(int)`. */
module Text {

  /** Python's `c.lower()` restricted to the ASCII letters. */
  function LowerChar(c: char): (r: char)
    ensures 'A' <= c <= 'Z' ==> r as int == c as int + 32
    ensures !('A' <= c <= 'Z') ==> r == c
    ensures !('A' <= r <= 'Z')
  {
    if 'A' <= c <= 'Z' then (c as int + 32) as char else c
  }

  function Lower(s: string): (r: string)
    ensures |r| == |s|
    ensures forall i :: 0 <= i < |s| ==> r[i] == LowerChar(s[i])
  {
    if |s| == 0 then [] else [LowerChar(s[0])] + Lower(s[1..])
  }

  lemma {:induction false} LowerIdempotent(s: string)
    ensures Lower(Lower(s)) == Lower(s)
  {
    var l := Lower(s);
    assert forall i :: 0 <= i < |l| ==> Lower(l)[i] == LowerChar(LowerChar(s[i]));
  }

  /** Python's `needle in hay` for strings. */
  predicate Contains(hay: string, needle: string)
    decreases |hay|
  {
    needle <= hay || (|hay| > 0 && Contains(hay[1..], needle))
  }

  /** `needle` occurs in `hay` starting at position `i`. */
  predicate OccursAt(hay: string, needle: string, i: int) {
    0 <= i <= |hay| - |needle| && hay[i..i + |needle|] == needle
  }

  /** Substring test agrees with the positional definition. */
  lemma {:induction false} ContainsAt(hay: string, needle: string)
    ensures Contains(hay, needle) <==> exists i :: OccursAt(hay, needle, i)
    decreases |hay|
  {
    OccursStart(hay, needle);
    if !(needle <= hay) && |hay| > 0 {
      ContainsAt(hay[1..], needle);
      if Contains(hay[1..], needle) {
        var i :| OccursAt(hay[1..], needle, i);
        OccursShift(hay, needle, i);
      }
      if exists i :: OccursAt(hay, needle, i) {
        var i :| OccursAt(hay, needle, i);
        assert i != 0;
        OccursShift(hay, needle, i - 1);
      }
    }
  }

  lemma OccursStart(hay: string, needle: string)
    ensures OccursAt(hay, needle, 0) <==> needle <= hay
  {
  }

  /** An occurrence in the tail is an occurrence one place later. */
  lemma OccursShift(hay: string, needle: string, i: int)
    requires |hay| > 0 && i >= 0
    ensures OccursAt(hay[1..], needle, i) <==> OccursAt(hay, needle, i + 1)
  {
    if 0 <= i <= |hay| - 1 - |needle| {
      assert hay[1..][i..i + |needle|] == hay[i + 1..i + 1 + |needle|];
    }
  }

  lemma ContainsEmpty(hay: string)
    ensures Contains(hay, "")
  {
  }

  /** Python's `sep.join(parts)`. */
  function Join(parts: seq<string>, sep: string): (r: string)
    ensures |parts| == 0 ==> r == ""
    ensures |parts| == 1 ==> r == parts[0]
  {
    if |parts| == 0 then ""
    else if |parts| == 1 then parts[0]
    else parts[0] + sep + Join(parts[1..], sep)
  }

  /** Python's `s.replace(c, rep)` for a one-character pattern: every
      occurrence of `c` is replaced, left to right, without rescanning. */
  function ReplaceChar(s: string, c: char, rep: string): (r: string)
    ensures c !in s ==> r == s
    ensures c !in rep ==> c !in r
  {
    if |s| == 0 then []
    else (if s[0] == c then rep else [s[0]]) + ReplaceChar(s[1..], c, rep)
  }

  /** On a single character `ReplaceChar` replaces it or keeps it. */
  lemma ReplaceCharSingle(d: char, c: char, rep: string)
    ensures ReplaceChar([d], c, rep) == if d == c then rep else [d]
  {
    assert [d][1..] == [];
  }

  lemma {:induction false} ReplaceCharAppend(a: string, b: string, c: char, rep: string)
    ensures ReplaceChar(a + b, c, rep) == ReplaceChar(a, c, rep) + ReplaceChar(b, c, rep)
  {
    if |a| == 0 {
      assert a + b == b;
    } else {
      assert (a + b)[1..] == a[1..] + b;
      ReplaceCharAppend(a[1..], b, c, rep);
    }
  }

  /** A character in neither the string nor the replacement is not in
      the result. */
  lemma {:induction false} ReplaceCharAvoids(s: string, c: char, rep: string, x: char)
    requires x !in s && x !in rep
    ensures x !in ReplaceChar(s, c, rep)
  {
    if |s| > 0 {
      assert x !in s[1..];
      ReplaceCharAvoids(s[1..], c, rep, x);
    }
  }

  /** Every character except `d` survives `ReplaceChar(_, d, [])`. */
  lemma {:induction false} RemoveCharKeeps(s: string, d: char, x: char)
    requires x != d
    ensures x in s <==> x in ReplaceChar(s, d, [])
  {
    if |s| > 0 {
      RemoveCharKeeps(s[1..], d, x);
      assert x in s <==> s[0] == x || x in s[1..];
    }
  }

  /** Number of leading characters of `s` that belong to `cs`. */
  function LeadLen(s: string, cs: set<char>): (n: nat)
    ensures n <= |s|
    ensures forall k :: 0 <= k < n ==> s[k] in cs
    ensures n < |s| ==> s[n] !in cs
  {
    if |s| == 0 || s[0] !in cs then 0 else 1 + LeadLen(s[1..], cs)
  }

  /** The run of `cs` characters ends exactly where the first other
      character stands. */
  lemma LeadLenIs(s: string, cs: set<char>, n: nat)
    requires n <= |s| && (forall k :: 0 <= k < n ==> s[k] in cs)
    requires n < |s| ==> s[n] !in cs
    ensures LeadLen(s, cs) == n
  {
  }

  /** Number of trailing characters of `s` that belong to `cs`. */
  function TrailLen(s: string, cs: set<char>): (n: nat)
    ensures n <= |s|
    ensures forall k :: |s| - n <= k < |s| ==> s[k] in cs
    ensures n < |s| ==> s[|s| - n - 1] !in cs
  {
    if |s| == 0 || s[|s| - 1] !in cs then 0 else 1 + TrailLen(s[..|s| - 1], cs)
  }

  /** Python's `s.strip(chars)`: drop the longest prefix, then the longest
      suffix, made only of characters of `cs`. The result is the slice
      `s[lo..hi]`: everything cut away belongs to `cs`, and what remains
      neither starts nor ends with a character of `cs`. */
  function Strip(s: string, cs: set<char>): (r: string)
    ensures exists lo, hi :: 0 <= lo <= hi <= |s| && r == s[lo..hi]
              && (forall k :: 0 <= k < lo ==> s[k] in cs)
              && (forall k :: hi <= k < |s| ==> s[k] in cs)
    ensures |r| > 0 ==> r[0] !in cs && r[|r| - 1] !in cs
  {
    var lo := LeadLen(s, cs);
    var hi := lo + |s[lo..]| - TrailLen(s[lo..], cs);
    StripWindow(s, cs);
    s[lo..hi]
  }

  /** The characters `Strip` cuts off all belong to `cs`, and the ones it
      keeps at either end do not. */
  lemma StripWindow(s: string, cs: set<char>)
    ensures var lo := LeadLen(s, cs);
      var hi := lo + |s[lo..]| - TrailLen(s[lo..], cs);
      && 0 <= lo <= hi <= |s|
      && (forall k :: 0 <= k < lo ==> s[k] in cs)
      && (forall k :: hi <= k < |s| ==> s[k] in cs)
      && (lo < hi ==> s[lo] !in cs && s[hi - 1] !in cs)
  {
    TrailShift(s, LeadLen(s, cs), cs);
  }

  /** `TrailLen` of a suffix, in the positions of the whole string. */
  lemma TrailShift(s: string, lo: nat, cs: set<char>)
    requires lo <= |s|
    ensures var n := TrailLen(s[lo..], cs);
      && n <= |s| - lo
      && (forall k :: |s| - n <= k < |s| ==> s[k] in cs)
      && (n < |s| - lo ==> s[|s| - n - 1] !in cs)
  {
    var t := s[lo..];
    var n := TrailLen(t, cs);
    forall k | |s| - n <= k < |s| ensures s[k] in cs {
      assert s[k] == t[k - lo];
    }
    if n < |t| {
      assert s[|s| - n - 1] == t[|t| - n - 1];
    }
  }

  /** The characters Python's argument-less `str.strip()` removes, as far
      as ASCII goes. */
  const Whitespace: set<char> := {' ', '\t', '\n', '\r', 11 as char, 12 as char, 28 as char, 29 as char, 30 as char, 31 as char}

  /** Python's `s.strip()`. */
  function Trim(s: string): (r: string)
    ensures |r| <= |s|
    ensures |r| > 0 ==> r[0] !in Whitespace && r[|r| - 1] !in Whitespace
  {
    Strip(s, Whitespace)
  }

  /** Nothing to strip at either end leaves the string unchanged. */
  lemma StripClean(s: string, cs: set<char>)
    requires |s| > 0 ==> s[0] !in cs && s[|s| - 1] !in cs
    ensures Strip(s, cs) == s
  {
    if |s| > 0 {
      assert LeadLen(s, cs) == 0;
      assert TrailLen(s, cs) == 0;
    }
  }

  /** Stripping twice is stripping once. */
  lemma StripIdempotent(s: string, cs: set<char>)
    ensures Strip(Strip(s, cs), cs) == Strip(s, cs)
  {
    StripClean(Strip(s, cs), cs);
  }

  /** Python's string ordering `a <= b`: lexicographic by code point, a
      proper prefix sorting first. */
  predicate StrLe(a: string, b: string) {
    if |a| == 0 then true
    else if |b| == 0 then false
    else if a[0] != b[0] then a[0] < b[0]
    else StrLe(a[1..], b[1..])
  }

  lemma {:induction false} StrLeTotal(a: string, b: string)
    ensures StrLe(a, b) || StrLe(b, a)
  {
    if |a| > 0 && |b| > 0 && a[0] == b[0] {
      StrLeTotal(a[1..], b[1..]);
    }
  }

  lemma {:induction false} StrLeTransitive(a: string, b: string, c: string)
    requires StrLe(a, b) && StrLe(b, c)
    ensures StrLe(a, c)
  {
    if |a| > 0 && |b| > 0 && |c| > 0 && a[0] == b[0] && b[0] == c[0] {
      StrLeTransitive(a[1..], b[1..], c[1..]);
    }
  }

  lemma {:induction false} StrLeAntisymmetric(a: string, b: string)
    requires StrLe(a, b) && StrLe(b, a)
    ensures a == b
  {
    if |a| > 0 && |b| > 0 {
      StrLeAntisymmetric(a[1..], b[1..]);
      assert a == [a[0]] + a[1..] && b == [b[0]] + b[1..];
    }
  }

  function DigitChar(d: nat): (c: char)
    requires d < 10
    ensures '0' <= c <= '9'
  {
    ['0', '1', '2', '3', '4', '5', '6', '7', '8', '9'][d]
  }

  /** Python's `str(n)` for a natural number. */
  function NatToDecimal(n: nat): (r: string)
    ensures |r| > 0
    ensures forall i :: 0 <= i < |r| ==> '0' <= r[i] <= '9'
    ensures n > 0 ==> r[0] != '0'
    decreases n
  {
    if n < 10 then [DigitChar(n)] else NatToDecimal(n / 10) + [DigitChar(n % 10)]
  }

  /** Python's `str(i)` for any integer. */
  function IntToDecimal(i: int): (r: string)
    ensures |r| > 0
    ensures (i < 0) <==> r[0] == '-'
  {
    if i < 0 then "-" + NatToDecimal(-i) else NatToDecimal(i)
  }

  /** Reading the digits back yields the number: the rendering is exact. */
  function DecimalValue(s: string): int
  {
    if |s| == 0 then 0 else 10 * DecimalValue(s[..|s| - 1]) + (s[|s| - 1] as int - '0' as int)
  }

  lemma {:induction false} NatToDecimalRoundTrip(n: nat)
    ensures DecimalValue(NatToDecimal(n)) == n
    decreases n
  {
    if n >= 10 {
      NatToDecimalRoundTrip(n / 10);
      var r := NatToDecimal(n);
      assert r[..|r| - 1] == NatToDecimal(n / 10);
      assert r[|r| - 1] == DigitChar(n % 10);
      assert DigitChar(n % 10) as int - '0' as int == n % 10 by {
        var d := n % 10;
        assert d == 0 || d == 1 || d == 2 || d == 3 || d == 4 || d == 5 || d == 6 || d == 7 || d == 8 || d == 9;
      }
    } else {
      assert n == 0 || n == 1 || n == 2 || n == 3 || n == 4 || n == 5 || n == 6 || n == 7 || n == 8 || n == 9;
    }
  }
}

=== FILE: ucm_client.dfy ===
/** The click-to-dial client of the Grandstream UCM HTTPS API: the
    challenge/login handshake, the cached session cookie and the single
    retry of a failed dial. The network is an oracle answering the k-th
    request of an operation, the MD5 hex digest is a parameter, and the
    clock is read as one instant `now` per operation. */
module UcmClient {
  import opened Prelude
  import opened Text

  /** A cached cookie is reused for 270 seconds (the PBX expires it after
      300). */
  const SessionTimeout: real := 270.0

  const ConnectionErrorPrefix := "Errore di connessione al centralino: "
  const StatusErrorPrefix := "Codice errore: "
  const NoChallengeError := "Il centralino non ha restituito un challenge valido"
  const NoCookieError := "Autenticazione fallita: nessun cookie ricevuto"

  /** The three request bodies the client posts. */
  datatype Request =
    | ChallengeRequest(user: string)
    | LoginRequest(user: string, token: string)
    | DialRequest(cookie: string, caller: string, outbound: string)

  /** A decoded reply: its `status` (absent or null is `None`) and the
      string fields of its `response` object (an absent object has none). */
  datatype Reply = Reply(status: Option<int>, response: map<string, string>)

  /** What came back for one request: a decoded reply, or a transport
      failure (connection error, HTTP error status, undecodable body). */
  datatype Transport = Delivered(reply: Reply) | Failed(reason: string)

  /** The PBX as seen by one operation: the outcome of its k-th request. */
  type Network = (nat, Request) -> Transport

  datatype Credentials = Credentials(user: string, password: string)

  /** The cached session: the cookie (None until the first login) and the
      time it was obtained. */
  datatype Session = Session(cookie: Option<string>, cookieTime: real)

  const NoSession := Session(None, 0.0)

  /** What an operation leaves behind: the session, every request it
      posted in order, and its result. */
  datatype Run<T> = Run(session: Session, sent: seq<Request>, result: Result<T, string>)

  // ---------------------------------------------------------------------
  // One request
  // ---------------------------------------------------------------------

  /** `_request`: a transport failure and a reply whose status is present
      and non-zero are errors; anything else yields the response fields. The
      error text of a bad status is the response's `message`, or the status
      code when there is none. */
  function CheckReply(tr: Transport): (r: Result<map<string, string>, string>)
    ensures r.Ok? <==> tr.Delivered? && (tr.reply.status == None || tr.reply.status == Some(0))
    ensures r.Ok? ==> r.value == tr.reply.response
    ensures tr.Failed? ==> r == Err(ConnectionErrorPrefix + tr.reason)
    ensures tr.Delivered? && r.Err? && "message" in tr.reply.response ==>
              r.error == tr.reply.response["message"]
    ensures tr.Delivered? && r.Err? && "message" !in tr.reply.response ==>
              r.error == StatusErrorPrefix + IntToDecimal(tr.reply.status.value)
  {
    match tr
    case Failed(reason) => Err(ConnectionErrorPrefix + reason)
    case Delivered(reply) =>
      match reply.status
      case Some(code) =>
        if code != 0 then
          Err(if "message" in reply.response then reply.response["message"]
              else StatusErrorPrefix + IntToDecimal(code))
        else Ok(reply.response)
      case None => Ok(reply.response)
  }

  /** Posts `req` as the next request of the operation. */
  function Post(net: Network, sent: seq<Request>, req: Request): (r: (seq<Request>, Result<map<string, string>, string>))
    ensures r.0 == sent + [req]
    ensures r.1 == CheckReply(net(|sent|, req))
  {
    (sent + [req], CheckReply(net(|sent|, req)))
  }

  /** `x.get(key)` read as a truth value: missing and empty are both false. */
  function NonEmpty(fields: map<string, string>, key: string): Option<string> {
    if key in fields && fields[key] != "" then Some(fields[key]) else None
  }

  // ---------------------------------------------------------------------
  // Authentication and the cookie cache
  // ---------------------------------------------------------------------

  /** `_authenticate`: ask for a challenge, log in with the token
      `md5(challenge + password)`, keep the cookie and the time. Any failure
      leaves the session as it was. */
  function Authenticate(cred: Credentials, md5: string -> string, net: Network, s: Session,
                        sent: seq<Request>, now: real): (r: Run<()>)
    ensures |sent| < |r.sent| <= |sent| + 2 && r.sent[..|sent|] == sent
    ensures r.sent[|sent|] == ChallengeRequest(cred.user)
    ensures r.result.Err? ==> r.session == s
    ensures r.result.Ok? ==>
              && |r.sent| == |sent| + 2
              && net(|sent|, ChallengeRequest(cred.user)).Delivered?
              && var challenge := NonEmpty(net(|sent|, ChallengeRequest(cred.user)).reply.response, "challenge");
              && challenge.Some?
              && r.sent[|sent| + 1] == LoginRequest(cred.user, md5(challenge.value + cred.password))
              && LoginAccepted(net, |sent| + 1, r.sent[|sent| + 1], r.session.cookie)
              && r.session.cookieTime == now
  {
    var (sent1, c) := Post(net, sent, ChallengeRequest(cred.user));
    match c
    case Err(msg) => Run(s, sent1, Err(msg))
    case Ok(fields) =>
      match NonEmpty(fields, "challenge")
      case None => Run(s, sent1, Err(NoChallengeError))
      case Some(challenge) =>
        var (sent2, l) := Post(net, sent1, LoginRequest(cred.user, md5(challenge + cred.password)));
        match l
        case Err(msg) => Run(s, sent2, Err(msg))
        case Ok(fields2) =>
          match NonEmpty(fields2, "cookie")
          case None => Run(s, sent2, Err(NoCookieError))
          case Some(cookie) => Run(Session(Some(cookie), now), sent2, Ok(()))
  }

  /** The `i`-th request is a login the PBX accepted, handing out the
      non-empty cookie `cookie`. */
  predicate LoginAccepted(net: Network, i: nat, req: Request, cookie: Option<string>) {
    && req.LoginRequest?
    && CheckReply(net(i, req)).Ok?
    && cookie.Some?
    && NonEmpty(CheckReply(net(i, req)).value, "cookie") == cookie
  }

  /** The cached cookie may be reused at `now`. */
  predicate Fresh(s: Session, now: real) {
    s.cookie.Some? && s.cookie.value != "" && now - s.cookieTime < SessionTimeout
  }

  /** `_get_cookie`: a fresh cached cookie is returned without any request;
      otherwise the client authenticates and returns the new cookie. */
  function GetCookie(cred: Credentials, md5: string -> string, net: Network, s: Session,
                     sent: seq<Request>, now: real): (r: Run<string>)
    ensures Fresh(s, now) ==> r == Run(s, sent, Ok(s.cookie.value))
    ensures !Fresh(s, now) ==>
              var a := Authenticate(cred, md5, net, s, sent, now);
              && r.session == a.session && r.sent == a.sent
              && (a.result.Ok? ==> r.result == Ok(a.session.cookie.value))
              && (a.result.Err? ==> r.result == Err(a.result.error))
    ensures r.result.Ok? ==> r.session.cookie == Some(r.result.value) && r.result.value != ""
  {
    if Fresh(s, now) then Run(s, sent, Ok(s.cookie.value))
    else
      var a := Authenticate(cred, md5, net, s, sent, now);
      match a.result
      case Err(msg) => Run(a.session, a.sent, Err(msg))
      case Ok(_) => Run(a.session, a.sent, Ok(a.session.cookie.value))
  }

  /** `dial_outbound`: dial with the cached (or a new) cookie; if the dial
      fails, drop the cookie, log in again and dial once more. A failure to
      obtain the first cookie is not retried. */
  function DialOutbound(cred: Credentials, md5: string -> string, net: Network, s: Session, now: real,
                        extension: string, number: string): (r: Run<()>)
    ensures r.result.Ok? ==>
      && |r.sent| > 0 && r.sent[|r.sent| - 1].DialRequest?
      && r.sent[|r.sent| - 1].caller == extension && r.sent[|r.sent| - 1].outbound == number
      && CheckReply(net(|r.sent| - 1, r.sent[|r.sent| - 1])).Ok?
    ensures var g := GetCookie(cred, md5, net, s, [], now);
      g.result.Err? ==> r.result == Err(g.result.error) && r.sent == g.sent && r.session == s
    ensures |r.sent| > 0 && r.sent[|r.sent| - 1].DialRequest? ==> r.session.cookie == Some(r.sent[|r.sent| - 1].cookie)
    ensures r.session.cookie.Some? && r.session.cookie != s.cookie ==> r.session.cookieTime == now
  {
    var g := GetCookie(cred, md5, net, s, [], now);
    match g.result
    case Err(msg) => Run(g.session, g.sent, Err(msg))
    case Ok(cookie) =>
      var (sent1, d) := Post(net, g.sent, DialRequest(cookie, extension, number));
      if d.Ok? then Run(g.session, sent1, Ok(()))
      else
        var g2 := GetCookie(cred, md5, net, g.session.(cookie := None), sent1, now);
        GetCookieSendsNoDial(cred, md5, net, g.session.(cookie := None), sent1, now);
        match g2.result
        case Err(msg) => Run(g2.session, g2.sent, Err(msg))
        case Ok(cookie2) =>
          var (sent2, d2) := Post(net, g2.sent, DialRequest(cookie2, extension, number));
          Run(g2.session, sent2, if d2.Ok? then Ok(()) else Err(d2.error))
  }

  // ---------------------------------------------------------------------
  // Properties of a dial
  // ---------------------------------------------------------------------

  /** The positions of the dial requests in a trace. */
  function DialPositions(sent: seq<Request>): (ps: set<int>)
    ensures forall i :: i in ps <==> 0 <= i < |sent| && sent[i].DialRequest?
  {
    set i | 0 <= i < |sent| && sent[i].DialRequest?
  }

  /** Number of dial requests in a trace. */
  function DialCount(sent: seq<Request>): (n: nat)
    ensures n <= |sent|
  {
    if |sent| == 0 then 0 else DialCount(sent[..|sent| - 1]) + (if sent[|sent| - 1].DialRequest? then 1 else 0)
  }

  lemma {:induction false} DialCountNoDial(sent: seq<Request>, more: seq<Request>)
    requires forall i :: 0 <= i < |more| ==> !more[i].DialRequest?
    ensures DialCount(sent + more) == DialCount(sent)
    decreases |more|
  {
    if |more| > 0 {
      var init := more[..|more| - 1];
      assert (sent + more)[..|sent + more| - 1] == sent + init;
      DialCountNoDial(sent, init);
    } else {
      assert sent + more == sent;
    }
  }

  /** The dial at position `i` carries a cookie the PBX handed out: the
      cached one, still fresh, as the operation's first request, or the one
      returned by the login right before it. */
  predicate CookieFromServer(s: Session, now: real, net: Network, sent: seq<Request>, i: int)
    requires 0 <= i < |sent| && sent[i].DialRequest?
  {
    || (i == 0 && Fresh(s, now) && s.cookie == Some(sent[i].cookie))
    || (i > 0 && LoginAccepted(net, i - 1, sent[i - 1], Some(sent[i].cookie)))
  }

  /** What one authentication or cookie lookup posts: no dial. */
  lemma GetCookieSendsNoDial(cred: Credentials, md5: string -> string, net: Network, s: Session,
                             sent: seq<Request>, now: real)
    ensures var g := GetCookie(cred, md5, net, s, sent, now);
      && |sent| <= |g.sent| <= |sent| + 2 && g.sent[..|sent|] == sent
      && (forall i :: |sent| <= i < |g.sent| ==> !g.sent[i].DialRequest?)
      && DialCount(g.sent) == DialCount(sent)
      && (g.result.Ok? && |g.sent| > |sent| ==>
            |g.sent| == |sent| + 2 && LoginAccepted(net, |g.sent| - 1, g.sent[|g.sent| - 1], Some(g.result.value)))
      && (g.result.Ok? && |g.sent| == |sent| ==> Fresh(s, now) && s.cookie == Some(g.result.value))
      && (!Fresh(s, now) ==> |g.sent| > |sent| && g.sent[|sent|] == ChallengeRequest(cred.user))
      && (g.result.Err? ==> g.session == s)
  {
    var g := GetCookie(cred, md5, net, s, sent, now);
    assert g.sent == sent + g.sent[|sent|..];
    DialCountNoDial(sent, g.sent[|sent|..]);
  }

  /** Every dial request of the trace is for `extension` and `number` and
      carries a cookie the PBX handed out. */
  predicate DialsWellFormed(s: Session, now: real, net: Network, sent: seq<Request>,
                            extension: string, number: string)
  {
    forall i :: 0 <= i < |sent| && sent[i].DialRequest? ==>
      sent[i].caller == extension && sent[i].outbound == number && CookieFromServer(s, now, net, sent, i)
  }

  /** Appending requests that are not dials keeps the dials well formed. */
  lemma ExtendWithoutDial(s: Session, now: real, net: Network, sent: seq<Request>, longer: seq<Request>,
                          extension: string, number: string)
    requires DialsWellFormed(s, now, net, sent, extension, number)
    requires |sent| <= |longer| && longer[..|sent|] == sent
    requires forall i :: |sent| <= i < |longer| ==> !longer[i].DialRequest?
    ensures DialsWellFormed(s, now, net, longer, extension, number)
  {
    forall i | 0 <= i < |longer| && longer[i].DialRequest?
      ensures longer[i].caller == extension && longer[i].outbound == number
              && CookieFromServer(s, now, net, longer, i)
    {
      assert i < |sent| && longer[i] == sent[i];
      assert i > 0 ==> longer[i - 1] == sent[i - 1];
      assert CookieFromServer(s, now, net, sent, i);
    }
  }

  /** Appending a dial with the cookie the preceding accepted login
      returned keeps the dials well formed. */
  lemma ExtendWithDial(s: Session, now: real, net: Network, sent: seq<Request>, cookie: string,
                       extension: string, number: string)
    requires DialsWellFormed(s, now, net, sent, extension, number)
    requires |sent| > 0 && LoginAccepted(net, |sent| - 1, sent[|sent| - 1], Some(cookie))
    ensures DialsWellFormed(s, now, net, sent + [DialRequest(cookie, extension, number)], extension, number)
  {
    var longer := sent + [DialRequest(cookie, extension, number)];
    forall i | 0 <= i < |longer| && longer[i].DialRequest?
      ensures longer[i].caller == extension && longer[i].outbound == number
              && CookieFromServer(s, now, net, longer, i)
    {
      if i < |sent| {
        assert longer[i] == sent[i];
        assert i > 0 ==> longer[i - 1] == sent[i - 1];
        assert CookieFromServer(s, now, net, sent, i);
      } else {
        assert longer[i - 1] == sent[|sent| - 1];
      }
    }
  }

  /** `dial_outbound` posts at most two dial requests, both for the given
      extension and number and each with a cookie the PBX handed out. It
      succeeds exactly when its last request is a dial the PBX accepted. */
  lemma DialTrace(cred: Credentials, md5: string -> string, net: Network, s: Session, now: real,
                  extension: string, number: string)
    ensures var r := DialOutbound(cred, md5, net, s, now, extension, number);
      && |r.sent| <= 6
      && DialCount(r.sent) <= 2
      && DialsWellFormed(s, now, net, r.sent, extension, number)
      && (r.result.Ok? <==> |r.sent| > 0 && r.sent[|r.sent| - 1].DialRequest?
                             && CheckReply(net(|r.sent| - 1, r.sent[|r.sent| - 1])).Ok?)
  {
    var g := GetCookie(cred, md5, net, s, [], now);
    GetCookieSendsNoDial(cred, md5, net, s, [], now);
    assert DialsWellFormed(s, now, net, g.sent, extension, number);
    if g.result.Ok? {
      var d := DialRequest(g.result.value, extension, number);
      var sent1 := g.sent + [d];
      assert DialCount(sent1) == 1;
      if |g.sent| == 0 {
        assert DialsWellFormed(s, now, net, sent1, extension, number);
      } else {
        ExtendWithDial(s, now, net, g.sent, g.result.value, extension, number);
      }
      if CheckReply(net(|g.sent|, d)).Err? {
        RetryTrace(cred, md5, net, s, now, extension, number, g, sent1);
      }
    }
  }

  /** The retry half of `DialTrace`: from the first failed dial on. */
  lemma RetryTrace(cred: Credentials, md5: string -> string, net: Network, s: Session, now: real,
                   extension: string, number: string, g: Run<string>, sent1: seq<Request>)
    requires g == GetCookie(cred, md5, net, s, [], now) && g.result.Ok? && |g.sent| <= 2
    requires sent1 == g.sent + [DialRequest(g.result.value, extension, number)]
    requires CheckReply(net(|g.sent|, sent1[|g.sent|])).Err?
    requires DialCount(sent1) == 1
    requires DialsWellFormed(s, now, net, sent1, extension, number)
    ensures var r := DialOutbound(cred, md5, net, s, now, extension, number);
      && |r.sent| <= 6
      && DialCount(r.sent) <= 2
      && DialsWellFormed(s, now, net, r.sent, extension, number)
      && (r.result.Ok? <==> |r.sent| > 0 && r.sent[|r.sent| - 1].DialRequest?
                             && CheckReply(net(|r.sent| - 1, r.sent[|r.sent| - 1])).Ok?)
  {
    var s1 := g.session.(cookie := None);
    var g2 := GetCookie(cred, md5, net, s1, sent1, now);
    RetryShape(cred, md5, net, s, now, extension, number, g, sent1);
    GetCookieSendsNoDial(cred, md5, net, s1, sent1, now);
    ExtendWithoutDial(s, now, net, sent1, g2.sent, extension, number);
    var r := DialOutbound(cred, md5, net, s, now, extension, number);
    if g2.result.Ok? {
      var d2 := DialRequest(g2.result.value, extension, number);
      assert !Fresh(s1, now);
      assert |g2.sent| == |sent1| + 2;
      assert r.sent[..|r.sent| - 1] == g2.sent;
      assert DialCount(r.sent) == DialCount(g2.sent) + 1;
      ExtendWithDial(s, now, net, g2.sent, g2.result.value, extension, number);
    }
  }

  /** After a refused first dial the client logs in again and, if that
      succeeds, dials once more; the outcome is that of the second dial. */
  lemma RetryShape(cred: Credentials, md5: string -> string, net: Network, s: Session, now: real,
                   extension: string, number: string, g: Run<string>, sent1: seq<Request>)
    requires g == GetCookie(cred, md5, net, s, [], now) && g.result.Ok?
    requires sent1 == g.sent + [DialRequest(g.result.value, extension, number)]
    requires CheckReply(net(|g.sent|, sent1[|g.sent|])).Err?
    ensures var r := DialOutbound(cred, md5, net, s, now, extension, number);
      var g2 := GetCookie(cred, md5, net, g.session.(cookie := None), sent1, now);
      && r.session == g2.session
      && (g2.result.Err? ==> r.sent == g2.sent && r.result.Err?)
      && (g2.result.Ok? ==>
            && r.sent == g2.sent + [DialRequest(g2.result.value, extension, number)]
            && (r.result.Ok? <==> CheckReply(net(|g2.sent|, DialRequest(g2.result.value, extension, number))).Ok?))
  {
  }

  /** A failed dial is retried with a new login even if the cached cookie
      was still fresh, and a failed re-login leaves no cookie cached. */
  lemma RetryLogsInAgain(cred: Credentials, md5: string -> string, net: Network, s: Session, now: real,
                         extension: string, number: string)
    ensures var r := DialOutbound(cred, md5, net, s, now, extension, number);
      var g := GetCookie(cred, md5, net, s, [], now);
      g.result.Ok? && CheckReply(net(|g.sent|, DialRequest(g.result.value, extension, number))).Err? ==>
        && |r.sent| > |g.sent| + 1
        && r.sent[|g.sent| + 1] == ChallengeRequest(cred.user)
        && (r.result.Err? && !r.sent[|r.sent| - 1].DialRequest? ==> r.session.cookie == None)
  {
    var g := GetCookie(cred, md5, net, s, [], now);
    if g.result.Ok? {
      var sent1 := g.sent + [DialRequest(g.result.value, extension, number)];
      GetCookieSendsNoDial(cred, md5, net, g.session.(cookie := None), sent1, now);
    }
  }

  /** A first dial the PBX accepts ends the operation: one dial, no
      retry, the session as `_get_cookie` left it. */
  lemma FirstDialAccepted(cred: Credentials, md5: string -> string, net: Network, s: Session, now: real,
                          extension: string, number: string)
    ensures var r := DialOutbound(cred, md5, net, s, now, extension, number);
      var g := GetCookie(cred, md5, net, s, [], now);
      g.result.Ok? && CheckReply(net(|g.sent|, DialRequest(g.result.value, extension, number))).Ok? ==>
        r == Run(g.session, g.sent + [DialRequest(g.result.value, extension, number)], Ok(()))
  {
  }

  /** A login at `t0` is reused, without any request, by every lookup
      strictly less than 270 seconds later, and renewed by a challenge from
      then on. */
  lemma SessionWindow(cred: Credentials, md5: string -> string, net: Network, s: Session, t0: real,
                      net2: Network, t1: real)
    requires Authenticate(cred, md5, net, s, [], t0).result.Ok?
    ensures var s1 := Authenticate(cred, md5, net, s, [], t0).session;
      var g := GetCookie(cred, md5, net2, s1, [], t1);
      && (t1 - t0 < SessionTimeout ==> g.sent == [] && g.result == Ok(s1.cookie.value))
      && (t1 - t0 >= SessionTimeout ==> |g.sent| > 0 && g.sent[0] == ChallengeRequest(cred.user))
  {
  }
}
